=== FILE: README.md ===
# beno-coffe menu pipeline, modelled in Dafny

This project models the menu data path of the beno-coffe site. It covers each stage, from the tabular backend to the buttons on the menu page:

- **Joined-menu endpoint.** It reads the menu, variants and sizes tables of the backend. It coerces each row's fields, fans every variant out onto the items it links to, and orders each item's variants by volume.
  - Both versions are modelled: the current one and the earlier two-table one.
- **Backend helpers.** The required settings are split into present and missing. A table's rows address is built from the base address.
- **Tolerant number reading.** A number is read out of a price or volume field, whether it arrives as a number or as text. A decimal comma is accepted, and a unit suffix is ignored.
- **Price facts.** An item's price facts are its own price, its finite variant prices and their minimum. From them come:
  - the price a card adds to the cart;
  - the list and detail price labels.
- **Display helpers.** The name and category labels, the category key and the background video chosen by name.
- **Menu loading on server pages.** The address is built from the request headers. The answer is normalised to a list, and one item is looked up by id.
- **The cart.** It supports add, increase and decrease. It counts its items and sanitises entries read back from the browser's store.
- **The menu page.**
  - The category list with "all" first.
  - The starting category and card picked from the `item` query parameter.
  - The fallback for an unknown category, and the visible items.
- **A category's row of cards.**
  - Card keys and the cart input a card sends.
  - The one-shot focus on the card named in the address.
  - The set of add buttons being animated, and the storage key of the row's scroll position.
- **The product dialog.** Its content, its size rows, and the price and id it adds to the cart.
- **Two header menus.** An open/closing machine closed by the panel's animation end, and an older one closed by a timer.
- **The landing page's opening-hours badge.**

Each module follows one source file:

| module | source |
|---|---|
| `JsValue` | JavaScript values, `String(x)`, `??`, truthiness |
| `Text` | trimming, lower-casing, substring search, decimal text |
| `Number` | `src/lib/number.ts` |
| `MenuData` | `src/lib/menuData.ts` |
| `MenuView` | `src/lib/menuView.ts` |
| `Baserow` | `src/lib/baserow.js` |
| `MenuApi` | `src/lib/menuApi.ts` |
| `Join`, `VariantSort`, `Catalog` | `src/app/api/menu-with-variants/route.ts` |
| `CatalogLegacy` | `src/app/api/menu-with-variants/route.js` |
| `Cart` | `src/components/Cart/CartProvider.tsx` |
| `MenuPage` | `src/components/MenuPage/MenuPage.tsx` |
| `CategoryRow` | `src/components/MenuPage/MenuCategoryRow.tsx` |
| `ProductModal` | `src/components/MenuPage/ProductModal.tsx` |
| `BurgerMenu` | `src/components/Navigation/Navigation.tsx` |
| `TimedMenu` | `src/components/Navigation.tsx` |
| `Hero` | `src/components/Hero/Hero.tsx` |

`Wrappers` (Option) and `Seqs` (filter, find-index) are shared helpers.

JavaScript values are a datatype `JVal`, and numbers are `Num = Fin(real) | NaN | Inf`. Reading a field of anything but an object gives `undefined`, as `x?.k` does.

Several things in the source are parameters of the model:

- the currency formatter (`format: real -> string`);
- the clock;
- the parsed store;
- the outcome of each table read (`TableRead`).

## What the code does and does not do

- **No cache.** The endpoint has no cache: it reads the three tables on every request.
- **No image resolver.** `getMenuImageSrc` is imported by the row and the dialog, but no source file defines it.
- **No timeouts or retries.** No read has a timeout or a retry. A read that answers with a non-OK status is reported as that status. A read that rejects, or whose body is not JSON, is not caught: the handler itself rejects.
- **Two versions of the endpoint.** Both `route.js` and `route.ts` define the joined-menu endpoint. `CatalogLegacy` models the former and `Catalog` the latter. They differ in four ways:
  - which settings are required;
  - which item ids are indexed;
  - raw versus normalised fields;
  - volumes and ordering.
- **Dialog cart id.** The dialog adds an item under `String(item.id)`, while the card uses the card key. For an item without an id the two differ, and every such item enters the cart as "undefined" (`ProductModal.IdlessItemsMergeInCart`). This is stated as a property of the code and not corrected, because nothing in the source says which id was intended.

## Model

| member | source | states |
|---|---|---|
| Number.ParseNumericValue | src/lib/number.ts:5-15 | a finite number is kept and a non-finite one is NaN; an absent value or a blank text is NaN; the result is always finite or NaN |
| Number.ParseFloat | src/lib/number.ts:13 | `Number.parseFloat`: NaN for blank text or text that cannot open a literal; text of digits only reads as its decimal value |
| Number.StringToNumber | src/lib/number.ts:13 | `Number(s)` on text: blank text is 0; digits only read as their decimal value; text that cannot open a literal is NaN |
| Number.ParseFloatReadsPrefix | src/lib/number.ts:13 | a unit suffix after the digits is ignored by `parseFloat` but makes `Number` give NaN |
| Number.ToNumber | src/components/Cart/CartProvider.tsx:54-55 | `Number(v)`: a number is itself; undefined and a plain object are NaN; null and the empty array are 0; a digit text is its value |
| Number.ParseNatText | src/lib/number.ts:9-14 | round trip: the decimal text of a natural number parses back to that number |
| Number.ParseDecimalComma | src/lib/number.ts:13-14 | a decimal comma is read as a decimal point: `n,f` parses to the decimal n.f |
| Number.ParseCommaThenRest | src/lib/number.ts:13-14 | only the first comma becomes a point; what follows the fraction's digits is ignored |
| Number.ParseNumericPrefix | src/lib/number.ts:13-14 | the longest numeric prefix is read: a number followed by a unit reads as the number |
| Number.ParseNoPrefix | src/lib/number.ts:13-14 | a text that does not start with a numeric literal gives NaN |
| Number.DecimalValueOfNat | src/lib/number.ts:13-14 | the decimal n.f equals n plus the fraction's digits over ten to the fraction's length |
| Number.ParseExampleDecimalComma | src/lib/__tests__/menuData.test.ts:12-15 | "120,50" reads as 120.5 |
| Number.ParseExampleSecondComma | src/lib/number.ts:13 | "1,2,3" reads as 1.2, because only the first comma is replaced |
| Number.ParseExampleUnitSuffix | src/lib/number.ts:13-14 | "150 руб" reads as 150 |
| Number.ParseExampleEmpty | src/lib/__tests__/menuData.test.ts:18-21 | null and a blank text have no value |
| MenuData.MenuVariants | src/lib/menuData.ts:44-46 | the variants are the field when it is an array, otherwise none |
| MenuData.ParseMenuPrice | src/lib/menuData.ts:27-29 | a price is finite or NaN; a finite number is kept; an absent price is NaN |
| MenuData.ParsedPrices | src/lib/menuData.ts:52-53 | one parsed price per variant, in variant order |
| MenuData.FiniteValuesMembers | src/lib/menuData.ts:54 | a value is kept exactly when it is one of the finite numbers |
| MenuData.FiniteValuesAppend | src/lib/menuData.ts:54 | filtering keeps order across a concatenation |
| MenuData.VariantPricesMembers | src/lib/menuData.ts:52-54 | a value is a variant price exactly when some variant's price parses to it |
| MenuData.MinOf | src/lib/menuData.ts:55-58 | the minimum of a non-empty list is a member that no member is below |
| MenuData.GetPriceInfo | src/lib/menuData.ts:49-67 | the own price is finite or NaN; the variant prices are the finite parsed ones; having them iff the list is non-empty; the minimum is NaN without them, otherwise a least member |
| MenuData.RawPriceOfField | src/lib/menuData.ts:50 | the own price is the parse of the `price` field, whatever the variants are |
| MenuData.AddPrice | src/components/MenuPage/MenuCategoryRow.tsx:257-264 | a price exists iff the own price or the variant minimum is finite; the own price wins when finite |
| MenuData.AddPriceFallsBackToCheapest | src/components/MenuPage/ProductModal.tsx:66-70 | without an own price the added price is a variant's price that no priced variant undercuts; without one, no variant is priced |
| MenuData.PriceInfoExampleFallback | src/lib/__tests__/menuData.test.ts:51-61 | a null price with variants "120" and "100": raw NaN, minimum 100 |
| MenuData.PriceInfoExampleBoth | src/lib/__tests__/menuData.test.ts:40-49 | own price "150" is kept next to variants 180 and "160", whose minimum is 160 |
| MenuView.OrElse | src/lib/menuView.ts:23 | `s \|\| fallback`: the text when non-empty, else the fallback |
| MenuView.NameLabel | src/lib/menuView.ts:21-24 | the trimmed name, or the fallback when the name is absent or blank |
| MenuView.NameLabelTrimmed | src/lib/menuView.ts:21-24 | with a trimmed non-blank fallback every name label is non-blank and trimmed |
| MenuView.CategoryValue | src/lib/menuView.ts:27-30 | a value exists iff the category is an object whose `value` is not nullish |
| MenuView.CategoryLabel | src/lib/menuView.ts:26-33 | the fallback without a category value or with a blank one; otherwise the trimmed text of the value |
| MenuView.CategoryLabelTrimmed | src/lib/menuView.ts:26-33 | with a trimmed fallback every category label is trimmed |
| MenuView.DashRuns | src/lib/menuView.ts:36 | the result has no white space, is no longer than the input and is empty iff the input is |
| MenuView.DashRunsWords | src/lib/menuView.ts:36 | words separated by runs of white space are joined by single dashes |
| MenuView.DashRunsNoSpace | src/lib/menuView.ts:36 | text without white space is unchanged |
| MenuView.CategoryKey | src/lib/menuView.ts:35-37 | a category key contains no white space |
| MenuView.CategoryKeyIdempotent | src/lib/menuView.ts:35-37 | the key of a key is the key itself |
| MenuView.CategoryKeyEmptyIffBlank | src/lib/menuView.ts:35-37 | the key is empty exactly when the label is blank |
| MenuView.ListPriceLabelShowsAddPrice | src/lib/menuView.ts:39-48 | the list label formats the price the card adds: plain for an own price, after "from" for a variant minimum, the fallback without one |
| MenuView.ListPriceLabel | src/lib/menuView.ts:39-48 | an own price is formatted plainly; a variant minimum is formatted after "from"; without either, the fallback |
| MenuView.DetailPriceInfo | src/lib/menuView.ts:50-66 | the detail carries the item's price facts; its label is the formatted added price or the fallback; its title is the "from" title exactly when the added price is a variant minimum, and the plain price title otherwise |
| MenuView.DetailPriceShowsAddPrice | src/lib/menuView.ts:50-66 | the list label and the detail label agree: equal for an own price or no price; for a variant minimum the list label is "from" followed by the detail label, and the detail title is the "from" title |
| MenuView.FirstKeyIn | src/lib/menuView.ts:71 | the first table entry whose key occurs in the name, none before it |
| MenuView.VideoSrc | src/lib/menuView.ts:69-73 | no video iff no key occurs in the trimmed lower-cased name; otherwise the video of the first key that occurs |
| Baserow.NormalizeBaseUrl | src/lib/baserow.js:7-12 | the result is a prefix of the address, only slashes are removed, and it does not end in a slash |
| Baserow.NormalizeBaseUrlIdempotent | src/lib/baserow.js:7-12 | normalising twice is normalising once |
| Baserow.NormalizeBaseUrlSlashes | src/lib/baserow.js:11 | appending slashes does not change the normalised address |
| Baserow.BuildTableUrl | src/lib/baserow.js:32-35 | the address starts with the normalised base and the table path |
| Baserow.BuildTableUrlSlashes | src/lib/baserow.js:32-35 | bases differing only in trailing slashes address the same table |
| Baserow.BuildTableUrlInjective | src/lib/baserow.js:32-35 | distinct table ids under one base give distinct addresses |
| Baserow.MissingKeysMembers | src/lib/baserow.js:19-26 | a key is missing exactly when it is required and not set to a non-empty text |
| Baserow.MissingKeys | src/lib/baserow.js:19-26 | every listed key is required and not present |
| Baserow.PresentValues | src/lib/baserow.js:19-26 | a key is kept exactly when it is present, with its value |
| Baserow.GetBaserowEnv | src/lib/baserow.js:15-29 | present keys carry their values, missing keys are exactly the required ones not present, in required order |
| Baserow.EnvPartition | src/lib/baserow.js:19-26 | every required key is present or missing, never both |
| Baserow.EnvMissingAppend | src/lib/baserow.js:19-26 | the missing keys keep the required order |
| Baserow.EnvAllPresent | src/lib/baserow.js:21-22 | with every key present nothing is missing |
| MenuApi.MenuBaseUrl | src/lib/menuApi.ts:10-15 | the local address without a host; otherwise protocol (default http), "://", host |
| MenuApi.MenuBaseUrlEndsWithHost | src/lib/menuApi.ts:14 | an address built from a host ends with that host |
| MenuApi.MenuUrl | src/lib/menuApi.ts:33-34 | the address ends with the endpoint path; the part before it is the base address, which is the local address without a host and otherwise ends with the host |
| MenuApi.NormalizeMenuResponse | src/lib/menuApi.ts:18-29 | an array is the list; an object's `results` array is the list; anything else is empty |
| MenuApi.NormalizeMenuResponseRoundTrip | src/lib/menuApi.ts:18-29 | normalising undoes both encodings of a list, and a normalised list is stable |
| MenuApi.FetchMenuItems | src/lib/menuApi.ts:32-44 | a failed request gives no items; a successful one the normalised answer |
| MenuApi.FirstWithId | src/lib/menuApi.ts:53 | the first position whose id text is the target, none before it |
| MenuApi.FindMenuItemById | src/lib/menuApi.ts:50-53 | none iff no item's id text equals the requested one (absent reads as "") or the first such item is null or undefined; otherwise that first item, never nullish |
| MenuApi.NullMatchFindsNothing | src/lib/menuApi.ts:53 | a null entry matches the id text "undefined", and `?? null` makes the lookup find nothing |
| MenuApi.FetchMenuItemById | src/lib/menuApi.ts:47-54 | a failed request finds nothing; a found item is one of the fetched items |
| MenuApi.FindByNumericIdExample | src/lib/__tests__/menuApi.test.ts:131-145 | a numeric id finds the item whose id is that number as text |
| Join.NormalizeLinks | src/app/api/menu-with-variants/route.ts:19-30 | an array keeps its truthy entries, an object is one link, nullish is none, any other value is the id of one link |
| Join.NormalizeLinksAppend | src/app/api/menu-with-variants/route.ts:20-21 | array links keep the array's order |
| Join.SizeLabelField | src/app/api/menu-with-variants/route.ts:157 | the first non-nullish of `value`, `name`, `label`, `id`; nullish iff all four are |
| Join.BuildIndex | src/app/api/menu-with-variants/route.ts:133-150 | every keyed item is indexed; each key points at an item with that key and no later item has it (the last wins) |
| Join.IndexOnlyOwnKey | src/app/api/menu-with-variants/route.ts:145-147 | an item is indexed under no key but its own |
| Join.AttachOwned | src/app/api/menu-with-variants/route.ts:165-171 | after the fan-out each list is what it held followed by exactly the payloads of the links naming it, in link order |
| Join.OwnedNone | src/app/api/menu-with-variants/route.ts:166-169 | an item no key names receives nothing |
| Join.OwnedAppend | src/app/api/menu-with-variants/route.ts:152-172 | the payloads from concatenated links are those of each part in turn |
| VariantSort.SortPermutes | src/app/api/menu-with-variants/route.ts:174-191 | the sorted variants are a permutation of the joined ones |
| VariantSort.SortByVolume | src/app/api/menu-with-variants/route.ts:174-191 | the sorted list is exactly as long as the joined one |
| VariantSort.SortSorted | src/app/api/menu-with-variants/route.ts:175-190 | volumed variants come first by ascending volume, then those without |
| VariantSort.SortStable | src/app/api/menu-with-variants/route.ts:189 | variants of equal volume, and those without volume, keep their join order |
| VariantSort.VolumedFirst | src/app/api/menu-with-variants/route.ts:183-188 | after a variant without volume every variant lacks one |
| VariantSort.InsertStablePermutes | src/app/api/menu-with-variants/route.ts:175 | inserting adds exactly the one element |
| VariantSort.InsertStableSorted | src/app/api/menu-with-variants/route.ts:175-190 | inserting into a sorted list keeps it sorted |
| VariantSort.InsertStableStable | src/app/api/menu-with-variants/route.ts:189 | inserting appends the element to its volume's run only |
| Catalog.NormalizeTextValue | src/app/api/menu-with-variants/route.ts:32-41 | a string is trimmed, a blank one is none; a number is its text; anything else is none |
| Catalog.NormalizeTextValueClean | src/app/api/menu-with-variants/route.ts:32-41 | a normalised text is non-blank and its own trim |
| Catalog.NormalizeCategoryValue | src/app/api/menu-with-variants/route.ts:43-58 | falsy is none; an object gives the first of value, name, label, id that normalises; an array has none of those fields and gives none; a scalar is normalised itself |
| Catalog.CategoryClean | src/app/api/menu-with-variants/route.ts:43-58 | a category is non-blank and its own trim |
| Catalog.CategoryBlankValueFallsThrough | src/app/api/menu-with-variants/route.ts:49-53 | a blank `value` falls through to `name` |
| Catalog.CategoryNumericId | src/app/api/menu-with-variants/route.ts:49-54 | a category object with only a numeric id is named by its text |
| Catalog.NormalizeVariantPrice | src/app/api/menu-with-variants/route.ts:60-65 | a number or string is kept, anything else is null |
| Catalog.NormalizeItemId | src/app/api/menu-with-variants/route.ts:67-72 | a number or string is kept, anything else is undefined |
| Catalog.Rows | src/app/api/menu-with-variants/route.ts:116-124 | the rows are `results` when it is an array, else none |
| Catalog.SizeMlById | src/app/api/menu-with-variants/route.ts:126-131 | every size's id text is a key |
| Catalog.SizeMl | src/app/api/menu-with-variants/route.ts:128-129 | a volume exists exactly when the tolerant reading of `ml` is finite, and is that reading; a finite numeric `ml` is kept; an absent or non-finite one gives none |
| Catalog.SizeMlOfText | src/app/api/menu-with-variants/route.ts:128-129 | an `ml` written as the decimal text of a natural number is read as that number |
| Catalog.SizeMlOfCommaText | src/app/api/menu-with-variants/route.ts:128-129 | an `ml` written with a decimal comma is read as the decimal |
| Catalog.SizeMlByIdKeys | src/app/api/menu-with-variants/route.ts:126-131 | only sizes' id texts are keys |
| Catalog.SizeMlByIdLast | src/app/api/menu-with-variants/route.ts:126-131 | the volume under an id text is that of the last size with it, none when not finite |
| Catalog.SizeName | src/app/api/menu-with-variants/route.ts:156-158 | none when the naming field is nullish; otherwise non-blank and trimmed |
| Catalog.SizeLink | src/app/api/menu-with-variants/route.ts:154 | an object size field is its own link; a nullish one has none; a scalar becomes a link with that id; from an array, the link is a truthy entry, and there is none iff no entry is truthy |
| Catalog.SizeNameBlankValue | src/app/api/menu-with-variants/route.ts:156-158 | a blank `value` is chosen before `name` and gives no size name |
| Catalog.VariantOf | src/app/api/menu-with-variants/route.ts:154-163 | the volume is looked up by the size link's id text, none without a size id or for an unknown size; the size name and normalised price |
| Catalog.LinksOf | src/app/api/menu-with-variants/route.ts:165-166 | one entry per item link, in link order, keyed by the link's id text |
| Catalog.ItemKey | src/app/api/menu-with-variants/route.ts:145-146 | an item is keyed iff its id is a number or a string |
| Catalog.MapItem | src/app/api/menu-with-variants/route.ts:135-143 | the id, name, category and description are coerced by their own normalisers, so the id is a number, a text or undefined and the three texts are absent or non-blank and trimmed; `popular` is the truthiness of the field; the variants start empty |
| Catalog.JoinMenu | src/app/api/menu-with-variants/route.ts:133-191 | one record per item row in row order, each the mapped row with its variants |
| Catalog.JoinMenuFields | src/app/api/menu-with-variants/route.ts:134-143 | every record of the joined menu carries its row's coerced id, name, category, description and popular flag, the texts clean |
| Catalog.JoinMenuVariants | src/app/api/menu-with-variants/route.ts:152-191 | an item's variants are a permutation of those whose links name it, sorted by volume, with each volume's join order kept |
| Catalog.UnnamedItemGetsNone | src/app/api/menu-with-variants/route.ts:166-169 | an item the index does not point at receives no variants |
| Catalog.ItemWithoutIdGetsNone | src/app/api/menu-with-variants/route.ts:145-147 | an item whose id is neither number nor string is kept but gets no variants |
| Catalog.ShadowedItemGetsNone | src/app/api/menu-with-variants/route.ts:146 | of items with the same id text only the last receives variants |
| Catalog.TableRequests | src/app/api/menu-with-variants/route.ts:86-102 | no reads with a setting missing; otherwise the menu, variants and sizes table addresses in that order |
| Catalog.Handle | src/app/api/menu-with-variants/route.ts:75-114 | missing config iff a setting is missing, listing exactly the missing settings in required order; otherwise failure iff a read failed, with the first failed status in menu, variants, sizes order |
| Catalog.MissingConfigIgnoresTables | src/app/api/menu-with-variants/route.ts:76-82 | with a setting missing the answer does not depend on the tables |
| Catalog.HandleJoins | src/app/api/menu-with-variants/route.ts:116-193 | with all settings and reads the answer is the joined menu of the rows |
| CatalogLegacy.Field | src/app/api/menu-with-variants/route.js:70-74 | `row?.key ?? null`: the field when not nullish, else null, never undefined |
| CatalogLegacy.MapLegacyItem | src/app/api/menu-with-variants/route.js:68-76 | every field is passed through raw, missing ones as null; the variants start empty |
| CatalogLegacy.LegacyKey | src/app/api/menu-with-variants/route.js:78-80 | an item is keyed by its id text iff its id is not nullish |
| CatalogLegacy.LegacyKeyAgrees | src/app/api/menu-with-variants/route.js:78-80 | the two versions key number and string ids alike; only this one keys other non-nullish ids |
| CatalogLegacy.LegacySizeName | src/app/api/menu-with-variants/route.js:89-94 | the raw naming field, or null iff it is nullish |
| CatalogLegacy.SizeNameRefines | src/app/api/menu-with-variants/route.ts:156-158 | the newer size name is the older raw one passed through the text normalisation |
| CatalogLegacy.LegacyVariantOf | src/app/api/menu-with-variants/route.js:88-95 | the raw size name of the first size link and the price or null |
| CatalogLegacy.LegacyJoin | src/app/api/menu-with-variants/route.js:67-104 | one record per row in row order, each the mapped row with its variants |
| CatalogLegacy.LegacyJoinVariants | src/app/api/menu-with-variants/route.js:86-104 | an item's variants are exactly those whose links name it, in join order, unsorted |
| CatalogLegacy.LegacyShadowedItemGetsNone | src/app/api/menu-with-variants/route.js:79 | of items with the same id text only the last receives variants |
| CatalogLegacy.LegacyHandle | src/app/api/menu-with-variants/route.js:19-107 | missing config iff a setting is missing, listing exactly the missing settings in required order; otherwise failure iff a read failed, menu's status first; otherwise the join of the two tables' rows |
| CatalogLegacy.LegacyHandleJoins | src/app/api/menu-with-variants/route.js:58-107 | with every setting present and both reads answered, the answer is the join of the menu and variants rows |
| CatalogLegacy.LegacyIgnoresSizesSetting | src/app/api/menu-with-variants/route.js:21-26 | this version does not require the sizes table setting |
| Cart.Ids | src/components/Cart/CartProvider.tsx:101-103 | the ids in cart order |
| Cart.IndexOf | src/components/Cart/CartProvider.tsx:101-103 | `findIndex`: the first entry with the id, none before it |
| Cart.Bump | src/components/Cart/CartProvider.tsx:117-134 | the ids are unchanged, position by position; each entry with the id moves by the step, keeping name and price; every other entry is unchanged |
| Cart.AddItem | src/components/Cart/CartProvider.tsx:99-114 | a new id is appended with quantity 1; otherwise the first entry with it counts one more, nothing else changes |
| Cart.IncreaseItemQuantity | src/components/Cart/CartProvider.tsx:117-123 | ids unchanged; an id the cart lacks changes nothing; every entry with the id counts one more and every other entry is unchanged |
| Cart.IncreaseInPlace | src/components/Cart/CartProvider.tsx:117-123 | in a valid cart the one entry with the id counts one more, in place |
| Cart.DecreaseItemQuantity | src/components/Cart/CartProvider.tsx:126-134 | no entry is added and every kept entry has a positive quantity |
| Cart.AddKeepsValid | src/components/Cart/CartProvider.tsx:99-114 | adding keeps ids unique and quantities positive, and appends a new id at the end |
| Cart.IncreaseKeepsValid | src/components/Cart/CartProvider.tsx:117-123 | increasing keeps the cart valid |
| Cart.DecreaseInPlace | src/components/Cart/CartProvider.tsx:126-134 | an entry above one counts one less in place; an entry at one is removed, the rest keep order |
| Cart.DecreaseAbsent | src/components/Cart/CartProvider.tsx:126-134 | decreasing an id a valid cart lacks changes nothing |
| Cart.RemoveKeepsValid | src/components/Cart/CartProvider.tsx:126-134 | removing one entry of a valid cart leaves it valid |
| Cart.DecreaseKeepsValid | src/components/Cart/CartProvider.tsx:126-134 | decreasing keeps the cart valid |
| Cart.BumpValid | src/components/Cart/CartProvider.tsx:119-121 | in a valid cart the map touches exactly the entry with the id |
| Cart.BumpAbsent | src/components/Cart/CartProvider.tsx:119-121 | a bump for an absent id changes nothing |
| Cart.TotalAppend | src/components/Cart/CartProvider.tsx:137-140 | the count of a concatenation is the sum of the counts |
| Cart.TotalCount | src/components/Cart/CartProvider.tsx:137-140 | the empty cart counts 0; when every quantity is at least one, the count is at least the number of entries |
| Cart.TotalCountAdd | src/components/Cart/CartProvider.tsx:99-114 | adding always counts one more item |
| Cart.TotalCountIncrease | src/components/Cart/CartProvider.tsx:117-123 | increasing a held id counts one more; any other id changes nothing |
| Cart.TotalCountDecrease | src/components/Cart/CartProvider.tsx:126-134 | decreasing a held id counts one less; any other id changes nothing |
| Cart.LoadEntry | src/components/Cart/CartProvider.tsx:51-66 | an entry loads iff it has non-empty string id and name and a finite positive quantity; the quantity is its floor; the price is the finite conversion or none |
| Cart.Loaded | src/components/Cart/CartProvider.tsx:67-68 | a dropped entry contributes nothing, a loaded one itself |
| Cart.LoadEntries | src/components/Cart/CartProvider.tsx:50-68 | no more items than stored entries; all of them when every entry loads, none when none does |
| Cart.LoadCart | src/components/Cart/CartProvider.tsx:44-50 | anything but a parsed array is an empty cart; an array loads entry by entry |
| Cart.LoadEntriesSound | src/components/Cart/CartProvider.tsx:50-68 | every loaded entry has a non-empty id and name, a non-negative quantity and comes from a stored entry |
| Cart.LoadEntriesAppend | src/components/Cart/CartProvider.tsx:50-68 | loading keeps stored order and drops only rejected entries |
| Cart.LoadHalfQuantity | src/components/Cart/CartProvider.tsx:57-65 | a stored quantity 0.5 passes the check and loads as 0, outside the updates' invariant |
| Cart.LoadNullPrice | src/components/Cart/CartProvider.tsx:55-56 | a stored null price converts to 0, not to none |
| MenuPage.WithCategory | src/components/MenuPage/MenuPage.tsx:110-121 | one entry per item, in order, each carrying its item and a key without white space |
| MenuPage.VisibleItems | src/components/MenuPage/MenuPage.tsx:172-177 | "all" shows every entry; another key shows exactly the entries with it |
| MenuPage.VisibleItemsAppend | src/components/MenuPage/MenuPage.tsx:175-177 | visibility keeps entry order |
| MenuPage.InitialSelection | src/components/MenuPage/MenuPage.tsx:52-76 | no requested name, or no entry with it, selects "all" and the first card without scrolling; the key chosen is "all" or some entry's |
| MenuPage.FirstMatchFound | src/components/MenuPage/MenuPage.tsx:64-69 | the search finds the first entry whose lower-cased trimmed name label is the requested one |
| MenuPage.FoundInOwnCategory | src/components/MenuPage/MenuPage.tsx:79-83 | an entry found is found again among its own category's entries |
| MenuPage.InitialSelectionFound | src/components/MenuPage/MenuPage.tsx:78-96 | with a match the selection is its category and its position there, scrolled to; the not-found branch cannot be taken |
| MenuPage.DistinctCategories | src/components/MenuPage/MenuPage.tsx:125-134 | at most one option per entry |
| MenuPage.DistinctCategoriesKeys | src/components/MenuPage/MenuPage.tsx:127-134 | a key is listed iff some entry has it |
| MenuPage.DistinctCategoriesFirst | src/components/MenuPage/MenuPage.tsx:127-134 | the list is the first entry of each key, in entry order, with that entry's label |
| MenuPage.DistinctCategoriesUnique | src/components/MenuPage/MenuPage.tsx:129-133 | no key is listed twice |
| MenuPage.Categories | src/components/MenuPage/MenuPage.tsx:124-143 | "all" with its label first, then the distinct categories |
| MenuPage.ResolvedCategoryKey | src/components/MenuPage/MenuPage.tsx:165-169 | the active key when listed, else "all" |
| MenuPage.ResolvedKeyListed | src/components/MenuPage/MenuPage.tsx:165-169 | the resolved key is always listed, and is "all" or some entry's key |
| MenuPage.EntryKeyResolves | src/components/MenuPage/MenuPage.tsx:165-169 | "all", or a key some entry has, resolves to itself |
| MenuPage.InitialSelectionResolves | src/components/MenuPage/MenuPage.tsx:145-169 | the starting category is listed, so it resolves to itself |
| CategoryRow.StorageKey | src/components/MenuPage/MenuCategoryRow.tsx:69 | the key is the prefix, a dash and the category key |
| CategoryRow.StorageKeyInjective | src/components/MenuPage/MenuCategoryRow.tsx:69 | under one prefix, categories keep separate scroll positions |
| CategoryRow.CardKey | src/components/MenuPage/MenuCategoryRow.tsx:256 | the id's text, or the category key, a dash and the position when the id is nullish |
| CategoryRow.CardKeysApart | src/components/MenuPage/MenuCategoryRow.tsx:256 | two id-less cards of a row share a key only at the same position |
| CategoryRow.CardKeysOfIntegerIds | src/components/MenuPage/MenuCategoryRow.tsx:256 | cards with integer ids share a key iff the ids are equal |
| CategoryRow.CardInput | src/components/MenuPage/MenuCategoryRow.tsx:311-318 | the card sends its key, its name label and its add price |
| CategoryRow.InitialRow | src/components/MenuPage/MenuCategoryRow.tsx:64-66 | the address's index is pending, the first card is active, nothing animates |
| CategoryRow.FocusEffect | src/components/MenuPage/MenuCategoryRow.tsx:173-184 | nothing without a pending index or cards; otherwise the index is consumed and becomes active only when in range |
| CategoryRow.FocusConsumedOnce | src/components/MenuPage/MenuCategoryRow.tsx:177-178 | after the effect acts, later runs change nothing |
| CategoryRow.FocusAppliedOnce | src/components/MenuPage/MenuCategoryRow.tsx:173-184 | over any renders only the first render with cards acts; an out-of-range index is dropped for good |
| CategoryRow.FocusStays | src/components/MenuPage/MenuCategoryRow.tsx:174-176 | without a pending index no render changes the row |
| CategoryRow.FocusCard | src/components/MenuPage/MenuCategoryRow.tsx:187-190 | the card becomes active, the rest is kept |
| CategoryRow.StartAnimation | src/components/MenuPage/MenuCategoryRow.tsx:217-221 | the key is added, every other key unchanged |
| CategoryRow.EndAnimation | src/components/MenuPage/MenuCategoryRow.tsx:236-242 | the key is removed, every other key unchanged |
| CategoryRow.AnimationRoundTrip | src/components/MenuPage/MenuCategoryRow.tsx:217-242 | ending a started animation restores the set |
| CategoryRow.AddClick | src/components/MenuPage/MenuCategoryRow.tsx:208-227 | the card is focused, its key animates and its input goes into the cart |
| CategoryRow.AnimationEnd | src/components/MenuPage/MenuCategoryRow.tsx:319 | only the animating set changes, losing the key |
| CategoryRow.AddClickCart | src/components/MenuPage/MenuCategoryRow.tsx:223-227 | a valid cart stays valid, holds the card key, counts one more; a new key arrives with the card's label and price |
| CategoryRow.AddClickThenAnimationEnd | src/components/MenuPage/MenuCategoryRow.tsx:208-242 | click then animation end leaves the row as focusing the card would |
| ProductModal.Description | src/components/MenuPage/ProductModal.tsx:61 | the trimmed description, or "" when absent |
| ProductModal.SizeLabel | src/components/MenuPage/ProductModal.tsx:118 | the trimmed size name's text, or the fallback when nullish or blank |
| ProductModal.MlLabel | src/components/MenuPage/ProductModal.tsx:119 | a volume label iff `ml` is a finite number, its text with the unit |
| ProductModal.VariantPriceLabel | src/components/MenuPage/ProductModal.tsx:120-123 | the formatted variant price when finite, else the fallback |
| ProductModal.Prices | src/components/MenuPage/ProductModal.tsx:113-148 | size rows iff there are variants, one per variant in order; otherwise the formatted own price or "" |
| ProductModal.ButtonText | src/components/MenuPage/ProductModal.tsx:161 | the price suffix shows iff there is an add price other than 0 |
| ProductModal.ModalInput | src/components/MenuPage/ProductModal.tsx:153-157 | the dialog sends `String(item.id)`, the name label and the add price |
| ProductModal.Modal | src/components/MenuPage/ProductModal.tsx:51-70 | content iff there is an item, whatever `isOpen` is, made of its labels, prices and cart input |
| ProductModal.ModalAddsListedPrice | src/components/MenuPage/ProductModal.tsx:66-70 | the dialog adds the price the list shows and names it on the button unless it is 0 |
| ProductModal.IdlessItemsMergeInCart | src/components/MenuPage/ProductModal.tsx:154 | two id-less items added from the dialog make one "undefined" entry with quantity 2 |
| ProductModal.ModalMatchesCardIffId | src/components/MenuPage/ProductModal.tsx:153-157 | the dialog and the card send the same input iff the item has an id |
| BurgerMenu.State | src/components/Navigation/Navigation.tsx:61 | closing wins over open; each state named exactly by its flags |
| BurgerMenu.PanelVisible | src/components/Navigation/Navigation.tsx:63 | the panel is shown exactly when the menu is open or closing |
| BurgerMenu.ButtonClick | src/components/Navigation/Navigation.tsx:66-73 | an open menu starts closing; every other state opens |
| BurgerMenu.LinkClick | src/components/Navigation/Navigation.tsx:76-80 | an open menu starts closing; otherwise nothing |
| BurgerMenu.AnimationEnd | src/components/Navigation/Navigation.tsx:83-89 | only the panel's own animation end while closing closes the menu |
| BurgerMenu.StepKeepsInv | src/components/Navigation/Navigation.tsx:57-89 | every event keeps "closing implies open" |
| BurgerMenu.RunKeepsInv | src/components/Navigation/Navigation.tsx:61-63 | in every reachable state the panel is visible iff the menu is open |
| BurgerMenu.FirstClickOpens | src/components/Navigation/Navigation.tsx:66-73 | from the start one click opens the menu |
| BurgerMenu.CloseCycle | src/components/Navigation/Navigation.tsx:66-89 | open, close, animation end returns to the start; a child's animation end does not |
| BurgerMenu.LinkDirection | src/components/Navigation/Navigation.tsx:45 | "down" iff the address contains '#' |
| BurgerMenu.NavDirections | src/components/Navigation/Navigation.tsx:13-20 | of the six links only "/about" and "/map" change page |
| TimedMenu.OpenMenu | src/components/Navigation.tsx:65-73 | open, not closing, no timer pending, key plus one |
| TimedMenu.CloseMenu | src/components/Navigation.tsx:76-86 | closing with exactly one timer pending, the rest kept |
| TimedMenu.ButtonClick | src/components/Navigation.tsx:89-96 | an open menu closes, any other opens |
| TimedMenu.LinkClick | src/components/Navigation.tsx:99-103 | only an open menu not yet closing closes |
| TimedMenu.TimerFires | src/components/Navigation.tsx:81-85 | a pending timer closes the menu; none pending changes nothing |
| TimedMenu.StepKeepsInv | src/components/Navigation.tsx:65-103 | closing iff one timer pending, never two, closing only when open; the key never decreases |
| TimedMenu.RunKeepsInv | src/components/Navigation.tsx:65-103 | the same for every run of events |
| TimedMenu.OpenKeyCountsOpenings | src/components/Navigation.tsx:72 | the key counts exactly the openings |
| TimedMenu.ReopenCancelsClose | src/components/Navigation.tsx:66-69 | reopening while closing cancels the timer, so its firing cannot close the menu |
| Hero.MinuteOfDay | src/components/Hero/Hero.tsx:27 | a clock time is a minute within the day |
| Hero.IsOpenNow | src/components/Hero/Hero.tsx:25-32 | on a real clock the shop shows open exactly from 7:00 |
| Hero.OpeningEdges | src/components/Hero/Hero.tsx:83-90 | 7:00 and 23:59 are open, 6:59 and 0:00 are closed |

## Left out

- Network I/O: `fetch`, `Promise.all` and the backend's answers are left out. Each table read is a `TableRead`, and the page's request to the menu endpoint is a `MenuResponse`.
- Rejected reads: a `fetch` that rejects, or a body that `res.json()` cannot decode, rejects the handler (`fetchBaserowTable`, both endpoints, `fetchMenuItems`). These outcomes are not modelled; a `TableRead` is either rows or a non-OK status.
- Currency formatting with `Intl.NumberFormat`: it is the parameter `format`.
- `Number.parseFloat` and `Number(x)`: exponent, hexadecimal, binary and octal literals are left out. Only the decimal grammar and `Infinity` are modelled.
- `String(x)` for numbers: a non-integer is modelled as exact decimal text of up to 20 fraction digits, not JavaScript's shortest round-trip form. An integer is modelled as its full decimal text, although JavaScript prints integers of magnitude 1e21 or more in exponent form.
- Lower-casing: it covers ASCII and Cyrillic letters only, because the site's names are Russian.
- DOM work: scrolling, card geometry, the `sessionStorage` restore of a row's scroll position, intersection observers, video playback and animation frames. Only the storage key and the one-shot focus state are modelled.
- Timers: a pending close timer is a count plus a `Fire` event. The delay (`CloseAnimationMs`) is a constant, not a clock.
- The browser store: reading, writing and `JSON.parse` of the cart are left out. `Cart.LoadCart` takes the parsed value, or none when it is absent or unparsable, and the removal of an unparsable entry is left out.
- Images: the dialog's and card's picture (`getMenuImageSrc`) is not part of this model, because that function is defined in no source file.
- The dialog's 300 ms closing animation and the body's scroll lock.
- The Hero clock: the hour and minute are parameters. Its video handling is left out.
- Presentational components (Footer, About, Features, Hits, NewMonth, MapPage, MenuItemPage, MenuCategoryScroller) are not part of the core. MenuItemPage computes its price label and title with `getMenuDetailPriceInfo`, which is `MenuView.DetailPriceInfo`. MenuCategoryScroller's state is an expanded flag, and its clamp of the scroll offset is DOM geometry.
- `src/app/menu/page.jsx` repeats the loading of `MenuApi.FetchMenuItems` inline and is not modelled separately.
- `src/app/api/menu/route.js` is a different, single-table endpoint: it checks three settings, reads the menu table and passes its answer through unchanged. It is not modelled.
- Join.NormalizeLinks: the array case states membership (an entry is kept iff it is truthy). The order is stated separately, by `Join.NormalizeLinksAppend`.
- Catalog.SizeName: the contract states only when there is no name and that a name is clean. The exact value is given by `CatalogLegacy.SizeNameRefines`, which relates it to the raw field.
- Cart.DecreaseItemQuantity: the contract states only that the result shrinks and is positive. The exact effect on a valid cart is `Cart.DecreaseInPlace` and `Cart.DecreaseAbsent`.
- MenuPage.InitialSelection: the contract states the two "all" cases. The found case is `MenuPage.InitialSelectionFound`.
- VariantSort.SortByVolume: the contract states only the length. That the result is a permutation, ordered by volume and stable, is stated by `VariantSort.SortPermutes`, `VariantSort.SortSorted` and `VariantSort.SortStable`.
- Cart.LoadEntries: the contract states the count of loaded items. Which items they are, and in what order, is stated by `Cart.LoadEntriesSound` and `Cart.LoadEntriesAppend`.
- MenuView.NameLabel: requires the name to be text or nullish, the declared type. For a number, boolean or object name, which the older endpoint can pass through raw, the source's `item.name?.trim()` throws a TypeError; that exception is not modelled.
- ProductModal.Description: requires the description to be text or nullish, the declared type. For any other value the source's `description?.trim()` throws a TypeError; that exception is not modelled.
- Number.ParseNumericValue: numbers are exact decimal reals, not IEEE doubles. A text with 17 or more significant digits is exact here but rounded in JavaScript. A digit text above about 1.8e308 is finite here, while JavaScript reads it as Infinity and the `isFinite` step turns that into NaN.
- Number.ParseNatText: the round trip holds for every natural number because numbers are exact. In JavaScript it fails above 2^53, where not every integer is a double.

=== FILE: baserow.dfy ===
/**
  The configuration side of the tabular backend: reading the required
  settings out of the environment, and building a table's rows address.
 */
module Baserow {

  /** The path of a table's rows under the backend's base address. */
  const TablePath := "/api/database/rows/table/"

  /** The query that asks for rows keyed by field name. */
  const RowsQuery := "/?user_field_names=true"

  predicate AllSlashes(s: string) {
    forall i :: 0 <= i < |s| ==> s[i] == '/'
  }

  /** The base address without its trailing slashes; an empty (falsy)
      address stays empty. What is removed is all slashes and what is kept
      does not end in one. */
  function NormalizeBaseUrl(baseUrl: string): (r: string)
    ensures |r| <= |baseUrl| && r == baseUrl[..|r|]
    ensures AllSlashes(baseUrl[|r|..])
    ensures r == [] || r[|r| - 1] != '/'
  {
    if baseUrl == [] then []
    else if baseUrl[|baseUrl| - 1] == '/' then
      var r := NormalizeBaseUrl(baseUrl[..|baseUrl| - 1]);
      assert baseUrl[|r|..] == baseUrl[..|baseUrl| - 1][|r|..] + ['/'];
      r
    else baseUrl
  }

  /** Normalising twice is normalising once. */
  lemma NormalizeBaseUrlIdempotent(baseUrl: string)
    ensures NormalizeBaseUrl(NormalizeBaseUrl(baseUrl)) == NormalizeBaseUrl(baseUrl)
  {
  }

  /** Adding slashes at the end does not change the normalised address. */
  lemma {:induction false} NormalizeBaseUrlSlashes(baseUrl: string, slashes: string)
    requires AllSlashes(slashes)
    ensures NormalizeBaseUrl(baseUrl + slashes) == NormalizeBaseUrl(baseUrl)
    decreases |slashes|
  {
    if slashes != [] {
      var s := baseUrl + slashes;
      assert s[|s| - 1] == '/';
      assert s[..|s| - 1] == baseUrl + slashes[..|slashes| - 1];
      NormalizeBaseUrlSlashes(baseUrl, slashes[..|slashes| - 1]);
    } else {
      assert baseUrl + slashes == baseUrl;
    }
  }

  /** The rows address of a table. */
  function BuildTableUrl(baseUrl: string, tableId: string): (url: string)
    ensures IsPrefixOf(NormalizeBaseUrl(baseUrl) + TablePath, url)
  {
    NormalizeBaseUrl(baseUrl) + TablePath + tableId + RowsQuery
  }

  predicate IsPrefixOf(p: string, s: string) {
    |p| <= |s| && s[..|p|] == p
  }

  /** Base addresses that differ only in trailing slashes address the same table. */
  lemma BuildTableUrlSlashes(baseUrl: string, slashes: string, tableId: string)
    requires AllSlashes(slashes)
    ensures BuildTableUrl(baseUrl + slashes, tableId) == BuildTableUrl(baseUrl, tableId)
  {
    NormalizeBaseUrlSlashes(baseUrl, slashes);
  }

  /** Distinct tables under one base have distinct addresses. */
  lemma BuildTableUrlInjective(baseUrl: string, a: string, b: string)
    requires BuildTableUrl(baseUrl, a) == BuildTableUrl(baseUrl, b)
    ensures a == b
  {
    var p := NormalizeBaseUrl(baseUrl) + TablePath;
    var ua := BuildTableUrl(baseUrl, a);
    assert ua[|p|..|ua| - |RowsQuery|] == a;
    assert BuildTableUrl(baseUrl, b)[|p|..|ua| - |RowsQuery|] == b;
  }

  /** A setting is present when it is set to a non-empty text. */
  predicate Present(env: map<string, string>, key: string) {
    key in env && env[key] != ""
  }

  /** The required keys that are not present, in the order they are required. */
  function MissingKeys(keys: seq<string>, env: map<string, string>): (missing: seq<string>)
    ensures |missing| <= |keys|
    ensures forall i :: 0 <= i < |missing| ==> missing[i] in keys && !Present(env, missing[i])
  {
    if keys == [] then []
    else
      var init := keys[..|keys| - 1];
      var front := MissingKeys(init, env);
      var key := keys[|keys| - 1];
      assert forall k :: k in init ==> k in keys;
      if Present(env, key) then front else front + [key]
  }

  /** A key is missing exactly when it is required and not present. */
  lemma {:induction false} MissingKeysMembers(keys: seq<string>, env: map<string, string>)
    ensures forall k :: k in MissingKeys(keys, env) <==> k in keys && !Present(env, k)
  {
    if keys != [] {
      MissingKeysMembers(keys[..|keys| - 1], env);
      assert forall k :: k in keys <==> k in keys[..|keys| - 1] || k == keys[|keys| - 1];
    }
  }

  /** The present required keys with their values. */
  function PresentValues(keys: seq<string>, env: map<string, string>): (values: map<string, string>)
    ensures forall k :: k in values <==> k in keys && Present(env, k)
    ensures forall k :: k in values ==> k in env && values[k] == env[k]
  {
    if keys == [] then map[]
    else
      var front := PresentValues(keys[..|keys| - 1], env);
      var key := keys[|keys| - 1];
      assert forall k :: k in keys <==> k in keys[..|keys| - 1] || k == key;
      if Present(env, key) then front[key := env[key]] else front
  }

  datatype EnvRead = EnvRead(values: map<string, string>, missing: seq<string>)

  /** The required settings split into the present ones, with their values,
      and the missing ones, in the order they are required. */
  function GetBaserowEnv(keys: seq<string>, env: map<string, string>): (r: EnvRead)
    ensures forall k :: k in r.values <==> k in keys && Present(env, k)
    ensures forall k :: k in r.values ==> k in env && r.values[k] == env[k]
    ensures forall k :: k in r.missing <==> k in keys && !Present(env, k)
    ensures r.missing == MissingKeys(keys, env)
  {
    MissingKeysMembers(keys, env);
    EnvRead(PresentValues(keys, env), MissingKeys(keys, env))
  }

  /** Every required key is either present or missing, never both. */
  lemma EnvPartition(keys: seq<string>, env: map<string, string>, k: string)
    requires k in keys
    ensures k in GetBaserowEnv(keys, env).values <==> k !in GetBaserowEnv(keys, env).missing
  {
  }

  /** The missing keys keep the required order: those of a concatenation are
      those of the first part followed by those of the second. */
  lemma {:induction false} EnvMissingAppend(a: seq<string>, b: seq<string>, env: map<string, string>)
    ensures MissingKeys(a + b, env) == MissingKeys(a, env) + MissingKeys(b, env)
    decreases |b|
  {
    if b == [] {
      assert a + b == a;
    } else {
      var c := a + b;
      assert c[..|c| - 1] == a + b[..|b| - 1];
      assert c[|c| - 1] == b[|b| - 1];
      EnvMissingAppend(a, b[..|b| - 1], env);
    }
  }

  /** With every required key present nothing is missing. */
  lemma {:induction false} EnvAllPresent(keys: seq<string>, env: map<string, string>)
    requires forall k :: k in keys ==> Present(env, k)
    ensures GetBaserowEnv(keys, env).missing == []
  {
    if keys != [] {
      assert keys[|keys| - 1] in keys;
      assert forall k :: k in keys[..|keys| - 1] ==> k in keys;
      EnvAllPresent(keys[..|keys| - 1], env);
    }
  }
}

=== FILE: burger_menu.dfy ===
/**
  The header's burger menu (src/components/Navigation/Navigation.tsx): two
  flags, open and closing, moved by the menu button, by a link in the panel
  and by the end of the panel's closing animation; the state the styles
  read; and the direction mark of each link.
 */
module BurgerMenu {
  import opened Text

  datatype Burger = Burger(open: bool, closing: bool)

  /** The value of `data-menu-state`. */
  datatype MenuState = Closed | Open | Closing

  /** The machine before any event: closed. */
  const Start := Burger(false, false)

  /** Closing wins over open; neither flag is closed. */
  function State(b: Burger): (st: MenuState)
    ensures st == Closing <==> b.closing
    ensures st == Open <==> b.open && !b.closing
    ensures st == Closed <==> !b.open && !b.closing
  {
    if b.closing then Closing else if b.open then Open else Closed
  }

  /** The panel is shown in every state but closed. */
  function PanelVisible(b: Burger): (visible: bool)
    ensures visible <==> b.open || b.closing
  {
    State(b) != Closed
  }

  /** The menu button: an open menu starts closing; in every other state
      (closed, or already closing) the menu opens again. */
  function ButtonClick(b: Burger): (r: Burger)
    ensures b.open && !b.closing ==> r == Burger(true, true)
    ensures !(b.open && !b.closing) ==> r == Burger(true, false)
  {
    if b.open && !b.closing then b.(closing := true) else Burger(true, false)
  }

  /** A link in the panel: an open menu starts closing; otherwise nothing. */
  function LinkClick(b: Burger): (r: Burger)
    ensures b.open ==> r == Burger(true, true)
    ensures !b.open ==> r == b
  {
    if b.open then b.(closing := true) else b
  }

  /** The end of an animation: only the panel's own one, while closing,
      closes the menu; one bubbling up from a child is ignored. */
  function AnimationEnd(b: Burger, onPanel: bool): (r: Burger)
    ensures b.closing && onPanel ==> r == Start
    ensures !b.closing || !onPanel ==> r == b
  {
    if !b.closing || !onPanel then b else Burger(false, false)
  }

  datatype Event = Button | Link | AnimationEnded(onPanel: bool)

  function Step(b: Burger, e: Event): Burger {
    match e
    case Button => ButtonClick(b)
    case Link => LinkClick(b)
    case AnimationEnded(onPanel) => AnimationEnd(b, onPanel)
  }

  function Run(b: Burger, events: seq<Event>): Burger
    decreases |events|
  {
    if events == [] then b else Run(Step(b, events[0]), events[1..])
  }

  /** The machine never closes a menu that is not open. */
  predicate Inv(b: Burger) {
    b.closing ==> b.open
  }

  lemma StepKeepsInv(b: Burger, e: Event)
    requires Inv(b)
    ensures Inv(Step(b, e))
  {
  }

  /** Every state reachable from the start keeps the invariant, so the panel
      is visible exactly when the menu is open. */
  lemma {:induction false} RunKeepsInv(b: Burger, events: seq<Event>)
    requires Inv(b)
    ensures Inv(Run(b, events))
    ensures PanelVisible(Run(b, events)) <==> Run(b, events).open
    decreases |events|
  {
    if events != [] {
      StepKeepsInv(b, events[0]);
      RunKeepsInv(Step(b, events[0]), events[1..]);
    }
  }

  /** From the start one click on the button opens the menu, so the button
      reports itself expanded. */
  lemma FirstClickOpens()
    ensures State(Start) == Closed && !PanelVisible(Start)
    ensures Run(Start, [Button]).open && State(Run(Start, [Button])) == Open
  {
  }

  /** A full cycle: open, start closing with the button, and the panel's
      animation end closes it; a click while closing reopens instead. */
  lemma CloseCycle()
    ensures Run(Start, [Button, Button]) == Burger(true, true)
    ensures Run(Start, [Button, Button, AnimationEnded(true)]) == Start
    ensures Run(Start, [Button, Button, AnimationEnded(false)]) == Burger(true, true)
    ensures State(Run(Start, [Button, Button, Button])) == Open
  {
    assert [Button, Button][1..] == [Button];
    assert [Button, Button, AnimationEnded(true)][1..] == [Button, AnimationEnded(true)];
    assert [Button, AnimationEnded(true)][1..] == [AnimationEnded(true)];
    assert [Button, Button, AnimationEnded(false)][1..] == [Button, AnimationEnded(false)];
    assert [Button, AnimationEnded(false)][1..] == [AnimationEnded(false)];
    assert [Button, Button, Button][1..] == [Button, Button];
  }

  /** `data-link-direction`: an in-page anchor scrolls down, anything else
      goes to another page. */
  datatype Direction = Down | Page

  function LinkDirection(href: string): (d: Direction)
    ensures d == Down <==> '#' in href
  {
    ContainsChar(href, '#');
    if Contains(href, "#") then Down else Page
  }

  /** `s.includes(c)` for a one-character needle is membership. */
  lemma ContainsChar(s: string, c: char)
    ensures Contains(s, [c]) <==> c in s
  {
    if c in s {
      var k :| 0 <= k < |s| && s[k] == c;
      assert OccursAt(s, [c], k);
    }
    if Contains(s, [c]) {
      var k :| OccursAt(s, [c], k);
      assert s[k..k + 1][0] == s[k];
    }
  }

  /** The header's links, in order. */
  const NavHrefs: seq<string> := ["/about#features", "/about#new", "/about#hits", "/about", "/map", "/#menu"]

  /** The section links and the full menu scroll down; "/about" and "/map"
      change page. */
  lemma NavDirections()
    ensures forall i :: 0 <= i < |NavHrefs| ==> (LinkDirection(NavHrefs[i]) == Page <==> i == 3 || i == 4)
  {
    forall i | 0 <= i < |NavHrefs|
      ensures LinkDirection(NavHrefs[i]) == Page <==> i == 3 || i == 4
    {
      var h := NavHrefs[i];
      if i == 3 || i == 4 {
        NoAnchorPage(h);
      } else if i == 5 {
        AnchorDown(h, 1);
      } else {
        AnchorDown(h, 6);
      }
    }
  }

  /** A link without a `#` changes page. */
  lemma NoAnchorPage(href: string)
    requires forall k :: 0 <= k < |href| ==> href[k] != '#'
    ensures LinkDirection(href) == Page
  {
  }

  /** A link with a `#` at some position scrolls down. */
  lemma AnchorDown(href: string, k: nat)
    requires k < |href| && href[k] == '#'
    ensures LinkDirection(href) == Down
  {
  }
}

=== FILE: cart.dfy ===
/**
  The cart (src/components/Cart/CartProvider.tsx): a list of entries keyed by
  id with a quantity each, the three updates the page offers, the item
  count, and the sanitisation of entries read back from the browser's store.
  The store itself (reading, JSON parsing, writing) is left to the caller:
  loading starts from the already parsed value, or none.
 */
module Cart {
  import opened Wrappers
  import opened JsValue
  import opened Number
  import opened Seqs

  datatype CartItem = CartItem(id: string, name: string, price: Option<real>, quantity: int)

  /** What the add button passes. */
  datatype CartInput = CartInput(id: string, name: string, price: Option<real>)

  /** No two entries share an id. */
  predicate UniqueIds(items: seq<CartItem>) {
    forall i, j :: 0 <= i < j < |items| ==> items[i].id != items[j].id
  }

  /** The invariant the updates keep: unique ids and positive quantities. */
  predicate Valid(items: seq<CartItem>) {
    UniqueIds(items) && forall i :: 0 <= i < |items| ==> items[i].quantity >= 1
  }

  predicate Holds(items: seq<CartItem>, id: string) {
    exists i :: 0 <= i < |items| && items[i].id == id
  }

  /** The ids of the entries, in cart order. */
  function Ids(items: seq<CartItem>): (ids: seq<string>)
    ensures |ids| == |items|
    ensures forall i :: 0 <= i < |items| ==> ids[i] == items[i].id
  {
    seq(|items|, i requires 0 <= i < |items| => items[i].id)
  }

  /** `findIndex`: the first entry with the id, or the length when none. */
  function IndexOf(items: seq<CartItem>, id: string): (k: nat)
    ensures k <= |items|
    ensures forall j :: 0 <= j < k ==> items[j].id != id
    ensures k < |items| ==> items[k].id == id
  {
    if items == [] then 0
    else if items[0].id == id then 0
    else 1 + IndexOf(items[1..], id)
  }

  /** The `+1` / `-1` map: every entry with the id has its quantity moved by
      `delta`, the others are kept. */
  function Bump(items: seq<CartItem>, id: string, delta: int): (r: seq<CartItem>)
    ensures |r| == |items|
    ensures forall i :: 0 <= i < |items| ==> r[i].id == items[i].id
    ensures forall i :: 0 <= i < |items| && items[i].id == id ==>
      r[i].quantity == items[i].quantity + delta && r[i].name == items[i].name && r[i].price == items[i].price
    ensures forall i :: 0 <= i < |items| && items[i].id != id ==> r[i] == items[i]
  {
    seq(|items|, i requires 0 <= i < |items| =>
      if items[i].id == id then items[i].(quantity := items[i].quantity + delta) else items[i])
  }

  /** A new id is appended with quantity 1; for a known id the first entry
      with it counts one more and keeps its name and price. */
  function AddItem(items: seq<CartItem>, input: CartInput): (r: seq<CartItem>)
    ensures !Holds(items, input.id) ==> r == items + [CartItem(input.id, input.name, input.price, 1)]
    ensures forall k :: 0 <= k < |items| && items[k].id == input.id && (forall j :: 0 <= j < k ==> items[j].id != input.id) ==>
      r == items[k := items[k].(quantity := items[k].quantity + 1)]
  {
    var k := IndexOf(items, input.id);
    if k == |items| then items + [CartItem(input.id, input.name, input.price, 1)]
    else items[k := items[k].(quantity := items[k].quantity + 1)]
  }

  /** Every entry with the id counts one more; the others are unchanged. */
  function IncreaseItemQuantity(items: seq<CartItem>, id: string): (r: seq<CartItem>)
    ensures Ids(r) == Ids(items)
    ensures !Holds(items, id) ==> r == items
    ensures |r| == |items|
    ensures forall i :: 0 <= i < |items| && items[i].id == id ==>
      r[i] == items[i].(quantity := items[i].quantity + 1)
    ensures forall i :: 0 <= i < |items| && items[i].id != id ==> r[i] == items[i]
  {
    var r := Bump(items, id, 1);
    assert !Holds(items, id) ==> r == items;
    r
  }

  predicate Positive(e: CartItem) {
    e.quantity > 0
  }

  /** Every entry with the id counts one less, and every entry left with no
      positive quantity is dropped. */
  function DecreaseItemQuantity(items: seq<CartItem>, id: string): (r: seq<CartItem>)
    ensures |r| <= |items|
    ensures forall e :: e in r ==> e.quantity > 0
  {
    Filter(Bump(items, id, -1), Positive)
  }

  /** `items.reduce((sum, item) => sum + item.quantity, 0)` */
  function TotalCount(items: seq<CartItem>): (total: int)
    ensures (forall i :: 0 <= i < |items| ==> items[i].quantity >= 1) ==> total >= |items|
    ensures items == [] ==> total == 0
  {
    if items == [] then 0 else items[0].quantity + TotalCount(items[1..])
  }

  lemma {:induction false} TotalAppend(a: seq<CartItem>, b: seq<CartItem>)
    ensures TotalCount(a + b) == TotalCount(a) + TotalCount(b)
  {
    if a == [] {
      assert a + b == b;
    } else {
      assert (a + b)[1..] == a[1..] + b;
      TotalAppend(a[1..], b);
    }
  }

  /** Replacing one entry changes the total by the difference of quantities. */
  lemma TotalUpdate(items: seq<CartItem>, k: nat, e: CartItem)
    requires k < |items|
    ensures TotalCount(items[k := e]) == TotalCount(items) - items[k].quantity + e.quantity
  {
    var u := items[k := e];
    assert items == items[..k] + [items[k]] + items[k + 1..];
    assert u == items[..k] + [e] + items[k + 1..];
    TotalAppend(items[..k] + [items[k]], items[k + 1..]);
    TotalAppend(items[..k], [items[k]]);
    TotalAppend(items[..k] + [e], items[k + 1..]);
    TotalAppend(items[..k], [e]);
  }

  /** In a valid cart the bump touches exactly the entry holding the id. */
  lemma BumpValid(items: seq<CartItem>, id: string, delta: int, k: nat)
    requires UniqueIds(items) && k < |items| && items[k].id == id
    ensures Bump(items, id, delta) == items[k := items[k].(quantity := items[k].quantity + delta)]
  {
  }

  /** A bump for an id the cart does not hold changes nothing. */
  lemma BumpAbsent(items: seq<CartItem>, id: string, delta: int)
    requires !Holds(items, id)
    ensures Bump(items, id, delta) == items
  {
  }

  /** Adding keeps the cart valid, and keeps its order: the ids are those
      before, with the new id appended when it is new. */
  lemma AddKeepsValid(items: seq<CartItem>, input: CartInput)
    requires Valid(items)
    ensures Valid(AddItem(items, input))
    ensures Ids(AddItem(items, input)) == if Holds(items, input.id) then Ids(items) else Ids(items) + [input.id]
  {
    var k := IndexOf(items, input.id);
    if k == |items| {
      assert !Holds(items, input.id);
    }
  }

  lemma IncreaseKeepsValid(items: seq<CartItem>, id: string)
    requires Valid(items)
    ensures Valid(IncreaseItemQuantity(items, id))
  {
    assert forall i :: 0 <= i < |items| ==> IncreaseItemQuantity(items, id)[i].id == Ids(items)[i];
  }

  /** Filtering out empty entries keeps a valid cart whole. */
  lemma ValidAllPositive(items: seq<CartItem>)
    requires forall i :: 0 <= i < |items| ==> items[i].quantity >= 1
    ensures Filter(items, Positive) == items
  {
    FilterAll(items, Positive);
  }

  /** In a valid cart the entry with the id counts one more, in place. */
  lemma IncreaseInPlace(items: seq<CartItem>, id: string, k: nat)
    requires Valid(items) && k < |items| && items[k].id == id
    ensures IncreaseItemQuantity(items, id) == items[k := items[k].(quantity := items[k].quantity + 1)]
  {
    BumpValid(items, id, 1, k);
  }

  /** Decreasing in a valid cart: an entry with more than one counts one
      less in place; an entry with one is removed and the others keep their
      order. */
  lemma DecreaseInPlace(items: seq<CartItem>, id: string, k: nat)
    requires Valid(items) && k < |items| && items[k].id == id
    ensures items[k].quantity > 1 ==>
      DecreaseItemQuantity(items, id) == items[k := items[k].(quantity := items[k].quantity - 1)]
    ensures items[k].quantity == 1 ==> DecreaseItemQuantity(items, id) == items[..k] + items[k + 1..]
  {
    var e := items[k].(quantity := items[k].quantity - 1);
    BumpValid(items, id, -1, k);
    assert DecreaseItemQuantity(items, id) == Filter(items[k := e], Positive);
    ValidAllPositive(items[..k]);
    ValidAllPositive(items[k + 1..]);
    FilterUpdate(items, k, e, Positive);
  }

  /** Removing an entry keeps a cart valid. */
  lemma RemoveKeepsValid(items: seq<CartItem>, k: nat)
    requires Valid(items) && k < |items|
    ensures Valid(items[..k] + items[k + 1..])
  {
    var r := items[..k] + items[k + 1..];
    forall i | 0 <= i < |r| ensures r[i] == items[if i < k then i else i + 1] {
    }
  }

  /** Replacing an entry by one with the same id and a positive quantity
      keeps a cart valid. */
  lemma UpdateKeepsValid(items: seq<CartItem>, k: nat, e: CartItem)
    requires Valid(items) && k < |items| && e.id == items[k].id && e.quantity >= 1
    ensures Valid(items[k := e])
  {
  }

  lemma DecreaseAbsent(items: seq<CartItem>, id: string)
    requires Valid(items) && !Holds(items, id)
    ensures DecreaseItemQuantity(items, id) == items
  {
    BumpAbsent(items, id, -1);
    ValidAllPositive(items);
  }

  lemma DecreaseKeepsValid(items: seq<CartItem>, id: string)
    requires Valid(items)
    ensures Valid(DecreaseItemQuantity(items, id))
  {
    if Holds(items, id) {
      var k :| 0 <= k < |items| && items[k].id == id;
      DecreaseInPlace(items, id, k);
      if items[k].quantity == 1 {
        RemoveKeepsValid(items, k);
      } else {
        UpdateKeepsValid(items, k, items[k].(quantity := items[k].quantity - 1));
      }
    } else {
      DecreaseAbsent(items, id);
    }
  }

  /** Adding always counts one more item. */
  lemma TotalCountAdd(items: seq<CartItem>, input: CartInput)
    ensures TotalCount(AddItem(items, input)) == TotalCount(items) + 1
  {
    var k := IndexOf(items, input.id);
    if k == |items| {
      var e := CartItem(input.id, input.name, input.price, 1);
      TotalAppend(items, [e]);
      assert [e][..0] == [];
    } else {
      TotalUpdate(items, k, items[k].(quantity := items[k].quantity + 1));
    }
  }

  /** Increasing a held id counts one more item; any other id changes nothing. */
  lemma TotalCountIncrease(items: seq<CartItem>, id: string)
    requires Valid(items)
    ensures TotalCount(IncreaseItemQuantity(items, id)) == TotalCount(items) + (if Holds(items, id) then 1 else 0)
  {
    if Holds(items, id) {
      var j :| 0 <= j < |items| && items[j].id == id;
      BumpValid(items, id, 1, j);
      TotalUpdate(items, j, items[j].(quantity := items[j].quantity + 1));
    }
  }

  /** An entry between two parts adds its quantity to their total. */
  lemma TotalSplit(a: seq<CartItem>, x: CartItem, b: seq<CartItem>)
    ensures TotalCount(a + [x] + b) == TotalCount(a + b) + x.quantity
  {
    TotalAppend(a + [x], b);
    TotalAppend(a, [x]);
    TotalAppend(a, b);
    assert [x][..0] == [];
  }

  /** Removing the entry at `k` takes its quantity off the total. */
  lemma TotalRemove(items: seq<CartItem>, k: nat)
    requires k < |items|
    ensures TotalCount(items[..k] + items[k + 1..]) == TotalCount(items) - items[k].quantity
  {
    SplitAt(items, k);
    TotalSplit(items[..k], items[k], items[k + 1..]);
  }

  /** Decreasing a held id counts one item less; any other id changes nothing. */
  lemma TotalCountDecrease(items: seq<CartItem>, id: string)
    requires Valid(items)
    ensures TotalCount(DecreaseItemQuantity(items, id)) == TotalCount(items) - (if Holds(items, id) then 1 else 0)
  {
    if Holds(items, id) {
      var j :| 0 <= j < |items| && items[j].id == id;
      DecreaseInPlace(items, id, j);
      if items[j].quantity == 1 {
        TotalRemove(items, j);
      } else {
        TotalUpdate(items, j, items[j].(quantity := items[j].quantity - 1));
      }
    } else {
      DecreaseAbsent(items, id);
    }
  }

  /** One stored entry, or none when it is dropped: it needs a non-empty
      string id and name and a finite positive quantity, which is then
      rounded down; a price that does not convert to a finite number is
      none. */
  function LoadEntry(entry: JVal): (r: Option<CartItem>)
    ensures r.Some? <==> (Get(entry, "id").JStr? && Get(entry, "id").s != ""
                          && Get(entry, "name").JStr? && Get(entry, "name").s != ""
                          && ToNumber(Get(entry, "quantity")).Fin? && ToNumber(Get(entry, "quantity")).value > 0.0)
    ensures r.Some? ==> r.value.id == Get(entry, "id").s && r.value.name == Get(entry, "name").s
    ensures r.Some? ==> r.value.quantity >= 0
    ensures r.Some? ==> (r.value.quantity as real <= ToNumber(Get(entry, "quantity")).value
                         < r.value.quantity as real + 1.0)
    ensures r.Some? ==> (r.value.price.Some? <==> ToNumber(Get(entry, "price")).Fin?)
    ensures r.Some? && r.value.price.Some? ==> r.value.price.value == ToNumber(Get(entry, "price")).value
  {
    var id := match Get(entry, "id") case JStr(s) => s case _ => "";
    var name := match Get(entry, "name") case JStr(s) => s case _ => "";
    var quantity := ToNumber(Get(entry, "quantity"));
    var priceValue := ToNumber(Get(entry, "price"));
    var price := if priceValue.Fin? then Some(priceValue.value) else None;
    if id == "" || name == "" || !quantity.Fin? || quantity.value <= 0.0 then None
    else Some(CartItem(id, name, price, quantity.value.Floor))
  }

  /** The entries that survive sanitisation, in stored order. */
  function LoadEntries(entries: seq<JVal>): (items: seq<CartItem>)
    ensures |items| <= |entries|
    ensures (forall j :: 0 <= j < |entries| ==> LoadEntry(entries[j]).Some?) ==> |items| == |entries|
    ensures (forall j :: 0 <= j < |entries| ==> LoadEntry(entries[j]).None?) ==> items == []
  {
    if entries == [] then []
    else
      assert forall j :: 1 <= j < |entries| ==> entries[1..][j - 1] == entries[j];
      Loaded(entries[0]) + LoadEntries(entries[1..])
  }

  /** The entry as a list of zero or one loaded entries. */
  function Loaded(entry: JVal): (items: seq<CartItem>)
    ensures |items| <= 1
    ensures LoadEntry(entry).Some? ==> items == [LoadEntry(entry).value]
    ensures LoadEntry(entry).None? ==> items == []
  {
    match LoadEntry(entry) case Some(item) => [item] case None => []
  }

  /** The cart read back from the store: `parsed` is the parsed store, or
      none when it is absent or does not parse; anything but an array gives
      an empty cart. */
  function LoadCart(parsed: Option<JVal>): (items: seq<CartItem>)
    ensures parsed.None? || !parsed.value.JArr? ==> items == []
    ensures parsed.Some? && parsed.value.JArr? ==> items == LoadEntries(parsed.value.elems)
  {
    match parsed
    case Some(JArr(entries)) => LoadEntries(entries)
    case _ => []
  }

  /** Every loaded entry has a non-empty id and name and a quantity that is
      not negative, and comes from a stored entry that passed the checks. */
  lemma {:induction false} LoadEntriesSound(entries: seq<JVal>)
    ensures forall e :: e in LoadEntries(entries) ==>
      e.id != "" && e.name != "" && e.quantity >= 0 && exists x :: x in entries && LoadEntry(x) == Some(e)
  {
    if entries != [] {
      LoadEntriesSound(entries[1..]);
    }
  }

  /** Reading the entries is flat-mapping `Loaded` over them. */
  lemma {:induction false} LoadEntriesFlat(entries: seq<JVal>)
    ensures LoadEntries(entries) == FlatMap(entries, Loaded)
  {
    if entries != [] {
      LoadEntriesFlat(entries[1..]);
    }
  }

  /** Stored entries load part by part: nothing is dropped but the entries
      `LoadEntry` rejects, and the order is kept. */
  lemma LoadEntriesAppend(a: seq<JVal>, b: seq<JVal>)
    ensures LoadEntries(a + b) == LoadEntries(a) + LoadEntries(b)
  {
    LoadEntriesFlat(a + b);
    LoadEntriesFlat(a);
    LoadEntriesFlat(b);
    FlatMapAppend(a, b, Loaded);
  }

  /** The quantity is rounded down only after the positivity check: a stored
      quantity of one half loads as an entry with quantity 0, which the
      updates' invariant does not allow, and which the next decrease of any
      id removes. */
  lemma LoadHalfQuantity(entry: JVal, id: string, name: string)
    requires Get(entry, "id") == JStr(id) && id != ""
    requires Get(entry, "name") == JStr(name) && name != ""
    requires Get(entry, "quantity") == JNum(Fin(0.5))
    ensures LoadEntry(entry).Some? && LoadEntry(entry).value.quantity == 0
    ensures !Valid(LoadEntries([entry]))
  {
    assert (0.5).Floor == 0;
    assert ToNumber(Get(entry, "quantity")) == Fin(0.5);
    assert LoadEntry(entry).Some?;
    var loaded := LoadEntries([entry]);
    assert loaded == Loaded(entry) + LoadEntries([]);
    assert loaded[0].quantity == 0;
  }

  /** A stored null price converts to 0, so an entry saved without a price
      reloads with price 0. */
  lemma LoadNullPrice(entry: JVal)
    requires LoadEntry(entry).Some? && Get(entry, "price") == JNull
    ensures LoadEntry(entry).value.price == Some(0.0)
  {
  }
}

=== FILE: catalog.dfy ===
/**
  The joined-menu endpoint: once the menu, variants and sizes tables have
  been read, their rows are coerced into menu items, each variant is fanned
  out onto every item it links to, with its size's name and volume, and each
  item's variants are ordered by volume.
 */
module Catalog {
  import opened Wrappers
  import opened Text
  import opened JsValue
  import opened Number
  import opened Seqs
  import opened Baserow
  import opened Join
  import opened VariantSort

  const ApiUrlKey := "BASEROW_API_URL"
  const TableIdKey := "BASEROW_TABLE_ID"
  const VariantsTableIdKey := "BASEROW_VARIANTS_TABLE_ID"
  const SizesTableIdKey := "BASEROW_SIZES_TABLE_ID"
  const TokenKey := "BASEROW_TOKEN"

  /** The settings the endpoint needs, in the order they are checked. */
  const EnvKeys: seq<string> := [ApiUrlKey, TableIdKey, VariantsTableIdKey, SizesTableIdKey, TokenKey]

  /** A text field: a string trimmed (blank is none), a number as its text,
      anything else none. */
  function NormalizeTextValue(v: JVal): (r: Option<string>)
    ensures v.JStr? ==> (r.Some? <==> Trim(v.s) != "") && (r.Some? ==> r.value == Trim(v.s))
    ensures v.JNum? ==> r == Some(NumText(v.n))
    ensures !v.JStr? && !v.JNum? ==> r.None?
  {
    match v
    case JStr(s) => if Trim(s) != "" then Some(Trim(s)) else None
    case JNum(n) => Some(NumText(n))
    case _ => None
  }

  /** A normalised text is never blank and is its own trim. */
  lemma NormalizeTextValueClean(v: JVal)
    ensures var r := NormalizeTextValue(v);
      r.Some? ==> r.value != "" && Trim(r.value) == r.value
  {
    match v
    case JStr(s) => TrimIdempotent(s);
    case JNum(n) => NumTextTrimmed(n); TrimKeeps(NumText(n));
    case _ =>
  }

  /** A category field: falsy is none; an object (or array) gives the first
      of its `value`, `name`, `label` and `id` that normalises to a text; any
      other value is normalised itself. */
  function NormalizeCategoryValue(v: JVal): (r: Option<string>)
    ensures !Truthy(v) ==> r.None?
    ensures v.JObj? && Truthy(v) && NormalizeTextValue(Get(v, "value")).Some? ==>
      r == NormalizeTextValue(Get(v, "value"))
    ensures v.JObj? && Truthy(v) && NormalizeTextValue(Get(v, "value")).None? ==>
      r == NormalizeTextValue(Get(v, "name")).Or(NormalizeTextValue(Get(v, "label"))).Or(NormalizeTextValue(Get(v, "id")))
    ensures !v.JObj? && !v.JArr? && Truthy(v) ==> r == NormalizeTextValue(v)
    ensures v.JArr? ==> r.None?
  {
    if !Truthy(v) then None
    else if v.JObj? || v.JArr? then
      NormalizeTextValue(Get(v, "value"))
        .Or(NormalizeTextValue(Get(v, "name")))
        .Or(NormalizeTextValue(Get(v, "label")))
        .Or(NormalizeTextValue(Get(v, "id")))
    else NormalizeTextValue(v)
  }

  /** A text that is present is not blank and is its own trim. */
  predicate Clean(r: Option<string>) {
    r.Some? ==> r.value != "" && Trim(r.value) == r.value
  }

  lemma OrClean(a: Option<string>, b: Option<string>)
    requires Clean(a) && Clean(b)
    ensures Clean(a.Or(b))
  {
  }

  /** A category is never blank and is its own trim. */
  lemma CategoryClean(v: JVal)
    ensures var r := NormalizeCategoryValue(v); r.Some? ==> r.value != "" && Trim(r.value) == r.value
  {
    if !Truthy(v) {
    } else if v.JObj? || v.JArr? {
      var a, b := NormalizeTextValue(Get(v, "value")), NormalizeTextValue(Get(v, "name"));
      var c, d := NormalizeTextValue(Get(v, "label")), NormalizeTextValue(Get(v, "id"));
      NormalizeTextValueClean(Get(v, "value"));
      NormalizeTextValueClean(Get(v, "name"));
      NormalizeTextValueClean(Get(v, "label"));
      NormalizeTextValueClean(Get(v, "id"));
      OrClean(a, b);
      OrClean(a.Or(b), c);
      OrClean(a.Or(b).Or(c), d);
      assert NormalizeCategoryValue(v) == a.Or(b).Or(c).Or(d);
    } else {
      NormalizeTextValueClean(v);
    }
  }

  /** A blank `value` falls through to a category's `name`. */
  lemma CategoryBlankValueFallsThrough(v: JVal, blank: string, name: string)
    requires v.JObj? && Get(v, "value") == JStr(blank) && Get(v, "name") == JStr(name)
    requires Trim(blank) == "" && Trim(name) != ""
    ensures NormalizeCategoryValue(v) == Some(Trim(name))
  {
  }

  /** A category object with nothing but a numeric `id` is named by the id. */
  lemma CategoryNumericId(v: JVal, id: real)
    requires v.JObj? && Nullish(Get(v, "value")) && Nullish(Get(v, "name")) && Nullish(Get(v, "label"))
    requires Get(v, "id") == JNum(Fin(id))
    ensures NormalizeCategoryValue(v) == Some(NumText(Fin(id)))
  {
  }

  /** A variant price is kept when it is a number or a string, else null. */
  function NormalizeVariantPrice(v: JVal): (r: JVal)
    ensures v.JNum? || v.JStr? ==> r == v
    ensures !v.JNum? && !v.JStr? ==> r == JNull
  {
    if v.JNum? || v.JStr? then v else JNull
  }

  /** An item id is kept when it is a number or a string, else undefined. */
  function NormalizeItemId(v: JVal): (r: JVal)
    ensures v.JNum? || v.JStr? ==> r == v
    ensures !v.JNum? && !v.JStr? ==> r == JUndef
  {
    if v.JNum? || v.JStr? then v else JUndef
  }

  /** A variant as attached to an item. */
  datatype Variant = Variant(sizeName: Option<string>, ml: Option<real>, price: JVal)

  /** A menu item as the endpoint returns it. */
  datatype MenuRecord = MenuRecord(
    id: JVal,
    name: Option<string>,
    category: Option<string>,
    description: Option<string>,
    popular: bool,
    variants: seq<Variant>)

  /** The rows of a table read: `data.results` when it is an array. */
  function Rows(data: JVal): (rows: seq<JVal>)
    ensures Get(data, "results").JArr? ==> rows == Get(data, "results").elems
    ensures !Get(data, "results").JArr? ==> rows == []
  {
    match Get(data, "results")
    case JArr(rows) => rows
    case _ => []
  }

  /** The volume of a size row, when its `ml` parses to a finite number. */
  function SizeMl(size: JVal): (ml: Option<real>)
    ensures ml.Some? <==> ParseNumericValue(Get(size, "ml")).Fin?
    ensures ml.Some? ==> Fin(ml.value) == ParseNumericValue(Get(size, "ml"))
    ensures var f := Get(size, "ml"); f.JNum? && f.n.Fin? ==> ml == Some(f.n.value)
    ensures var f := Get(size, "ml"); Nullish(f) || (f.JNum? && !f.n.Fin?) ==> ml.None?
  {
    var ml := ParseNumericValue(Get(size, "ml"));
    if ml.Fin? then Some(ml.value) else None
  }

  /** A volume written as the decimal text of a natural number, as the
      sizes table may hold it, is read as that number. */
  lemma SizeMlOfText(size: JVal, n: nat)
    requires Get(size, "ml") == JStr(NatText(n))
    ensures SizeMl(size) == Some(n as real)
  {
    ParseNatText(n);
  }

  /** A volume written with a decimal comma is read as the decimal. */
  lemma SizeMlOfCommaText(size: JVal, n: nat, f: string)
    requires |f| > 0 && AllDigits(f)
    requires Get(size, "ml") == JStr(NatText(n) + "," + f)
    ensures SizeMl(size) == Some(DecimalValue(NatText(n), f))
  {
    ParseDecimalComma(n, f);
  }

  /** `String(row?.id)` */
  function IdText(row: JVal): string {
    Stringify(Get(row, "id"))
  }

  /** The volume of every size by its id text; when several sizes share an
      id text, the last of them. */
  function SizeMlById(sizes: seq<JVal>): (m: map<string, Option<real>>)
    ensures forall i :: 0 <= i < |sizes| ==> IdText(sizes[i]) in m
  {
    LastBy(sizes, IdText, SizeMl)
  }

  /** Only the ids of sizes are keys. */
  lemma SizeMlByIdKeys(sizes: seq<JVal>, k: string)
    requires k in SizeMlById(sizes)
    ensures exists i :: 0 <= i < |sizes| && IdText(sizes[i]) == k
  {
    LastByKeys(sizes, IdText, SizeMl, k);
  }

  /** The volume kept under an id text is that of the last size with it. */
  lemma SizeMlByIdLast(sizes: seq<JVal>, i: nat)
    requires i < |sizes|
    requires forall j :: i < j < |sizes| ==> IdText(sizes[j]) != IdText(sizes[i])
    ensures SizeMlById(sizes)[IdText(sizes[i])] == SizeMl(sizes[i])
  {
    LastByLast(sizes, IdText, SizeMl, i);
  }

  /** The first link of a variant's size field, if any. */
  function SizeLink(variant: JVal): (link: JVal)
    ensures var f := Get(variant, "size"); f.JObj? ==> link == f
    ensures Nullish(Get(variant, "size")) ==> link == JUndef
    ensures var f := Get(variant, "size"); !f.JArr? && !f.JObj? && !Nullish(f) ==> Get(link, "id") == f
    ensures var f := Get(variant, "size"); f.JArr? ==>
      (link == JUndef <==> forall e :: e in f.elems ==> !Truthy(e))
    ensures var f := Get(variant, "size"); f.JArr? && link != JUndef ==> link in f.elems && Truthy(link)
  {
    var links := NormalizeLinks(Get(variant, "size"));
    assert |links| > 0 ==> links[0] in links;
    if |links| > 0 then links[0] else JUndef
  }

  /** The size name: the link's naming field normalised as text. */
  function SizeName(sizeLink: JVal): (r: Option<string>)
    ensures Nullish(SizeLabelField(sizeLink)) ==> r.None?
    ensures r.Some? ==> r.value != "" && Trim(r.value) == r.value
  {
    NormalizeTextValueClean(SizeLabelField(sizeLink));
    NormalizeTextValue(SizeLabelField(sizeLink))
  }

  /** A blank `value` does not fall through to `name`: it is the first
      non-nullish field and normalises to none. */
  lemma SizeNameBlankValue(sizeLink: JVal, s: string)
    requires Get(sizeLink, "value") == JStr(s) && Trim(s) == ""
    ensures SizeName(sizeLink).None?
  {
  }

  /** A variant with the size's name and volume: the volume is looked up by
      the text of the size link's id, and is none without a size id, for an
      unknown size and for a size without a finite volume. */
  function VariantOf(variant: JVal, sizeMl: map<string, Option<real>>): (r: Variant)
    ensures var sizeId := Get(SizeLink(variant), "id");
      r.ml == (if !Nullish(sizeId) && Stringify(sizeId) in sizeMl then sizeMl[Stringify(sizeId)] else None)
    ensures r.sizeName == SizeName(SizeLink(variant))
    ensures r.price == NormalizeVariantPrice(Get(variant, "price"))
  {
    var sizeLink := SizeLink(variant);
    var sizeId := Coalesce(Get(sizeLink, "id"), JNull);
    var ml := if !Nullish(sizeId) && Stringify(sizeId) in sizeMl then sizeMl[Stringify(sizeId)] else None;
    Variant(SizeName(sizeLink), ml, NormalizeVariantPrice(Get(variant, "price")))
  }

  /** One entry per link of the variant's item field, in link order, keyed by
      the text of the linked id. */
  function LinksOf<P>(variant: JVal, payload: P): (links: seq<(string, P)>)
    ensures |links| == |NormalizeLinks(Get(variant, "item"))|
    ensures forall j :: 0 <= j < |links| ==>
      links[j] == (IdText(NormalizeLinks(Get(variant, "item"))[j]), payload)
  {
    var itemLinks := NormalizeLinks(Get(variant, "item"));
    seq(|itemLinks|, j requires 0 <= j < |itemLinks| => (IdText(itemLinks[j]), payload))
  }

  /** The entries of all variants, variant after variant. */
  function VariantLinks(variants: seq<JVal>, sizeMl: map<string, Option<real>>): seq<(string, Variant)> {
    if variants == [] then []
    else LinksOf(variants[0], VariantOf(variants[0], sizeMl)) + VariantLinks(variants[1..], sizeMl)
  }

  /** The key an item is indexed under: the text of its id, when it has a
      number or string id. */
  function ItemKey(row: JVal): (k: Option<string>)
    ensures k.Some? <==> Get(row, "id").JNum? || Get(row, "id").JStr?
  {
    var id := NormalizeItemId(Get(row, "id"));
    if id.JUndef? then None else Some(Stringify(id))
  }

  /** An item row as a menu record, before its variants are attached. */
  function MapItem(row: JVal): (r: MenuRecord)
    ensures r.popular == Truthy(Get(row, "popular"))
    ensures r.variants == []
    ensures r.id == NormalizeItemId(Get(row, "id"))
    ensures r.name == NormalizeTextValue(Get(row, "name"))
    ensures r.category == NormalizeCategoryValue(Get(row, "category"))
    ensures r.description == NormalizeTextValue(Get(row, "description"))
    ensures r.id.JNum? || r.id.JStr? || r.id == JUndef
    ensures Clean(r.name) && Clean(r.category) && Clean(r.description)
  {
    NormalizeTextValueClean(Get(row, "name"));
    NormalizeTextValueClean(Get(row, "description"));
    CategoryClean(Get(row, "category"));
    MenuRecord(
      NormalizeItemId(Get(row, "id")),
      NormalizeTextValue(Get(row, "name")),
      NormalizeCategoryValue(Get(row, "category")),
      NormalizeTextValue(Get(row, "description")),
      Truthy(Get(row, "popular")),
      [])
  }

  function ItemKeys(items: seq<JVal>): (keys: seq<Option<string>>)
    ensures |keys| == |items|
    ensures forall i :: 0 <= i < |items| ==> keys[i] == ItemKey(items[i])
  {
    seq(|items|, i requires 0 <= i < |items| => ItemKey(items[i]))
  }

  /** The variants each item receives from the fan-out, in join order. */
  function JoinedVariants(items: seq<JVal>, variants: seq<JVal>, sizes: seq<JVal>): (lists: seq<seq<Variant>>)
    ensures |lists| == |items|
  {
    var index := BuildIndex(ItemKeys(items));
    Attach(EmptyLists(|items|), index, VariantLinks(variants, SizeMlById(sizes)))
  }

  /** The volume of a variant, the key the order is by. */
  function Volume(v: Variant): Option<real> {
    v.ml
  }

  /** The menu: one record per item row, in row order, each with its joined
      variants in volume order. */
  function JoinMenu(items: seq<JVal>, variants: seq<JVal>, sizes: seq<JVal>): (menu: seq<MenuRecord>)
    ensures |menu| == |items|
    ensures forall i :: 0 <= i < |items| ==>
      menu[i] == MapItem(items[i]).(variants := menu[i].variants)
  {
    var lists := JoinedVariants(items, variants, sizes);
    seq(|items|, i requires 0 <= i < |items| => MapItem(items[i]).(variants := SortByVolume(lists[i], Volume)))
  }

  /** Every record of the joined menu carries its row's coerced fields: an id
      that is a number, a text or undefined, and a name, category and
      description that are absent or non-blank trimmed text. */
  lemma JoinMenuFields(items: seq<JVal>, variants: seq<JVal>, sizes: seq<JVal>, i: nat)
    requires i < |items|
    ensures var r := JoinMenu(items, variants, sizes)[i];
      && r.id == NormalizeItemId(Get(items[i], "id"))
      && r.name == NormalizeTextValue(Get(items[i], "name"))
      && r.category == NormalizeCategoryValue(Get(items[i], "category"))
      && r.description == NormalizeTextValue(Get(items[i], "description"))
      && r.popular == Truthy(Get(items[i], "popular"))
      && (r.id.JNum? || r.id.JStr? || r.id == JUndef)
      && Clean(r.name) && Clean(r.category) && Clean(r.description)
  {
    var m := MapItem(items[i]);
    assert JoinMenu(items, variants, sizes)[i] == m.(variants := JoinMenu(items, variants, sizes)[i].variants);
  }

  /** The variants of item `i` are exactly the variants whose links name it
      by the text of its id, once per naming link and in join order, when no
      later item has the same id text; they are then ordered so that those
      with a volume come first by ascending volume and entries of equal (or
      no) volume keep their join order. */
  lemma JoinMenuVariants(items: seq<JVal>, variants: seq<JVal>, sizes: seq<JVal>, i: nat)
    requires i < |items|
    ensures var index := BuildIndex(ItemKeys(items));
      var joined := Owned(VariantLinks(variants, SizeMlById(sizes)), index, i);
      var vs := JoinMenu(items, variants, sizes)[i].variants;
      && multiset(vs) == multiset(joined)
      && SortedBy(vs, Volume)
      && forall v :: OfVolume(vs, Volume, v) == OfVolume(joined, Volume, v)
  {
    var index := BuildIndex(ItemKeys(items));
    var links := VariantLinks(variants, SizeMlById(sizes));
    AttachOwned(EmptyLists(|items|), index, links, i);
    var joined := Owned(links, index, i);
    assert JoinedVariants(items, variants, sizes)[i] == joined;
    SortPermutes(joined, Volume);
    SortSorted(joined, Volume);
    forall v {
      SortStable(joined, Volume, v);
    }
  }

  /** The variants item `i` receives when nothing but its own key names it. */
  lemma UnnamedItemGetsNone(items: seq<JVal>, variants: seq<JVal>, sizes: seq<JVal>, i: nat)
    requires i < |items|
    requires forall k :: k in BuildIndex(ItemKeys(items)) ==> BuildIndex(ItemKeys(items))[k] != i
    ensures JoinMenu(items, variants, sizes)[i].variants == []
  {
    var index := BuildIndex(ItemKeys(items));
    var links := VariantLinks(variants, SizeMlById(sizes));
    AttachOwned(EmptyLists(|items|), index, links, i);
    OwnedNone(links, index, i);
  }

  /** An item whose id is neither a number nor a string is kept but
      receives no variants. */
  lemma ItemWithoutIdGetsNone(items: seq<JVal>, variants: seq<JVal>, sizes: seq<JVal>, i: nat)
    requires i < |items|
    requires !Get(items[i], "id").JNum? && !Get(items[i], "id").JStr?
    ensures JoinMenu(items, variants, sizes)[i].variants == []
  {
    UnnamedItemGetsNone(items, variants, sizes, i);
  }

  /** Of items whose ids read the same, only the last receives variants. */
  lemma ShadowedItemGetsNone(items: seq<JVal>, variants: seq<JVal>, sizes: seq<JVal>, i: nat, j: nat)
    requires i < j < |items|
    requires ItemKey(items[i]).Some? && ItemKey(items[i]) == ItemKey(items[j])
    ensures JoinMenu(items, variants, sizes)[i].variants == []
  {
    UnnamedItemGetsNone(items, variants, sizes, i);
  }

  /** The outcome of reading one table. */
  datatype TableRead = Fetched(data: JVal) | Failed(status: int)

  /** The endpoint's answer. */
  datatype Reply = MissingConfig(missing: seq<string>) | UpstreamFailed(status: int) | Joined(menu: seq<MenuRecord>)

  /** The addresses the endpoint reads, in the order menu, variants, sizes;
      none when a setting is missing. */
  function TableRequests(env: map<string, string>): (urls: seq<string>)
    ensures GetBaserowEnv(EnvKeys, env).missing != [] ==> urls == []
    ensures GetBaserowEnv(EnvKeys, env).missing == [] ==> urls == [
      BuildTableUrl(env[ApiUrlKey], env[TableIdKey]),
      BuildTableUrl(env[ApiUrlKey], env[VariantsTableIdKey]),
      BuildTableUrl(env[ApiUrlKey], env[SizesTableIdKey])]
  {
    var read := GetBaserowEnv(EnvKeys, env);
    if read.missing != [] then []
    else
      assert EnvKeys[0] == ApiUrlKey && EnvKeys[1] == TableIdKey;
      assert EnvKeys[2] == VariantsTableIdKey && EnvKeys[3] == SizesTableIdKey;
      assert ApiUrlKey in read.values && TableIdKey in read.values;
      assert VariantsTableIdKey in read.values && SizesTableIdKey in read.values;
      var base := read.values[ApiUrlKey];
      [ BuildTableUrl(base, read.values[TableIdKey]),
        BuildTableUrl(base, read.values[VariantsTableIdKey]),
        BuildTableUrl(base, read.values[SizesTableIdKey]) ]
  }

  /** The endpoint: missing settings first, then the first failed read in
      the order menu, variants, sizes, and otherwise the joined menu. */
  function Handle(env: map<string, string>, menu: TableRead, variants: TableRead, sizes: TableRead): (r: Reply)
    ensures r.MissingConfig? <==> exists k :: k in EnvKeys && !Present(env, k)
    ensures r.MissingConfig? ==> forall k :: k in r.missing <==> k in EnvKeys && !Present(env, k)
    ensures r.MissingConfig? ==> r.missing == MissingKeys(EnvKeys, env)
    ensures r.UpstreamFailed? <==> !r.MissingConfig? && (menu.Failed? || variants.Failed? || sizes.Failed?)
    ensures r.UpstreamFailed? ==>
      r.status == (if menu.Failed? then menu.status else if variants.Failed? then variants.status else sizes.status)
  {
    var missing := GetBaserowEnv(EnvKeys, env).missing;
    if missing != [] then
      assert missing[0] in missing;
      MissingConfig(missing)
    else if menu.Failed? then UpstreamFailed(menu.status)
    else if variants.Failed? then UpstreamFailed(variants.status)
    else if sizes.Failed? then UpstreamFailed(sizes.status)
    else Joined(JoinMenu(Rows(menu.data), Rows(variants.data), Rows(sizes.data)))
  }

  /** With a setting missing the answer does not depend on any table. */
  lemma MissingConfigIgnoresTables(env: map<string, string>, m1: TableRead, v1: TableRead, s1: TableRead,
                                   m2: TableRead, v2: TableRead, s2: TableRead)
    requires exists k :: k in EnvKeys && !Present(env, k)
    ensures Handle(env, m1, v1, s1) == Handle(env, m2, v2, s2)
  {
  }

  /** With every read successful the answer is the joined menu of their rows. */
  lemma HandleJoins(env: map<string, string>, menu: JVal, variants: JVal, sizes: JVal)
    requires forall k :: k in EnvKeys ==> Present(env, k)
    ensures Handle(env, Fetched(menu), Fetched(variants), Fetched(sizes))
      == Joined(JoinMenu(Rows(menu), Rows(variants), Rows(sizes)))
  {
    EnvAllPresent(EnvKeys, env);
  }
}

=== FILE: catalog_legacy.dfy ===
/**
  The earlier version of the joined-menu endpoint (route.js): it reads only
  the menu and variants tables, passes the item fields through untouched
  (with missing ones as null), indexes every item whose id is not nullish,
  and attaches to each item its variants' raw size name and price in join
  order, without volumes and without reordering.
 */
module CatalogLegacy {
  import opened Wrappers
  import opened JsValue
  import opened Baserow
  import opened Join
  import Catalog

  /** The settings this version needs: no sizes table. */
  const LegacyEnvKeys: seq<string> := [Catalog.ApiUrlKey, Catalog.TableIdKey, Catalog.VariantsTableIdKey, Catalog.TokenKey]

  /** A variant as this version attaches it. */
  datatype LegacyVariant = LegacyVariant(sizeName: JVal, price: JVal)

  /** An item as this version returns it: the row's fields, raw. */
  datatype LegacyRecord = LegacyRecord(
    id: JVal,
    name: JVal,
    category: JVal,
    description: JVal,
    popular: JVal,
    variants: seq<LegacyVariant>)

  /** `row?.key ?? null` */
  function Field(row: JVal, key: string): (r: JVal)
    ensures !r.JUndef?
    ensures !Nullish(Get(row, key)) ==> r == Get(row, key)
    ensures Nullish(Get(row, key)) ==> r == JNull
  {
    Coalesce(Get(row, key), JNull)
  }

  /** An item row as a record, before its variants are attached. */
  function MapLegacyItem(row: JVal): (r: LegacyRecord)
    ensures r.id == Field(row, "id") && r.name == Field(row, "name")
    ensures r.category == Field(row, "category") && r.description == Field(row, "description")
    ensures r.popular == Field(row, "popular")
    ensures r.variants == []
  {
    LegacyRecord(Field(row, "id"), Field(row, "name"), Field(row, "category"),
                 Field(row, "description"), Field(row, "popular"), [])
  }

  /** The key an item is indexed under: the text of any id that is not
      nullish. */
  function LegacyKey(row: JVal): (k: Option<string>)
    ensures k.Some? <==> !Nullish(Get(row, "id"))
    ensures k.Some? ==> k.value == Stringify(Get(row, "id"))
  {
    if Nullish(Get(row, "id")) then None else Some(Stringify(Get(row, "id")))
  }

  /** Both versions index an item with a number or string id under the same
      key; they differ on other ids, which only this version indexes. */
  lemma LegacyKeyAgrees(row: JVal)
    ensures Get(row, "id").JNum? || Get(row, "id").JStr? ==> LegacyKey(row) == Catalog.ItemKey(row)
    ensures !Get(row, "id").JNum? && !Get(row, "id").JStr? ==>
      Catalog.ItemKey(row).None? && (LegacyKey(row).Some? <==> !Nullish(Get(row, "id")))
  {
  }

  /** The raw size name: the link's naming field, or null. */
  function LegacySizeName(sizeLink: JVal): (r: JVal)
    ensures !r.JUndef?
    ensures r.JNull? <==> Nullish(SizeLabelField(sizeLink))
    ensures !r.JNull? ==> r == SizeLabelField(sizeLink)
  {
    Coalesce(SizeLabelField(sizeLink), JNull)
  }

  /** The newer version normalises the same field: a number becomes its
      text, a string is trimmed (blank is none), anything else is none. */
  lemma SizeNameRefines(sizeLink: JVal)
    ensures Catalog.SizeName(sizeLink) == Catalog.NormalizeTextValue(LegacySizeName(sizeLink))
  {
  }

  function LegacyVariantOf(variant: JVal): (r: LegacyVariant)
    ensures r.sizeName == LegacySizeName(Catalog.SizeLink(variant))
    ensures r.price == Field(variant, "price")
  {
    LegacyVariant(LegacySizeName(Catalog.SizeLink(variant)), Field(variant, "price"))
  }

  /** One entry per link of each variant's item field, variant after variant. */
  function LegacyLinks(variants: seq<JVal>): seq<(string, LegacyVariant)> {
    if variants == [] then []
    else Catalog.LinksOf(variants[0], LegacyVariantOf(variants[0])) + LegacyLinks(variants[1..])
  }

  function LegacyKeys(items: seq<JVal>): (keys: seq<Option<string>>)
    ensures |keys| == |items|
    ensures forall i :: 0 <= i < |items| ==> keys[i] == LegacyKey(items[i])
  {
    seq(|items|, i requires 0 <= i < |items| => LegacyKey(items[i]))
  }

  /** The menu: one record per item row, in row order, each with the
      variants its links attach, in join order. */
  function LegacyJoin(items: seq<JVal>, variants: seq<JVal>): (menu: seq<LegacyRecord>)
    ensures |menu| == |items|
    ensures forall i :: 0 <= i < |items| ==>
      menu[i] == MapLegacyItem(items[i]).(variants := menu[i].variants)
  {
    var lists := Attach(EmptyLists(|items|), BuildIndex(LegacyKeys(items)), LegacyLinks(variants));
    seq(|items|, i requires 0 <= i < |items| => MapLegacyItem(items[i]).(variants := lists[i]))
  }

  /** The variants of item `i` are exactly those whose links name it, once
      per naming link and in join order: nothing is reordered. */
  lemma LegacyJoinVariants(items: seq<JVal>, variants: seq<JVal>, i: nat)
    requires i < |items|
    ensures LegacyJoin(items, variants)[i].variants == Owned(LegacyLinks(variants), BuildIndex(LegacyKeys(items)), i)
  {
    AttachOwned(EmptyLists(|items|), BuildIndex(LegacyKeys(items)), LegacyLinks(variants), i);
  }

  /** Of items whose ids read the same, only the last receives variants. */
  lemma LegacyShadowedItemGetsNone(items: seq<JVal>, variants: seq<JVal>, i: nat, j: nat)
    requires i < j < |items|
    requires LegacyKey(items[i]).Some? && LegacyKey(items[i]) == LegacyKey(items[j])
    ensures LegacyJoin(items, variants)[i].variants == []
  {
    var index := BuildIndex(LegacyKeys(items));
    LegacyJoinVariants(items, variants, i);
    OwnedNone(LegacyLinks(variants), index, i);
  }

  /** The endpoint's answer. */
  datatype LegacyReply = LegacyMissingConfig(missing: seq<string>) | LegacyUpstreamFailed(status: int)
                       | LegacyJoined(menu: seq<LegacyRecord>)

  /** The endpoint: missing settings first, then the menu read's failure,
      then the variants read's, and otherwise the joined menu. */
  function LegacyHandle(env: map<string, string>, menu: Catalog.TableRead, variants: Catalog.TableRead): (r: LegacyReply)
    ensures r.LegacyMissingConfig? <==> exists k :: k in LegacyEnvKeys && !Present(env, k)
    ensures r.LegacyMissingConfig? ==> forall k :: k in r.missing <==> k in LegacyEnvKeys && !Present(env, k)
    ensures r.LegacyMissingConfig? ==> r.missing == MissingKeys(LegacyEnvKeys, env)
    ensures r.LegacyUpstreamFailed? <==> !r.LegacyMissingConfig? && (menu.Failed? || variants.Failed?)
    ensures r.LegacyUpstreamFailed? ==> r.status == (if menu.Failed? then menu.status else variants.status)
    ensures r.LegacyJoined? <==> !r.LegacyMissingConfig? && menu.Fetched? && variants.Fetched?
    ensures r.LegacyJoined? ==> r.menu == LegacyJoin(Catalog.Rows(menu.data), Catalog.Rows(variants.data))
  {
    var missing := GetBaserowEnv(LegacyEnvKeys, env).missing;
    if missing != [] then
      assert missing[0] in missing;
      LegacyMissingConfig(missing)
    else if menu.Failed? then LegacyUpstreamFailed(menu.status)
    else if variants.Failed? then LegacyUpstreamFailed(variants.status)
    else LegacyJoined(LegacyJoin(Catalog.Rows(menu.data), Catalog.Rows(variants.data)))
  }

  /** With every setting present and both reads answered, the endpoint
      answers with the join of the two tables' rows. */
  lemma LegacyHandleJoins(env: map<string, string>, menu: JVal, variants: JVal)
    requires forall k :: k in LegacyEnvKeys ==> Present(env, k)
    ensures LegacyHandle(env, Catalog.Fetched(menu), Catalog.Fetched(variants))
      == LegacyJoined(LegacyJoin(Catalog.Rows(menu), Catalog.Rows(variants)))
  {
    EnvAllPresent(LegacyEnvKeys, env);
  }

  /** This version does not need the sizes table's setting: a configuration
      lacking only that one is enough for it. */
  lemma LegacyIgnoresSizesSetting(env: map<string, string>)
    requires forall k :: k in LegacyEnvKeys ==> Present(env, k)
    ensures GetBaserowEnv(LegacyEnvKeys, env).missing == []
    ensures Catalog.SizesTableIdKey !in LegacyEnvKeys
  {
    EnvAllPresent(LegacyEnvKeys, env);
  }
}

=== FILE: category_row.dfy ===
/**
  One category's row of cards on the menu page
  (src/components/MenuPage/MenuCategoryRow.tsx): the key each card is
  rendered and added to the cart under, what the add button puts into the
  cart, the set of add buttons currently animating, the one-shot focus on
  the card named in the address, and the key the row's scroll position is
  stored under. Scrolling, geometry and the storage itself are left out.
 */
module CategoryRow {
  import opened Wrappers
  import opened Text
  import opened JsValue
  import opened Seqs
  import opened MenuData
  import opened MenuView
  import opened Cart

  /** The session-storage key of the row's scroll position: the prefix, a
      dash, the category key. */
  function StorageKey(prefix: string, categoryKey: string): (k: string)
    ensures |k| == |prefix| + 1 + |categoryKey|
    ensures k[..|prefix|] == prefix && k[|prefix|] == '-' && k[|prefix| + 1..] == categoryKey
  {
    prefix + "-" + categoryKey
  }

  /** Under one prefix, every category keeps its scroll position apart. */
  lemma StorageKeyInjective(prefix: string, a: string, b: string)
    requires StorageKey(prefix, a) == StorageKey(prefix, b)
    ensures a == b
  {
    assert StorageKey(prefix, a)[|prefix| + 1..] == a;
  }

  /** The card's key: the text of the item's id, or, for an item without
      one, the category key, a dash and the card's position. */
  function CardKey(item: JVal, categoryKey: string, index: nat): (k: string)
    ensures !Nullish(Get(item, "id")) ==> k == Stringify(Get(item, "id"))
    ensures Nullish(Get(item, "id")) ==> k == categoryKey + "-" + NatText(index)
  {
    Stringify(Coalesce(Get(item, "id"), JStr(categoryKey + "-" + NatText(index))))
  }

  /** Two cards without ids in the same row never share a key. */
  lemma CardKeysApart(a: JVal, b: JVal, categoryKey: string, i: nat, j: nat)
    requires Nullish(Get(a, "id")) && Nullish(Get(b, "id"))
    requires CardKey(a, categoryKey, i) == CardKey(b, categoryKey, j)
    ensures i == j
  {
    var n := |categoryKey| + 1;
    assert CardKey(a, categoryKey, i)[n..] == NatText(i);
    assert CardKey(b, categoryKey, j)[n..] == NatText(j);
    NatTextInjective(i, j);
  }

  /** Cards whose items have integer ids share a key exactly when the ids
      are equal. */
  lemma CardKeysOfIntegerIds(a: int, b: int, item1: JVal, item2: JVal, categoryKey: string, i: nat, j: nat)
    requires Get(item1, "id") == JNum(Fin(a as real)) && Get(item2, "id") == JNum(Fin(b as real))
    ensures CardKey(item1, categoryKey, i) == CardKey(item2, categoryKey, j) <==> a == b
  {
    if CardKey(item1, categoryKey, i) == CardKey(item2, categoryKey, j) {
      StringifyIntInjective(a, b);
    }
  }

  /** What the card's add button passes to the cart: the card key, the name
      label and the add price. */
  function CardInput(item: JVal, categoryKey: string, index: nat, nameFallback: string): (c: CartInput)
    requires TextOrNullish(Get(item, "name"))
    ensures c.id == CardKey(item, categoryKey, index)
    ensures c.name == NameLabel(item, nameFallback)
    ensures c.price == AddPrice(GetPriceInfo(item))
  {
    CartInput(CardKey(item, categoryKey, index), NameLabel(item, nameFallback), AddPrice(GetPriceInfo(item)))
  }

  /** The row's own state: the focus index still to be applied, the card in
      the centre and the keys of the add buttons being animated. */
  datatype RowState = RowState(pending: Option<int>, activeIndex: int, animating: set<string>)

  /** A fresh row: the address's card index is pending, the first card is
      active, nothing animates. */
  function InitialRow(initialFocusIndex: Option<int>): (s: RowState)
    ensures s.pending == initialFocusIndex && s.activeIndex == 0 && s.animating == {}
  {
    RowState(initialFocusIndex, 0, {})
  }

  /** The focus effect, run with the current number of cards: nothing while
      there is no pending index or no card; otherwise the pending index is
      consumed, and it becomes the active card only when it is in range. */
  function FocusEffect(s: RowState, count: nat): (r: RowState)
    ensures r.animating == s.animating
    ensures s.pending.None? || count == 0 ==> r == s
    ensures s.pending.Some? && count > 0 ==> r.pending.None?
    ensures s.pending.Some? && count > 0 ==>
      r.activeIndex == (if 0 <= s.pending.value < count then s.pending.value else s.activeIndex)
  {
    if s.pending.None? || count == 0 then s
    else
      var target := s.pending.value;
      var consumed := s.(pending := None);
      if target < 0 || target >= count then consumed
      else consumed.(activeIndex := target)
  }

  /** Once consumed, the pending index is gone: a later run changes nothing,
      whatever the number of cards then. */
  lemma FocusConsumedOnce(s: RowState, count: nat, later: nat)
    requires count > 0
    ensures FocusEffect(FocusEffect(s, count), later) == FocusEffect(s, count)
  {
  }

  predicate NonEmpty(count: nat) {
    count > 0
  }

  /** The effect run at each render, with that render's number of cards. */
  function RunFocusEffects(s: RowState, counts: seq<nat>): RowState
    decreases |counts|
  {
    if counts == [] then s else RunFocusEffects(FocusEffect(s, counts[0]), counts[1..])
  }

  /** Over any run of renders only the first one with cards acts: an index
      out of range for that render is dropped, not retried on a later one. */
  lemma {:induction false} FocusAppliedOnce(s: RowState, counts: seq<nat>)
    ensures var k := FindIndex(counts, NonEmpty);
      RunFocusEffects(s, counts) == if k == |counts| then s else FocusEffect(s, counts[k])
  {
    if counts != [] {
      if counts[0] > 0 {
        FocusStays(FocusEffect(s, counts[0]), counts[1..]);
      } else {
        FocusAppliedOnce(s, counts[1..]);
      }
    }
  }

  /** Without a pending index no render changes the row. */
  lemma {:induction false} FocusStays(s: RowState, counts: seq<nat>)
    requires s.pending.None?
    ensures RunFocusEffects(s, counts) == s
  {
    if counts != [] {
      FocusStays(s, counts[1..]);
    }
  }

  /** Focusing or clicking a card makes it the active one. */
  function FocusCard(s: RowState, index: int): (r: RowState)
    ensures r.activeIndex == index && r.pending == s.pending && r.animating == s.animating
  {
    s.(activeIndex := index)
  }

  /** `next.add(id)` on a copy of the set. */
  function StartAnimation(animating: set<string>, id: string): (r: set<string>)
    ensures id in r
    ensures forall k :: k != id ==> (k in r <==> k in animating)
  {
    animating + {id}
  }

  /** `next.delete(id)` on a copy of the set. */
  function EndAnimation(animating: set<string>, id: string): (r: set<string>)
    ensures id !in r
    ensures forall k :: k != id ==> (k in r <==> k in animating)
  {
    animating - {id}
  }

  /** A started animation that ends leaves the set as it was. */
  lemma AnimationRoundTrip(animating: set<string>, id: string)
    requires id !in animating
    ensures EndAnimation(StartAnimation(animating, id), id) == animating
  {
  }

  /** The add button: the card becomes active, its key starts animating and
      the card's input goes into the cart. */
  function AddClick(s: RowState, cart: seq<CartItem>, item: JVal, categoryKey: string, index: nat,
                    nameFallback: string): (r: (RowState, seq<CartItem>))
    requires TextOrNullish(Get(item, "name"))
    ensures r.0.activeIndex == index && r.0.pending == s.pending
    ensures r.0.animating == StartAnimation(s.animating, CardKey(item, categoryKey, index))
    ensures r.1 == AddItem(cart, CardInput(item, categoryKey, index, nameFallback))
  {
    var focused := FocusCard(s, index);
    var input := CardInput(item, categoryKey, index, nameFallback);
    (focused.(animating := StartAnimation(focused.animating, input.id)), AddItem(cart, input))
  }

  /** The button's animation end for a card. */
  function AnimationEnd(s: RowState, key: string): (r: RowState)
    ensures r.animating == EndAnimation(s.animating, key)
    ensures r.pending == s.pending && r.activeIndex == s.activeIndex
  {
    s.(animating := EndAnimation(s.animating, key))
  }

  /** After a click on a card's add button a valid cart stays valid, holds
      the card's key, counts one more item, and a new key arrives with the
      card's name label and add price. */
  lemma AddClickCart(s: RowState, cart: seq<CartItem>, item: JVal, categoryKey: string, index: nat,
                     nameFallback: string)
    requires TextOrNullish(Get(item, "name")) && Valid(cart)
    ensures var key := CardKey(item, categoryKey, index);
      var after := AddClick(s, cart, item, categoryKey, index, nameFallback).1;
      && Valid(after)
      && Holds(after, key)
      && TotalCount(after) == TotalCount(cart) + 1
      && (!Holds(cart, key) ==>
            after[|after| - 1] == CartItem(key, NameLabel(item, nameFallback), AddPrice(GetPriceInfo(item)), 1))
  {
    var input := CardInput(item, categoryKey, index, nameFallback);
    var after := AddItem(cart, input);
    AddKeepsValid(cart, input);
    TotalCountAdd(cart, input);
    if Holds(cart, input.id) {
      var i :| 0 <= i < |cart| && cart[i].id == input.id;
      assert Ids(after)[i] == input.id;
    } else {
      assert after[|after| - 1].id == input.id;
    }
  }

  /** The click's animation ends where it began: the row is as it was with
      the card focused, unless that key was animating already. */
  lemma AddClickThenAnimationEnd(s: RowState, cart: seq<CartItem>, item: JVal, categoryKey: string, index: nat,
                                 nameFallback: string)
    requires TextOrNullish(Get(item, "name"))
    requires CardKey(item, categoryKey, index) !in s.animating
    ensures AnimationEnd(AddClick(s, cart, item, categoryKey, index, nameFallback).0, CardKey(item, categoryKey, index))
      == FocusCard(s, index)
  {
    AnimationRoundTrip(s.animating, CardKey(item, categoryKey, index));
  }
}

=== FILE: hero.dfy ===
/**
  The opening-hours badge of the landing page (src/components/Hero/Hero.tsx):
  the shop is open from minute 7*60 of the day up to, not including, minute
  24*60. The same test gives the first value and the value refreshed every
  minute; the clock itself is a parameter.
 */
module Hero {
  const StartMinutes := 7 * 60
  const EndMinutes := 24 * 60

  /** A time the clock can show. */
  predicate ValidTime(hours: int, minutes: int) {
    0 <= hours < 24 && 0 <= minutes < 60
  }

  /** The minute of the day of a clock time. */
  function MinuteOfDay(hours: int, minutes: int): (t: int)
    ensures ValidTime(hours, minutes) ==> 0 <= t < EndMinutes
  {
    hours * 60 + minutes
  }

  /** Open at minutes from the start up to, not including, the end. On a
      real clock the closing bound never rules a time out: the shop is open
      exactly from 7:00 on, to the end of the day. */
  function IsOpenNow(hours: int, minutes: int): (open: bool)
    ensures ValidTime(hours, minutes) ==> (open <==> hours >= 7)
  {
    StartMinutes <= MinuteOfDay(hours, minutes) < EndMinutes
  }

  /** 7:00 is open, 6:59 is not, and 23:59 still is. */
  lemma OpeningEdges()
    ensures IsOpenNow(7, 0) && !IsOpenNow(6, 59) && IsOpenNow(23, 59) && !IsOpenNow(0, 0)
  {
  }
}

=== FILE: join.dfy ===
/**
  The join shared by both versions of the joined-menu endpoint: relation
  fields read as lists of link records, an index from item id text to the
  item's position (the last item with a given id text wins), and the
  fan-out that appends each variant to every item one of its links names.
 */
module Join {
  import opened Wrappers
  import opened JsValue
  import opened Seqs

  /** A relation field as a list of link records: an array loses its falsy
      entries, an object is a single link, null and undefined are no links,
      and any other value (even 0, "" or false) is the id of a single link. */
  function NormalizeLinks(value: JVal): (links: seq<JVal>)
    ensures value.JArr? ==> forall l :: l in links <==> l in value.elems && Truthy(l)
    ensures value.JObj? ==> links == [value]
    ensures Nullish(value) ==> links == []
    ensures !value.JArr? && !value.JObj? && !Nullish(value) ==>
      |links| == 1 && Get(links[0], "id") == value
  {
    match value
    case JArr(elems) => FilterMembers(elems, Truthy); Filter(elems, Truthy)
    case JObj(_) => [value]
    case JUndef => []
    case JNull => []
    case _ => [JObj(map["id" := value])]
  }

  /** The links of an array keep the array's order: those of a concatenation
      are those of its parts, one after the other. */
  lemma NormalizeLinksAppend(a: seq<JVal>, b: seq<JVal>)
    ensures NormalizeLinks(JArr(a + b)) == NormalizeLinks(JArr(a)) + NormalizeLinks(JArr(b))
  {
    FilterAppend(a, b, Truthy);
  }

  /** `link?.value ?? link?.name ?? link?.label ?? link?.id`: the field a
      size link is named by. */
  function SizeLabelField(link: JVal): (r: JVal)
    ensures Nullish(r) <==> Nullish(Get(link, "value")) && Nullish(Get(link, "name"))
                            && Nullish(Get(link, "label")) && Nullish(Get(link, "id"))
    ensures !Nullish(Get(link, "value")) ==> r == Get(link, "value")
    ensures Nullish(Get(link, "value")) && !Nullish(Get(link, "name")) ==> r == Get(link, "name")
    ensures Nullish(Get(link, "value")) && Nullish(Get(link, "name")) && !Nullish(Get(link, "label")) ==>
      r == Get(link, "label")
    ensures Nullish(Get(link, "value")) && Nullish(Get(link, "name")) && Nullish(Get(link, "label")) ==>
      r == Get(link, "id")
  {
    Coalesce(Coalesce(Coalesce(Get(link, "value"), Get(link, "name")), Get(link, "label")), Get(link, "id"))
  }

  /** The position of every keyed item by its key; when several items share
      a key, the last of them. */
  function BuildIndex(keys: seq<Option<string>>): (m: map<string, nat>)
    ensures forall k :: k in m ==> m[k] < |keys| && keys[m[k]] == Some(k)
    ensures forall k :: k in m ==> forall j :: m[k] < j < |keys| ==> keys[j] != Some(k)
    ensures forall i :: 0 <= i < |keys| && keys[i].Some? ==> keys[i].value in m
  {
    if keys == [] then map[]
    else
      var n := |keys| - 1;
      var init := keys[..n];
      var front := BuildIndex(init);
      assert forall j :: 0 <= j < n ==> keys[j] == init[j];
      match keys[n]
      case Some(k) => front[k := |keys| - 1]
      case None => front
  }

  /** An item is indexed under no key but its own. */
  lemma IndexOnlyOwnKey(keys: seq<Option<string>>, i: nat, k: string)
    requires k in BuildIndex(keys) && BuildIndex(keys)[k] == i
    ensures i < |keys| && keys[i] == Some(k)
  {
  }

  /** Every position an index holds is one of the lists'. */
  predicate IndexFits(index: map<string, nat>, n: nat) {
    forall k :: k in index ==> index[k] < n
  }

  /** One empty list per item: the start of the fan-out. */
  function EmptyLists<P>(n: nat): (lists: seq<seq<P>>)
    ensures |lists| == n
    ensures forall i :: 0 <= i < n ==> lists[i] == []
  {
    seq(n, i => [])
  }

  /** Appends the payload to the list of the item its key names, if any. */
  function Push<P>(lists: seq<seq<P>>, index: map<string, nat>, link: (string, P)): (r: seq<seq<P>>)
    requires IndexFits(index, |lists|)
    ensures |r| == |lists|
  {
    if link.0 in index then lists[index[link.0] := lists[index[link.0]] + [link.1]] else lists
  }

  /** The fan-out: every link, in order, appends its payload to the item its
      key names; links naming no item are ignored. */
  function Attach<P>(lists: seq<seq<P>>, index: map<string, nat>, links: seq<(string, P)>): (r: seq<seq<P>>)
    requires IndexFits(index, |lists|)
    ensures |r| == |lists|
    decreases |links|
  {
    if links == [] then lists else Attach(Push(lists, index, links[0]), index, links[1..])
  }

  /** The payloads of the links that name item `i`, in link order. */
  function Owned<P>(links: seq<(string, P)>, index: map<string, nat>, i: nat): seq<P> {
    if links == [] then []
    else
      (if links[0].0 in index && index[links[0].0] == i then [links[0].1] else [])
      + Owned(links[1..], index, i)
  }

  /** After the fan-out each item's list holds what it held before followed
      by exactly the payloads of the links naming it, in link order. */
  lemma {:induction false} AttachOwned<P>(lists: seq<seq<P>>, index: map<string, nat>, links: seq<(string, P)>, i: nat)
    requires IndexFits(index, |lists|)
    requires i < |lists|
    ensures Attach(lists, index, links)[i] == lists[i] + Owned(links, index, i)
    decreases |links|
  {
    if links != [] {
      var link := links[0];
      var pushed := Push(lists, index, link);
      var here := if link.0 in index && index[link.0] == i then [link.1] else [];
      assert pushed[i] == lists[i] + here;
      AttachOwned(pushed, index, links[1..], i);
      var later := Owned(links[1..], index, i);
      assert Owned(links, index, i) == here + later;
      assert (lists[i] + here) + later == lists[i] + (here + later);
    }
  }

  /** An item no key names receives nothing. */
  lemma {:induction false} OwnedNone<P>(links: seq<(string, P)>, index: map<string, nat>, i: nat)
    requires forall k :: k in index ==> index[k] != i
    ensures Owned(links, index, i) == []
  {
    if links != [] {
      OwnedNone(links[1..], index, i);
    }
  }

  /** The payloads an item receives from a concatenation of links are those
      from the first part followed by those from the second. */
  lemma {:induction false} OwnedAppend<P>(a: seq<(string, P)>, b: seq<(string, P)>, index: map<string, nat>, i: nat)
    ensures Owned(a + b, index, i) == Owned(a, index, i) + Owned(b, index, i)
  {
    if a == [] {
      assert a + b == b;
    } else {
      assert (a + b)[0] == a[0];
      assert (a + b)[1..] == a[1..] + b;
      OwnedAppend(a[1..], b, index, i);
    }
  }
}

=== FILE: js_value.dfy ===
/**
  JavaScript values as they arrive from JSON (the rows of the tabular backend,
  the menu endpoint's body, the stored cart) and flow through the menu code,
  with the three JavaScript notions the code leans on: truthiness, nullishness
  (`??`, `?.`) and `String(value)`.
 */
module JsValue {
  import opened Text

  /** A JavaScript number: a finite value (a decimal real here), NaN or an infinity. */
  datatype Num = Fin(value: real) | NaN | Inf(positive: bool)

  datatype JVal =
    | JUndef
    | JNull
    | JBool(b: bool)
    | JNum(n: Num)
    | JStr(s: string)
    | JArr(elems: seq<JVal>)
    | JObj(fields: map<string, JVal>)

  /** `v === null || v === undefined` */
  predicate Nullish(v: JVal) {
    v.JUndef? || v.JNull?
  }

  /** `Boolean(v)`: undefined, null, false, 0, NaN and "" are the falsy values. */
  predicate Truthy(v: JVal) {
    match v
    case JUndef => false
    case JNull => false
    case JBool(b) => b
    case JNum(n) => n != Fin(0.0) && n != NaN
    case JStr(s) => s != ""
    case JArr(_) => true
    case JObj(_) => true
  }

  /** `a ?? b` */
  function Coalesce(a: JVal, b: JVal): JVal {
    if Nullish(a) then b else a
  }

  /** `v?.key` (and `v.key` where `v` is not nullish): only objects carry the
      named fields the menu code reads, so every other value gives undefined. */
  function Get(v: JVal, key: string): JVal {
    if v.JObj? && key in v.fields then v.fields[key] else JUndef
  }

  /** `typeof v === "object" && v !== null` */
  predicate IsObject(v: JVal) {
    v.JObj? || v.JArr?
  }

  /** Up to `k` decimal digits of a fraction in [0, 1), without trailing zeros
      when the expansion terminates within `k` digits. */
  function FracDigits(f: real, k: nat): (r: string)
    requires 0.0 <= f < 1.0
    ensures AllDigits(r) && |r| <= k
    ensures k > 0 && f != 0.0 ==> |r| > 0
    decreases k
  {
    if k == 0 || f == 0.0 then ""
    else
      var d := (f * 10.0).Floor;
      [DigitChar(d)] + FracDigits(f * 10.0 - d as real, k - 1)
  }

  /** `String(n)` for a number: integers in full, other finite values as a
      decimal fraction (at most 20 fraction digits), and the special values by name. */
  function NumText(n: Num): string {
    match n
    case NaN => "NaN"
    case Inf(positive) => if positive then "Infinity" else "-Infinity"
    case Fin(r) =>
      if r == r.Floor as real then IntText(r.Floor)
      else
        var m := if r < 0.0 then -r else r;
        (if r < 0.0 then "-" else "") + NatText(m.Floor) + "." + FracDigits(m - m.Floor as real, 20)
  }

  lemma IntTextEnds(k: int)
    ensures !IsSpace(IntText(k)[0]) && !IsSpace(IntText(k)[|IntText(k)| - 1])
  {
    var d := NatText(if k < 0 then -k else k);
    assert IsDigit(d[0]) && IsDigit(d[|d| - 1]);
    assert IntText(k)[|IntText(k)| - 1] == d[|d| - 1];
  }

  lemma DecimalTextEnds(sign: string, whole: nat, digits: string)
    requires sign == "" || sign == "-"
    requires |digits| > 0 && AllDigits(digits)
    ensures var t := sign + NatText(whole) + "." + digits;
      !IsSpace(t[0]) && !IsSpace(t[|t| - 1])
  {
    var t := sign + NatText(whole) + "." + digits;
    assert t[|t| - 1] == digits[|digits| - 1];
    assert IsDigit(NatText(whole)[0]);
    assert t[0] == '-' || t[0] == NatText(whole)[0];
  }

  /** The negation of a number with a fractional part has one too. */
  lemma NegationKeepsFraction(r: real)
    requires r != r.Floor as real
    ensures -r != (-r).Floor as real
  {
    var k := (-r).Floor;
    assert (-(k as real)).Floor == -k;
  }

  lemma FractionPositive(r: real)
    requires r != r.Floor as real
    ensures var m := if r < 0.0 then -r else r; 0.0 < m - m.Floor as real < 1.0
  {
    NegationKeepsFraction(r);
  }

  /** The text of a number with a fractional part. */
  lemma NumTextOfFraction(r: real, m: real)
    requires r != r.Floor as real
    requires m == if r < 0.0 then -r else r
    ensures 0.0 <= m - m.Floor as real < 1.0
    ensures NumText(Fin(r)) == (if r < 0.0 then "-" else "") + NatText(m.Floor) + "." + FracDigits(m - m.Floor as real, 20)
  {
  }

  lemma FractionTextEnds(r: real)
    requires r != r.Floor as real
    ensures var t := NumText(Fin(r)); t != "" && !IsSpace(t[0]) && !IsSpace(t[|t| - 1])
  {
    var m := if r < 0.0 then -r else r;
    FractionPositive(r);
    NumTextOfFraction(r, m);
    var digits := FracDigits(m - m.Floor as real, 20);
    DecimalTextEnds(if r < 0.0 then "-" else "", m.Floor, digits);
  }

  /** The text of a number neither starts nor ends with white space, so
      trimming it changes nothing. */
  lemma NumTextTrimmed(n: Num)
    ensures NumText(n) != ""
    ensures !IsSpace(NumText(n)[0]) && !IsSpace(NumText(n)[|NumText(n)| - 1])
  {
    match n
    case NaN =>
      assert NumText(n) == "NaN";
    case Inf(positive) =>
      assert NumText(n) == (if positive then "Infinity" else "-Infinity");
    case Fin(r) =>
      if r == r.Floor as real {
        assert NumText(n) == IntText(r.Floor);
        IntTextEnds(r.Floor);
      } else {
        FractionTextEnds(r);
      }
  }

  /** `parts.join(",")` */
  function JoinComma(parts: seq<string>): string {
    if |parts| == 0 then ""
    else if |parts| == 1 then parts[0]
    else parts[0] + "," + JoinComma(parts[1..])
  }

  /** `String(v)` */
  function Stringify(v: JVal): string {
    match v
    case JUndef => "undefined"
    case JNull => "null"
    case JBool(b) => if b then "true" else "false"
    case JNum(n) => NumText(n)
    case JStr(s) => s
    case JArr(xs) =>
      JoinComma(seq(|xs|, i requires 0 <= i < |xs| => if Nullish(xs[i]) then "" else Stringify(xs[i])))
    case JObj(_) => "[object Object]"
  }

  /** An integer-valued number prints as its decimal text, so two numeric ids
      give the same string exactly when they are equal. */
  lemma StringifyInt(k: int)
    ensures Stringify(JNum(Fin(k as real))) == IntText(k)
  {
  }

  lemma StringifyIntInjective(a: int, b: int)
    requires Stringify(JNum(Fin(a as real))) == Stringify(JNum(Fin(b as real)))
    ensures a == b
  {
    IntTextInjective(a, b);
  }
}

=== FILE: menu_api.dfy ===
/**
  How server pages load the menu from the site's own menu endpoint: the
  address built from the request headers, the shape of the answer, and the
  lookup of one item by id.
 */
module MenuApi {
  import opened Wrappers
  import opened Text
  import opened JsValue

  /** The path of the joined-menu endpoint. */
  const MenuEndpoint := "/api/menu-with-variants"

  /** The address used when the request carries no host. */
  const LocalBaseUrl := "http://localhost:3000"

  /** The base address from the `host` and `x-forwarded-proto` headers: the
      protocol defaults to http, and a missing or empty host gives the local
      address. */
  function MenuBaseUrl(host: Option<string>, proto: Option<string>): (url: string)
    ensures host.None? || host.value == "" ==> url == LocalBaseUrl
    ensures host.Some? && host.value != "" ==> url == proto.GetOr("http") + "://" + host.value
  {
    match host
    case Some(h) => if h != "" then proto.GetOr("http") + "://" + h else LocalBaseUrl
    case None => LocalBaseUrl
  }

  /** The host is recovered from a base address built from headers: the
      address ends with it. */
  lemma MenuBaseUrlEndsWithHost(host: string, proto: Option<string>)
    requires host != ""
    ensures var url := MenuBaseUrl(Some(host), proto);
      |url| > |host| && url[|url| - |host|..] == host
  {
  }

  /** The address of the menu endpoint for the given headers: it ends with
      the endpoint path, and what comes before the path is the base address,
      which ends with the host when there is one. */
  function MenuUrl(host: Option<string>, proto: Option<string>): (url: string)
    ensures |url| > |MenuEndpoint| && url[|url| - |MenuEndpoint|..] == MenuEndpoint
    ensures url[..|url| - |MenuEndpoint|] == MenuBaseUrl(host, proto)
    ensures host.None? || host.value == "" ==> url == LocalBaseUrl + MenuEndpoint
    ensures host.Some? && host.value != "" ==>
      var base := url[..|url| - |MenuEndpoint|];
      |base| > |host.value| && base[|base| - |host.value|..] == host.value
  {
    var base := MenuBaseUrl(host, proto);
    var url := base + MenuEndpoint;
    assert url[..|url| - |MenuEndpoint|] == base;
    assert url[|url| - |MenuEndpoint|..] == MenuEndpoint;
    if host.Some? && host.value != "" then
      MenuBaseUrlEndsWithHost(host.value, proto);
      url
    else url
  }

  /** The list of items in the endpoint's answer: the answer itself when it
      is an array, its `results` when it is an object holding an array there,
      and nothing otherwise. */
  function NormalizeMenuResponse(data: JVal): (items: seq<JVal>)
    ensures data.JArr? ==> items == data.elems
    ensures data.JObj? && Get(data, "results").JArr? ==> items == Get(data, "results").elems
    ensures !data.JArr? && !(data.JObj? && Get(data, "results").JArr?) ==> items == []
  {
    match data
    case JArr(elems) => elems
    case JObj(_) =>
      (match Get(data, "results") case JArr(results) => results case _ => [])
    case _ => []
  }

  /** A list is an answer of its own, and wrapping it as `results` of an
      object gives the same list: normalising is a left inverse of both
      encodings. */
  lemma NormalizeMenuResponseRoundTrip(items: seq<JVal>, data: JVal)
    ensures NormalizeMenuResponse(JArr(items)) == items
    ensures NormalizeMenuResponse(JObj(map["results" := JArr(items)])) == items
    ensures NormalizeMenuResponse(JArr(NormalizeMenuResponse(data))) == NormalizeMenuResponse(data)
  {
  }

  /** The outcome of the request to the endpoint: a failed status, or a
      successful answer with its decoded body. */
  datatype MenuResponse = NotOk | Ok(body: JVal)

  function FetchMenuItems(response: MenuResponse): (items: seq<JVal>)
    ensures response.NotOk? ==> items == []
    ensures response.Ok? ==> items == NormalizeMenuResponse(response.body)
  {
    match response
    case NotOk => []
    case Ok(body) => NormalizeMenuResponse(body)
  }

  /** `String(item?.id)`: items compare by the text of their id. */
  function IdText(item: JVal): string {
    Stringify(Get(item, "id"))
  }

  /** The position of the first item whose id text is the target, or the
      number of items when there is none. */
  function FirstWithId(items: seq<JVal>, target: string, i: nat): (k: nat)
    requires i <= |items|
    ensures i <= k <= |items|
    ensures forall j :: i <= j < k ==> IdText(items[j]) != target
    ensures k < |items| ==> IdText(items[k]) == target
    decreases |items| - i
  {
    if i == |items| || IdText(items[i]) == target then i else FirstWithId(items, target, i + 1)
  }

  /** The first item whose id reads the same as the requested id (an absent
      id reads as the empty text), or none when no item does. The `?? null`
      after `find` also turns a first match that is itself null or undefined
      into none. */
  function FindMenuItemById(items: seq<JVal>, itemId: JVal): (r: Option<JVal>)
    ensures var target := Stringify(Coalesce(itemId, JStr("")));
      r.None? <==> (|| (forall j :: 0 <= j < |items| ==> IdText(items[j]) != target)
                    || exists k :: (0 <= k < |items| && IdText(items[k]) == target && Nullish(items[k])
                         && forall j :: 0 <= j < k ==> IdText(items[j]) != target))
    ensures var target := Stringify(Coalesce(itemId, JStr("")));
      r.Some? ==> !Nullish(r.value) && exists k :: (0 <= k < |items| && r.value == items[k] && IdText(items[k]) == target
        && forall j :: 0 <= j < k ==> IdText(items[j]) != target)
  {
    var target := Stringify(Coalesce(itemId, JStr("")));
    var k := FirstWithId(items, target, 0);
    if k < |items| && !Nullish(items[k]) then Some(items[k]) else None
  }

  /** A null entry in the list reads its id as "undefined", so it is the
      match for that id text, and the lookup then finds nothing. */
  lemma NullMatchFindsNothing(items: seq<JVal>)
    requires items == [JNull, JObj(map["id" := JStr("undefined")])]
    ensures FindMenuItemById(items, JStr("undefined")) == None
  {
    assert IdText(items[0]) == "undefined";
  }

  /** The whole lookup: a failed request finds nothing. */
  function FetchMenuItemById(response: MenuResponse, itemId: JVal): (r: Option<JVal>)
    ensures response.NotOk? ==> r.None?
    ensures r.Some? ==> r.value in FetchMenuItems(response)
  {
    FindMenuItemById(FetchMenuItems(response), itemId)
  }

  /** A numeric request finds an item whose id is the same number written as
      text: 20 finds `{id: "20"}` after an item with id 10. */
  lemma {:induction false} FindByNumericIdExample(a: nat, b: nat)
    requires a == 10 && b == 20
    ensures var items := [JObj(map["id" := JNum(Fin(a as real))]), JObj(map["id" := JStr(NatText(b))])];
      FindMenuItemById(items, JNum(Fin(b as real))) == Some(items[1])
  {
    var items := [JObj(map["id" := JNum(Fin(a as real))]), JObj(map["id" := JStr(NatText(b))])];
    StringifyInt(a);
    StringifyInt(b);
    assert IdText(items[1]) == NatText(b);
    assert IdText(items[0]) == NatText(a);
    NatTextRoundTrip(a);
    NatTextRoundTrip(b);
  }
}

=== FILE: menu_data.dfy ===
/**
  The price facts of a menu item: its own parsed price, its variants, the
  finite variant prices in variant order and their minimum.
 */
module MenuData {
  import opened JsValue
  import opened Number
  import opened Text
  import opened Wrappers

  /** The price of an item or a variant: the tolerant number parse, unchanged. */
  function ParseMenuPrice(v: JVal): (price: Num)
    ensures price.Fin? || price.NaN?
    ensures v.JNum? && v.n.Fin? ==> price == v.n
    ensures Nullish(v) ==> price == NaN
  {
    ParseNumericValue(v)
  }

  /** `item?.variants` when it is an array, otherwise no variants. */
  function MenuVariants(item: JVal): (vs: seq<JVal>)
    ensures Get(item, "variants").JArr? ==> vs == Get(item, "variants").elems
    ensures !Get(item, "variants").JArr? ==> vs == []
  {
    match Get(item, "variants")
    case JArr(elems) => elems
    case _ => []
  }

  /** The parsed price of one variant (`variant?.price`). */
  function VariantPrice(variant: JVal): Num {
    ParseMenuPrice(Get(variant, "price"))
  }

  /** The parsed prices of the variants, one per variant (`.map(parse)`). */
  function ParsedPrices(variants: seq<JVal>): (ns: seq<Num>)
    ensures |ns| == |variants|
    ensures forall i :: 0 <= i < |variants| ==> ns[i] == VariantPrice(variants[i])
  {
    seq(|variants|, i requires 0 <= i < |variants| => VariantPrice(variants[i]))
  }

  /** The finite values of a list of numbers, in order (`.filter(Number.isFinite)`). */
  function FiniteValues(ns: seq<Num>): (ps: seq<real>)
    ensures |ps| <= |ns|
  {
    if |ns| == 0 then []
    else (if ns[0].Fin? then [ns[0].value] else []) + FiniteValues(ns[1..])
  }

  /** A value is kept exactly when it is one of the finite numbers. */
  lemma {:induction false} FiniteValuesMembers(ns: seq<Num>)
    ensures forall x :: x in FiniteValues(ns) <==> Fin(x) in ns
  {
    if |ns| > 0 {
      FiniteValuesMembers(ns[1..]);
      assert forall n :: n in ns <==> n == ns[0] || n in ns[1..];
    }
  }

  /** Filtering keeps order: the finite values of a concatenation are those
      of the first part followed by those of the second. */
  lemma {:induction false} FiniteValuesAppend(a: seq<Num>, b: seq<Num>)
    ensures FiniteValues(a + b) == FiniteValues(a) + FiniteValues(b)
  {
    if |a| > 0 {
      assert (a + b)[0] == a[0];
      assert (a + b)[1..] == a[1..] + b;
      FiniteValuesAppend(a[1..], b);
    } else {
      assert a + b == b;
    }
  }

  /** The finite variant prices, in variant order. */
  function VariantPrices(variants: seq<JVal>): seq<real> {
    FiniteValues(ParsedPrices(variants))
  }

  /** A value is listed exactly when some variant's price parses to it. */
  lemma VariantPricesMembers(variants: seq<JVal>)
    ensures forall x :: x in VariantPrices(variants) <==>
      exists i :: 0 <= i < |variants| && VariantPrice(variants[i]) == Fin(x)
  {
    var ns := ParsedPrices(variants);
    FiniteValuesMembers(ns);
    forall x | Fin(x) in ns
      ensures exists i :: 0 <= i < |variants| && VariantPrice(variants[i]) == Fin(x)
    {
      var i :| 0 <= i < |ns| && ns[i] == Fin(x);
      assert VariantPrice(variants[i]) == Fin(x);
    }
  }

  /** `Math.min(...xs)` over a non-empty list: a member of the list that no
      member is below. */
  function MinOf(xs: seq<real>): (m: real)
    requires |xs| > 0
    ensures m in xs
    ensures forall x :: x in xs ==> m <= x
  {
    if |xs| == 1 then xs[0]
    else
      var m := MinOf(xs[1..]);
      assert forall x :: x in xs ==> x == xs[0] || x in xs[1..];
      if xs[0] <= m then xs[0] else m
  }

  datatype PriceInfo = PriceInfo(
    rawPrice: Num,
    variants: seq<JVal>,
    variantPrices: seq<real>,
    hasVariantPrices: bool,
    minVariantPrice: Num)

  /** The price facts of an item. The item's own price and the variant
      prices are read independently; the minimum is NaN when no variant has a
      finite price. */
  function GetPriceInfo(item: JVal): (info: PriceInfo)
    ensures info.rawPrice.Fin? || info.rawPrice.NaN?
    ensures info.variants == MenuVariants(item)
    ensures info.variantPrices == VariantPrices(MenuVariants(item))
    ensures info.hasVariantPrices <==> |info.variantPrices| > 0
    ensures !info.hasVariantPrices ==> info.minVariantPrice == NaN
    ensures info.hasVariantPrices ==>
      info.minVariantPrice.Fin? && info.minVariantPrice.value in info.variantPrices
      && forall x :: x in info.variantPrices ==> info.minVariantPrice.value <= x
  {
    var raw := ParseMenuPrice(Coalesce(Get(item, "price"), JNull));
    var variants := MenuVariants(item);
    var prices := VariantPrices(variants);
    var has := |prices| > 0;
    PriceInfo(raw, variants, prices, has, if has then Fin(MinOf(prices)) else NaN)
  }

  /** The item's own price is the parse of its `price` field, whatever its
      variants are. */
  lemma RawPriceOfField(item: JVal)
    ensures GetPriceInfo(item).rawPrice == ParseNumericValue(Get(item, "price"))
  {
  }

  /** The price a card puts into the cart: the item's own price when it is
      finite, else the finite variant minimum, else none. */
  function AddPrice(info: PriceInfo): (p: Option<real>)
    ensures p.Some? <==> info.rawPrice.Fin? || info.minVariantPrice.Fin?
    ensures info.rawPrice.Fin? ==> p == Some(info.rawPrice.value)
  {
    if info.rawPrice.Fin? then Some(info.rawPrice.value)
    else if info.minVariantPrice.Fin? then Some(info.minVariantPrice.value)
    else None
  }

  /** An item without a price of its own is sold at its cheapest variant
      price: a finite variant price that no other variant undercuts. */
  lemma AddPriceFallsBackToCheapest(item: JVal)
    requires !GetPriceInfo(item).rawPrice.Fin?
    ensures var info := GetPriceInfo(item);
      match AddPrice(info)
      case Some(p) =>
        (exists i :: 0 <= i < |info.variants| && VariantPrice(info.variants[i]) == Fin(p))
        && forall i :: 0 <= i < |info.variants| && VariantPrice(info.variants[i]).Fin? ==>
             p <= VariantPrice(info.variants[i]).value
      case None => forall i :: 0 <= i < |info.variants| ==> !VariantPrice(info.variants[i]).Fin?
  {
    var info := GetPriceInfo(item);
    VariantPricesMembers(info.variants);
    forall i | 0 <= i < |info.variants| && VariantPrice(info.variants[i]).Fin?
      ensures VariantPrice(info.variants[i]).value in info.variantPrices
    {
      assert VariantPrice(info.variants[i]) == Fin(VariantPrice(info.variants[i]).value);
    }
  }

  /** A variant whose price is the decimal text of `n` costs `n`. */
  lemma VariantPricedByText(n: nat)
    ensures VariantPrice(JObj(map["price" := JStr(NatText(n))])) == Fin(n as real)
  {
    ParseNatText(n);
  }

  /** The finite values of a two-element list of finite numbers. */
  lemma FiniteValuesPair(x: real, y: real)
    ensures FiniteValues([Fin(x), Fin(y)]) == [x, y]
  {
    assert [Fin(x), Fin(y)][1..] == [Fin(y)];
    assert [Fin(y)][1..] == [];
  }

  /** The price facts of an item with two variants. */
  lemma PriceInfoOfTwo(price: JVal, v1: JVal, v2: JVal)
    ensures var info := GetPriceInfo(JObj(map["price" := price, "variants" := JArr([v1, v2])]));
      info.rawPrice == ParseNumericValue(price)
      && info.variantPrices == FiniteValues([VariantPrice(v1), VariantPrice(v2)])
  {
    var item := JObj(map["price" := price, "variants" := JArr([v1, v2])]);
    var vs := [v1, v2];
    assert Get(item, "price") == price;
    assert MenuVariants(item) == vs;
    RawPriceOfField(item);
    var ps := ParsedPrices(vs);
    assert ps[0] == VariantPrice(v1) && ps[1] == VariantPrice(v2);
    assert ps == [VariantPrice(v1), VariantPrice(v2)];
    assert VariantPrices(vs) == FiniteValues(ps);
  }

  /** With a null item price and variants priced "120" and "100", the raw
      price is NaN and the minimum comes from the variants. */
  lemma {:induction false} PriceInfoExampleFallback(p: nat, q: nat)
    requires p == 120 && q == 100
    ensures var item := JObj(map["price" := JNull, "variants" :=
      JArr([JObj(map["price" := JStr(NatText(p))]), JObj(map["price" := JStr(NatText(q))])])]);
      var info := GetPriceInfo(item);
      info.rawPrice == NaN && info.hasVariantPrices && info.minVariantPrice == Fin(100.0)
  {
    var v1 := JObj(map["price" := JStr(NatText(p))]);
    var v2 := JObj(map["price" := JStr(NatText(q))]);
    PriceInfoOfTwo(JNull, v1, v2);
    VariantPricedByText(p);
    VariantPricedByText(q);
    FiniteValuesPair(120.0, 100.0);
    assert [120.0, 100.0][1..] == [100.0];
  }

  /** An item priced "150" with variants priced 180 and "160": the item's own
      price is kept and the minimum is 160. */
  lemma {:induction false} PriceInfoExampleBoth(p: nat, q: nat)
    requires p == 150 && q == 160
    ensures var item := JObj(map["price" := JStr(NatText(p)), "variants" :=
      JArr([JObj(map["price" := JNum(Fin(180.0))]), JObj(map["price" := JStr(NatText(q))])])]);
      var info := GetPriceInfo(item);
      info.rawPrice == Fin(150.0) && info.hasVariantPrices && info.minVariantPrice == Fin(160.0)
  {
    var v1 := JObj(map["price" := JNum(Fin(180.0))]);
    var v2 := JObj(map["price" := JStr(NatText(q))]);
    PriceInfoOfTwo(JStr(NatText(p)), v1, v2);
    ParseNatText(p);
    VariantPricedByText(q);
    FiniteValuesPair(180.0, 160.0);
    assert [180.0, 160.0][1..] == [160.0];
  }
}

=== FILE: menu_page.dfy ===
/**
  The menu page's selection logic (src/components/MenuPage/MenuPage.tsx):
  the items paired with their category label and key, the category list
  with "all" first, the category and card chosen from the `item` query
  parameter, the fallback of an unknown category, and the visible items.
 */
module MenuPage {
  import opened Wrappers
  import opened Text
  import opened JsValue
  import opened Seqs
  import opened MenuView

  const AllCategoryKey := "all"
  const AllCategoryLabel := "Все"

  /** An item with its category label and key. */
  datatype Entry = Entry(item: JVal, categoryLabel: string, categoryKey: string)

  /** Each item with its category's label (or the fallback) and that label's key. */
  function WithCategory(items: seq<JVal>, categoryFallback: string): (entries: seq<Entry>)
    ensures |entries| == |items|
    ensures forall i :: 0 <= i < |items| ==> entries[i].item == items[i]
    ensures forall i :: 0 <= i < |items| ==> NoSpace(entries[i].categoryKey)
  {
    seq(|items|, i requires 0 <= i < |items| =>
      var categoryLabel := CategoryLabel(items[i], categoryFallback);
      Entry(items[i], categoryLabel, CategoryKey(categoryLabel)))
  }

  /** The item names are texts or absent, as the item type says. */
  predicate NamesTyped(entries: seq<Entry>) {
    forall i :: 0 <= i < |entries| ==> TextOrNullish(Get(entries[i].item, "name"))
  }

  /** The entry's name label, lowercased and trimmed, is the requested key. */
  predicate Matches(e: Entry, requestedKey: string, nameFallback: string) {
    TextOrNullish(Get(e.item, "name")) && Trim(ToLower(NameLabel(e.item, nameFallback))) == requestedKey
  }

  /** `entry => Matches(entry, requestedKey, nameFallback)` */
  function NameMatcher(requestedKey: string, nameFallback: string): Entry -> bool {
    (e: Entry) => Matches(e, requestedKey, nameFallback)
  }

  /** `entry => entry.categoryKey === key` */
  function InCategory(key: string): Entry -> bool {
    (e: Entry) => e.categoryKey == key
  }

  /** The entries shown for a category key: all of them for "all", otherwise
      those with that key, in order. */
  function VisibleItems(entries: seq<Entry>, key: string): (visible: seq<Entry>)
    ensures key == AllCategoryKey ==> visible == entries
    ensures key != AllCategoryKey ==> forall e :: e in visible <==> e in entries && e.categoryKey == key
  {
    if key == AllCategoryKey then entries
    else
      FilterMembers(entries, InCategory(key));
      Filter(entries, InCategory(key))
  }

  /** Visibility keeps order: the visible entries of a concatenation are
      those of its parts, one after the other. */
  lemma VisibleItemsAppend(a: seq<Entry>, b: seq<Entry>, key: string)
    ensures VisibleItems(a + b, key) == VisibleItems(a, key) + VisibleItems(b, key)
  {
    if key != AllCategoryKey {
      FilterAppend(a, b, InCategory(key));
    }
  }

  /** The starting category, card and card to scroll to. */
  datatype Selection = Selection(categoryKey: string, index: nat, scrollIndex: Option<nat>)

  /** The starting selection: "all" and the first card when no name is
      requested or no entry has the requested name; otherwise the first such
      entry's category, and its position among that category's entries. */
  function InitialSelection(entries: seq<Entry>, requested: string, nameFallback: string): (s: Selection)
    requires NamesTyped(entries)
    ensures requested == "" ==> s == Selection(AllCategoryKey, 0, None)
    ensures requested != "" && (forall i :: 0 <= i < |entries| ==> !Matches(entries[i], ToLower(requested), nameFallback)) ==>
      s == Selection(AllCategoryKey, 0, None)
    ensures s.categoryKey == AllCategoryKey || exists u :: 0 <= u < |entries| && entries[u].categoryKey == s.categoryKey
  {
    if requested == "" then Selection(AllCategoryKey, 0, None)
    else
      var requestedKey := ToLower(requested);
      var t := FindIndex(entries, NameMatcher(requestedKey, nameFallback));
      if t == |entries| then Selection(AllCategoryKey, 0, None)
      else
        var categoryKey := entries[t].categoryKey;
        var filtered := VisibleItems(entries, categoryKey);
        var index := FindIndex(filtered, NameMatcher(requestedKey, nameFallback));
        if index == |filtered| then Selection(categoryKey, 0, None)
        else Selection(categoryKey, index, Some(index))
  }

  /** The first entry with the requested name is the one the search finds. */
  lemma FirstMatchFound(entries: seq<Entry>, requestedKey: string, nameFallback: string, t: nat)
    requires t < |entries| && Matches(entries[t], requestedKey, nameFallback)
    requires forall u :: 0 <= u < t ==> !Matches(entries[u], requestedKey, nameFallback)
    ensures FindIndex(entries, NameMatcher(requestedKey, nameFallback)) == t
  {
    var q := NameMatcher(requestedKey, nameFallback);
    assert q(entries[t]);
    assert forall u :: 0 <= u < t ==> !q(entries[u]);
    FindIndexIs(entries, q, t);
  }

  /** An entry found by a search is found again among its own category's
      visible entries. */
  lemma FoundInOwnCategory(entries: seq<Entry>, q: Entry -> bool, t: nat)
    requires t < |entries| && FindIndex(entries, q) == t
    ensures var visible := VisibleItems(entries, entries[t].categoryKey);
      FindIndex(visible, q) < |visible| && visible[FindIndex(visible, q)] == entries[t]
  {
    var key := entries[t].categoryKey;
    if key != AllCategoryKey {
      assert InCategory(key)(entries[t]);
      FindInFilter(entries, InCategory(key), q);
    }
  }

  /** When an entry has the requested name, the selection is the first such
      entry's category, the card is that entry within the category's visible
      entries (never missing: the entry is in its own category), and the
      page scrolls to it. */
  lemma InitialSelectionFound(entries: seq<Entry>, requested: string, nameFallback: string, t: nat)
    requires NamesTyped(entries) && requested != ""
    requires t < |entries| && Matches(entries[t], ToLower(requested), nameFallback)
    requires forall u :: 0 <= u < t ==> !Matches(entries[u], ToLower(requested), nameFallback)
    ensures var s := InitialSelection(entries, requested, nameFallback);
      && s.categoryKey == entries[t].categoryKey
      && s.scrollIndex == Some(s.index)
      && s.index < |VisibleItems(entries, s.categoryKey)|
      && VisibleItems(entries, s.categoryKey)[s.index] == entries[t]
  {
    var q := NameMatcher(ToLower(requested), nameFallback);
    FirstMatchFound(entries, ToLower(requested), nameFallback, t);
    FoundInOwnCategory(entries, q, t);
    InitialSelectionAt(entries, requested, nameFallback, t);
  }

  /** The selection once the first matching entry is known. */
  lemma InitialSelectionAt(entries: seq<Entry>, requested: string, nameFallback: string, t: nat)
    requires NamesTyped(entries) && requested != ""
    requires t < |entries| && FindIndex(entries, NameMatcher(ToLower(requested), nameFallback)) == t
    ensures var key := entries[t].categoryKey;
      var visible := VisibleItems(entries, key);
      var index := FindIndex(visible, NameMatcher(ToLower(requested), nameFallback));
      InitialSelection(entries, requested, nameFallback)
        == if index == |visible| then Selection(key, 0, None) else Selection(key, index, Some(index))
  {
  }

  /** An entry of the category list. */
  datatype CategoryOption = CategoryOption(key: string, title: string)

  predicate HasKey(options: seq<CategoryOption>, key: string) {
    exists i :: 0 <= i < |options| && options[i].key == key
  }

  /** One option per distinct key, walking the entries in order and skipping
      keys already listed. */
  function DistinctCategories(entries: seq<Entry>): (options: seq<CategoryOption>)
    ensures |options| <= |entries|
  {
    if entries == [] then []
    else
      var front := DistinctCategories(entries[..|entries| - 1]);
      var e := entries[|entries| - 1];
      if HasKey(front, e.categoryKey) then front else front + [CategoryOption(e.categoryKey, e.categoryLabel)]
  }

  /** The entry at `n` is the first with its key. */
  predicate FirstOfKey(entries: seq<Entry>, n: nat)
    requires n < |entries|
  {
    forall u :: 0 <= u < n ==> entries[u].categoryKey != entries[n].categoryKey
  }

  /** The reference list: the options of the entries that are the first with
      their key, in entry order. */
  function FirstOccurrences(entries: seq<Entry>, n: nat): seq<CategoryOption>
    requires n <= |entries|
  {
    if n == 0 then []
    else
      FirstOccurrences(entries, n - 1)
      + (if FirstOfKey(entries, n - 1) then [CategoryOption(entries[n - 1].categoryKey, entries[n - 1].categoryLabel)] else [])
  }

  /** The listed keys are exactly the keys some entry has. */
  lemma {:induction false} DistinctCategoriesKeys(entries: seq<Entry>, key: string)
    ensures HasKey(DistinctCategories(entries), key) <==> exists u :: 0 <= u < |entries| && entries[u].categoryKey == key
  {
    if entries != [] {
      var n := |entries|;
      var front := entries[..n - 1];
      var e := entries[n - 1];
      var f := DistinctCategories(front);
      assert entries == front + [e];
      DistinctCategoriesKeys(front, key);
      EntryKeySnoc(front, e, key);
      if !HasKey(f, e.categoryKey) {
        HasKeySnoc(f, CategoryOption(e.categoryKey, e.categoryLabel), key);
      }
    }
  }

  lemma HasKeySnoc(options: seq<CategoryOption>, o: CategoryOption, key: string)
    ensures HasKey(options + [o], key) <==> HasKey(options, key) || o.key == key
  {
    var all := options + [o];
    if HasKey(options, key) {
      var i :| 0 <= i < |options| && options[i].key == key;
      assert all[i] == options[i];
    }
    if HasKey(all, key) && o.key != key {
      var i :| 0 <= i < |all| && all[i].key == key;
      assert i < |options| && all[i] == options[i];
    }
    assert all[|options|] == o;
  }

  lemma EntryKeySnoc(front: seq<Entry>, e: Entry, key: string)
    ensures (exists u :: 0 <= u < |front + [e]| && (front + [e])[u].categoryKey == key)
      <==> (exists u :: 0 <= u < |front| && front[u].categoryKey == key) || e.categoryKey == key
  {
    var all := front + [e];
    if exists u :: 0 <= u < |front| && front[u].categoryKey == key {
      var u :| 0 <= u < |front| && front[u].categoryKey == key;
      assert all[u] == front[u];
    }
    if exists u :: 0 <= u < |all| && all[u].categoryKey == key {
      var u :| 0 <= u < |all| && all[u].categoryKey == key;
      if u < |front| {
        assert front[u] == all[u];
      }
    }
    assert all[|front|] == e;
  }

  /** The category list is the reference list: the first entry of every key,
      in entry order, carrying that entry's label. */
  lemma {:induction false} DistinctCategoriesFirst(entries: seq<Entry>, n: nat)
    requires n <= |entries|
    ensures DistinctCategories(entries[..n]) == FirstOccurrences(entries, n)
  {
    if n > 0 {
      var prefix := entries[..n];
      var pre := entries[..n - 1];
      PrefixStep(entries, n);
      DistinctCategoriesFirst(entries, n - 1);
      var e := entries[n - 1];
      var f := DistinctCategories(pre);
      assert DistinctCategories(prefix)
        == if HasKey(f, e.categoryKey) then f else f + [CategoryOption(e.categoryKey, e.categoryLabel)];
      DistinctCategoriesKeys(pre, e.categoryKey);
      if !FirstOfKey(entries, n - 1) {
        var u :| 0 <= u < n - 1 && entries[u].categoryKey == e.categoryKey;
        assert pre[u] == entries[u];
        assert HasKey(f, e.categoryKey);
      } else {
        forall u | 0 <= u < |pre| ensures pre[u].categoryKey != e.categoryKey {
          assert pre[u] == entries[u];
        }
        assert !HasKey(f, e.categoryKey);
      }
    }
  }

  predicate KeysUnique(options: seq<CategoryOption>) {
    forall i, j :: 0 <= i < j < |options| ==> options[i].key != options[j].key
  }

  /** No key is listed twice. */
  lemma {:induction false} DistinctCategoriesUnique(entries: seq<Entry>)
    ensures KeysUnique(DistinctCategories(entries))
  {
    if entries != [] {
      var front := entries[..|entries| - 1];
      DistinctCategoriesUnique(front);
      var f := DistinctCategories(front);
      var r := DistinctCategories(entries);
      var e := entries[|entries| - 1];
      if HasKey(f, e.categoryKey) {
        assert r == f;
        assert KeysUnique(f);
      } else {
        assert r == f + [CategoryOption(e.categoryKey, e.categoryLabel)];
        forall i, j | 0 <= i < j < |r| ensures r[i].key != r[j].key {
          if j == |r| - 1 {
            assert r[i] == f[i] && r[j].key == e.categoryKey;
            assert f[i].key != e.categoryKey;
          } else {
            assert r[i] == f[i] && r[j] == f[j];
          }
        }
        assert KeysUnique(r);
      }
    }
  }

  /** The page's category list: "all" first, then one option per key. */
  function Categories(entries: seq<Entry>): (options: seq<CategoryOption>)
    ensures |options| > 0 && options[0] == CategoryOption(AllCategoryKey, AllCategoryLabel)
    ensures options[1..] == DistinctCategories(entries)
  {
    [CategoryOption(AllCategoryKey, AllCategoryLabel)] + DistinctCategories(entries)
  }

  /** The active key when the list has it, else "all". */
  function ResolvedCategoryKey(options: seq<CategoryOption>, active: string): (key: string)
    ensures HasKey(options, active) ==> key == active
    ensures !HasKey(options, active) ==> key == AllCategoryKey
  {
    if HasKey(options, active) then active else AllCategoryKey
  }

  /** The resolved key is always one the category list offers, and it is
      "all" or the key of some entry. */
  lemma ResolvedKeyListed(entries: seq<Entry>, active: string)
    ensures HasKey(Categories(entries), ResolvedCategoryKey(Categories(entries), active))
    ensures var key := ResolvedCategoryKey(Categories(entries), active);
      key == AllCategoryKey || exists u :: 0 <= u < |entries| && entries[u].categoryKey == key
  {
    var options := Categories(entries);
    assert options[0].key == AllCategoryKey;
    var key := ResolvedCategoryKey(options, active);
    if key != AllCategoryKey {
      var i :| 0 <= i < |options| && options[i].key == key;
      assert options[1..][i - 1] == options[i];
      DistinctCategoriesKeys(entries, key);
    }
  }

  /** A key some entry has, or "all", is listed, so it resolves to itself. */
  lemma EntryKeyResolves(entries: seq<Entry>, key: string)
    requires key == AllCategoryKey || exists u :: 0 <= u < |entries| && entries[u].categoryKey == key
    ensures ResolvedCategoryKey(Categories(entries), key) == key
  {
    var options := Categories(entries);
    if key == AllCategoryKey {
      assert options[0].key == key;
    } else {
      DistinctCategoriesKeys(entries, key);
      var i :| 0 <= i < |options[1..]| && options[1..][i].key == key;
      assert options[i + 1].key == key;
    }
  }

  /** The starting category is kept: it is listed, so it resolves to itself. */
  lemma InitialSelectionResolves(entries: seq<Entry>, requested: string, nameFallback: string)
    requires NamesTyped(entries)
    ensures var s := InitialSelection(entries, requested, nameFallback);
      ResolvedCategoryKey(Categories(entries), s.categoryKey) == s.categoryKey
  {
    EntryKeyResolves(entries, InitialSelection(entries, requested, nameFallback).categoryKey);
  }
}

=== FILE: menu_view.dfy ===
/**
  What a menu card shows: the name and category labels, the category key
  used in addresses and filters, the list and detail price labels and the
  background video chosen by name.
 */
module MenuView {
  import opened Wrappers
  import opened Text
  import opened JsValue
  import opened MenuData

  /** The fields typed `string | null | undefined` on a menu item. */
  predicate TextOrNullish(v: JVal) {
    v.JStr? || Nullish(v)
  }

  /** `s || fallback` for a string `s`. */
  function OrElse(s: string, fallback: string): (r: string)
    ensures s != "" ==> r == s
    ensures s == "" ==> r == fallback
  {
    if s != "" then s else fallback
  }

  /** The trimmed name, or the fallback when the name is absent or blank. */
  function NameLabel(item: JVal, fallback: string): (r: string)
    requires TextOrNullish(Get(item, "name"))
    ensures Get(item, "name").JStr? && Trim(Get(item, "name").s) != "" ==> r == Trim(Get(item, "name").s)
    ensures Nullish(Get(item, "name")) || Trim(Get(item, "name").s) == "" ==> r == fallback
  {
    match Get(item, "name")
    case JStr(name) => OrElse(Trim(name), fallback)
    case _ => fallback
  }

  /** With a trimmed, non-blank fallback every name label is trimmed and non-blank. */
  lemma NameLabelTrimmed(item: JVal, fallback: string)
    requires TextOrNullish(Get(item, "name"))
    requires fallback != "" && Trim(fallback) == fallback
    ensures NameLabel(item, fallback) != ""
    ensures Trim(NameLabel(item, fallback)) == NameLabel(item, fallback)
  {
    var r := NameLabel(item, fallback);
    if r != fallback {
      TrimIdempotent(Get(item, "name").s);
    }
  }

  /** `item.category.value` when the category is an object whose value is
      not nullish; every other category (null, a scalar, an array) has none. */
  function CategoryValue(item: JVal): (v: Option<JVal>)
    ensures v.Some? <==> Get(item, "category").JObj? && !Nullish(Get(Get(item, "category"), "value"))
    ensures v.Some? ==> v.value == Get(Get(item, "category"), "value")
  {
    var c := Get(item, "category");
    if c.JObj? && "value" in c.fields && !Nullish(c.fields["value"]) then Some(c.fields["value"]) else None
  }

  /** The trimmed text of the category value, or the fallback when there is
      no value or it is blank. */
  function CategoryLabel(item: JVal, fallback: string): (r: string)
    ensures CategoryValue(item).None? ==> r == fallback
    ensures CategoryValue(item).Some? && Trim(Stringify(CategoryValue(item).value)) != "" ==>
      r == Trim(Stringify(CategoryValue(item).value))
    ensures CategoryValue(item).Some? && Trim(Stringify(CategoryValue(item).value)) == "" ==> r == fallback
  {
    var raw := match CategoryValue(item) case Some(v) => Stringify(v) case None => "";
    OrElse(Trim(raw), fallback)
  }

  /** With a trimmed fallback every category label is trimmed. */
  lemma CategoryLabelTrimmed(item: JVal, fallback: string)
    requires Trim(fallback) == fallback
    ensures Trim(CategoryLabel(item, fallback)) == CategoryLabel(item, fallback)
  {
    if CategoryValue(item).Some? {
      TrimIdempotent(Stringify(CategoryValue(item).value));
    }
  }

  /** `s.replace(/\s+/g, "-")`: every maximal run of white space becomes a
      single dash (the dash is written at the last space of the run). */
  function DashRuns(s: string): (r: string)
    ensures NoSpace(r)
    ensures |r| <= |s|
    ensures r == [] <==> s == []
  {
    if s == [] then []
    else if IsSpace(s[0]) then
      if |s| > 1 && IsSpace(s[1]) then DashRuns(s[1..]) else "-" + DashRuns(s[1..])
    else [s[0]] + DashRuns(s[1..])
  }

  /** A text without white space is left alone. */
  lemma {:induction false} DashRunsNoSpace(s: string)
    requires NoSpace(s)
    ensures DashRuns(s) == s
  {
    if s != [] {
      DashRunsNoSpace(s[1..]);
    }
  }

  /** A run of white space between a word and the rest becomes one dash. */
  lemma {:induction false} DashRunsRun(sp: string, rest: string)
    requires |sp| > 0 && forall i :: 0 <= i < |sp| ==> IsSpace(sp[i])
    requires rest == [] || !IsSpace(rest[0])
    ensures DashRuns(sp + rest) == "-" + DashRuns(rest)
  {
    assert (sp + rest)[0] == sp[0];
    assert (sp + rest)[1..] == sp[1..] + rest;
    if |sp| > 1 {
      assert (sp + rest)[1] == sp[1];
      DashRunsRun(sp[1..], rest);
    } else {
      assert sp + rest == [sp[0]] + rest;
    }
  }

  /** A character that is not white space is kept as it is. */
  lemma DashRunsKeeps(c: char, tail: string)
    requires !IsSpace(c)
    ensures DashRuns([c] + tail) == [c] + DashRuns(tail)
  {
    assert ([c] + tail)[1..] == tail;
  }

  /** Words separated by runs of white space are joined by single dashes. */
  lemma {:induction false} DashRunsWords(w: string, sp: string, rest: string)
    requires NoSpace(w)
    requires |sp| > 0 && forall i :: 0 <= i < |sp| ==> IsSpace(sp[i])
    requires rest == [] || !IsSpace(rest[0])
    ensures DashRuns(w + sp + rest) == w + "-" + DashRuns(rest)
  {
    if w == [] {
      assert w + sp + rest == sp + rest;
      DashRunsRun(sp, rest);
    } else {
      var tail := w[1..] + sp + rest;
      assert w + sp + rest == [w[0]] + tail;
      DashRunsKeeps(w[0], tail);
      assert NoSpace(w[1..]);
      DashRunsWords(w[1..], sp, rest);
      var d := DashRuns(rest);
      assert [w[0]] + (w[1..] + "-" + d) == w + "-" + d;
    }
  }

  /** A text every character of which is its own lower case. */
  predicate IsLower(s: string) {
    forall i :: 0 <= i < |s| ==> LowerChar(s[i]) == s[i]
  }

  lemma ToLowerIsLower(s: string)
    ensures IsLower(ToLower(s))
  {
    forall i | 0 <= i < |s| {
      LowerCharFacts(s[i]);
    }
  }

  lemma ToLowerOfLower(s: string)
    requires IsLower(s)
    ensures ToLower(s) == s
  {
  }

  lemma {:induction false} DashRunsLower(s: string)
    requires IsLower(s)
    ensures IsLower(DashRuns(s))
  {
    if s != [] {
      DashRunsLower(s[1..]);
    }
  }

  /** The category key of a label: trimmed, lower-cased, white-space runs as
      dashes. */
  function CategoryKey(categoryLabel: string): (k: string)
    ensures NoSpace(k)
  {
    DashRuns(ToLower(Trim(categoryLabel)))
  }

  /** A key is its own key. */
  lemma CategoryKeyIdempotent(categoryLabel: string)
    ensures CategoryKey(CategoryKey(categoryLabel)) == CategoryKey(categoryLabel)
  {
    var k := CategoryKey(categoryLabel);
    if k != [] {
      TrimKeeps(k);
    }
    ToLowerIsLower(Trim(categoryLabel));
    DashRunsLower(ToLower(Trim(categoryLabel)));
    ToLowerOfLower(k);
    DashRunsNoSpace(k);
  }

  /** Only a blank label has the empty key. */
  lemma CategoryKeyEmptyIffBlank(categoryLabel: string)
    ensures CategoryKey(categoryLabel) == "" <==> forall i :: 0 <= i < |categoryLabel| ==> IsSpace(categoryLabel[i])
  {
    TrimEmptyIffBlank(categoryLabel);
  }

  /** The list price label: the item's own price, else "from" the cheapest
      variant price, else the fallback text. */
  function ListPriceLabel(item: JVal, fromPrefix: string, fallback: string, format: real -> string): (shown: string)
    ensures var info := GetPriceInfo(item);
      && (info.rawPrice.Fin? ==> shown == format(AddPrice(info).value))
      && (!info.rawPrice.Fin? && AddPrice(info).Some? ==> shown == fromPrefix + " " + format(AddPrice(info).value))
      && (AddPrice(info).None? ==> shown == fallback)
  {
    var info := GetPriceInfo(item);
    if info.rawPrice.Fin? then format(info.rawPrice.value)
    else if info.hasVariantPrices then fromPrefix + " " + format(info.minVariantPrice.value)
    else fallback
  }

  /** The list label shows exactly the price a card adds to the cart: as is
      when it is the item's own price, after the "from" prefix when it is the
      cheapest variant, and the fallback when there is none. */
  lemma ListPriceLabelShowsAddPrice(item: JVal, fromPrefix: string, fallback: string, format: real -> string)
    ensures var info := GetPriceInfo(item);
      var shown := ListPriceLabel(item, fromPrefix, fallback, format);
      match AddPrice(info)
      case Some(p) =>
        shown == (if info.rawPrice.Fin? then format(p) else fromPrefix + " " + format(p))
      case None => shown == fallback
  {
  }

  datatype DetailPrice = DetailPrice(priceInfo: PriceInfo, priceLabel: string, priceTitle: string)

  /** The detail price: the same price choice as the list, with the plain
      price title or, for a variant minimum, the "from" title. */
  function DetailPriceInfo(item: JVal, priceTitle: string, fromTitle: string, fallback: string,
                           format: real -> string): (d: DetailPrice)
    ensures d.priceInfo == GetPriceInfo(item)
    ensures AddPrice(d.priceInfo).Some? ==> d.priceLabel == format(AddPrice(d.priceInfo).value)
    ensures AddPrice(d.priceInfo).None? ==> d.priceLabel == fallback
    ensures d.priceTitle == (if AddPrice(d.priceInfo).Some? && !d.priceInfo.rawPrice.Fin? then fromTitle else priceTitle)
  {
    var info := GetPriceInfo(item);
    var hasBase := info.rawPrice.Fin?;
    var shown :=
      if hasBase then format(info.rawPrice.value)
      else if info.hasVariantPrices then format(info.minVariantPrice.value)
      else fallback;
    var title :=
      if hasBase then priceTitle
      else if info.hasVariantPrices then fromTitle
      else priceTitle;
    DetailPrice(info, shown, title)
  }

  /** The detail dialog shows the list's price: the same text when it is the
      item's own price or the fallback, and the list puts the "from" prefix
      in front of it when it is a variant minimum, exactly when the dialog
      uses the "from" title. */
  lemma DetailPriceShowsAddPrice(item: JVal, priceTitle: string, fromTitle: string, fallback: string,
                                 fromPrefix: string, format: real -> string)
    ensures var d := DetailPriceInfo(item, priceTitle, fromTitle, fallback, format);
      var list := ListPriceLabel(item, fromPrefix, fallback, format);
      && (d.priceInfo.rawPrice.Fin? || AddPrice(d.priceInfo).None? ==> list == d.priceLabel)
      && (!d.priceInfo.rawPrice.Fin? && AddPrice(d.priceInfo).Some? ==>
            list == fromPrefix + " " + d.priceLabel && d.priceTitle == fromTitle)
  {
  }

  /** The names that bring a background video, in the order they are tried. */
  const VideoTable: seq<(string, string)> := [
    ("эспрессо", "/espresso.mp4"),
    ("капучино", "/cappuchino.mp4"),
    ("латте", "/latte.mp4")
  ]

  /** The position of the first entry whose key occurs in the name, or the
      table's length when none does. */
  function FirstKeyIn(name: string, table: seq<(string, string)>, i: nat): (k: nat)
    requires i <= |table|
    ensures i <= k <= |table|
    ensures forall j :: i <= j < k ==> !Contains(name, table[j].0)
    ensures k < |table| ==> Contains(name, table[k].0)
    decreases |table| - i
  {
    if i == |table| || Contains(name, table[i].0) then i else FirstKeyIn(name, table, i + 1)
  }

  /** The value of the first entry whose key occurs in the name, if any. */
  function FirstValueIn(name: string, table: seq<(string, string)>): (r: Option<string>)
    ensures r.None? <==> forall j :: 0 <= j < |table| ==> !Contains(name, table[j].0)
    ensures r.Some? ==> exists k :: (0 <= k < |table| && r.value == table[k].1
      && Contains(name, table[k].0)
      && forall j :: 0 <= j < k ==> !Contains(name, table[j].0))
  {
    var k := FirstKeyIn(name, table, 0);
    if k < |table| then Some(table[k].1) else None
  }

  /** The video of the first table entry whose key occurs in the trimmed,
      lower-cased name; none when no key occurs. */
  function VideoSrc(nameLabel: string): (r: Option<string>)
    ensures var lower := ToLower(Trim(nameLabel));
      r.None? <==> forall j :: 0 <= j < |VideoTable| ==> !Contains(lower, VideoTable[j].0)
    ensures var lower := ToLower(Trim(nameLabel));
      r.Some? ==> exists k :: (0 <= k < |VideoTable| && r.value == VideoTable[k].1
        && Contains(lower, VideoTable[k].0)
        && forall j :: 0 <= j < k ==> !Contains(lower, VideoTable[j].0))
  {
    FirstValueIn(ToLower(Trim(nameLabel)), VideoTable)
  }
}

=== FILE: number.dfy ===
/**
  Tolerant numeric reading of prices and volumes (src/lib/number.ts), together
  with the two JavaScript conversions it rests on: `Number.parseFloat`, which
  reads the longest numeric prefix, and `Number(x)`, which needs the whole text
  to be numeric. Literals are decimal: an optional sign, digits and an optional
  fraction, or `Infinity`.
 */
module Number {
  import opened Text
  import opened JsValue

  /** The outcome of scanning a numeric literal at the start of a text. */
  datatype Scan = NoNumber | Scanned(value: Num, end: nat)

  /** The end of the run of digits starting at `i`. */
  function DigitSpan(s: string, i: nat): (j: nat)
    requires i <= |s|
    ensures i <= j <= |s|
    ensures forall k :: i <= k < j ==> IsDigit(s[k])
    ensures j == |s| || !IsDigit(s[j])
    ensures AllDigits(s[i..j])
    decreases |s| - i
  {
    if i < |s| && IsDigit(s[i]) then
      var j := DigitSpan(s, i + 1);
      assert s[i..j] == [s[i]] + s[i + 1..j];
      j
    else i
  }

  /** The value of `whole.frac` written in decimal. */
  function DecimalValue(whole: string, frac: string): real
    requires AllDigits(whole) && AllDigits(frac)
  {
    DigitsValue(whole) as real + DigitsValue(frac) as real / Pow10(|frac|) as real
  }

  function Signed(negative: bool, r: real): real {
    if negative then -r else r
  }

  /** The longest prefix of `s` of the form `[+-]? (D+ (. D*)? | . D+)` or
      `[+-]? Infinity`, with the number it denotes and where it ends. */
  function ScanDecimal(s: string): (r: Scan)
    ensures r.Scanned? ==> 0 < r.end <= |s|
  {
    var negative := |s| > 0 && s[0] == '-';
    var i := if |s| > 0 && (s[0] == '+' || s[0] == '-') then 1 else 0;
    if |s| - i >= 8 && s[i..i + 8] == "Infinity" then
      Scanned(Inf(!negative), i + 8)
    else
      var j := DigitSpan(s, i);
      if j < |s| && s[j] == '.' then
        var k := DigitSpan(s, j + 1);
        if j == i && k == j + 1 then NoNumber
        else Scanned(Fin(Signed(negative, DecimalValue(s[i..j], s[j + 1..k]))), k)
      else if j == i then NoNumber
      else Scanned(Fin(Signed(negative, DigitsValue(s[i..j]) as real)), j)
  }

  /** `Number.parseFloat(s)`: leading white space is skipped, the longest
      numeric prefix is read, and a text with none gives NaN. */
  function ParseFloat(s: string): (r: Num)
    ensures TrimStart(s) == "" ==> r == NaN
    ensures var t := TrimStart(s); |t| > 0 && AllDigits(t) ==> r == Fin(DigitsValue(t) as real)
    ensures var t := TrimStart(s); |t| > 0 && !IsDigit(t[0]) && t[0] !in "+-.I" ==> r == NaN
  {
    var t := TrimStart(s);
    ScanCases(t);
    match ScanDecimal(t)
    case NoNumber => NaN
    case Scanned(v, _) => v
  }

  /** `Number(s)` for a string: blank text is 0, otherwise the whole trimmed
      text must be one numeric literal. */
  function StringToNumber(s: string): (r: Num)
    ensures Trim(s) == "" ==> r == Fin(0.0)
    ensures var t := Trim(s); |t| > 0 && AllDigits(t) ==> r == Fin(DigitsValue(t) as real)
    ensures var t := Trim(s); |t| > 0 && !IsDigit(t[0]) && t[0] !in "+-.I" ==> r == NaN
  {
    var t := Trim(s);
    ScanCases(t);
    if t == "" then Fin(0.0)
    else
      match ScanDecimal(t)
      case NoNumber => NaN
      case Scanned(v, end) => if end == |t| then v else NaN
  }

  /** `Number(v)` */
  function ToNumber(v: JVal): (r: Num)
    ensures v.JNum? ==> r == v.n
    ensures v.JUndef? || v.JObj? ==> r == NaN
    ensures v.JNull? || v == JArr([]) ==> r == Fin(0.0)
    ensures v.JStr? && |Trim(v.s)| > 0 && AllDigits(Trim(v.s)) ==> r == Fin(DigitsValue(Trim(v.s)) as real)
  {
    match v
    case JUndef => NaN
    case JNull => Fin(0.0)
    case JBool(b) => Fin(if b then 1.0 else 0.0)
    case JNum(n) => n
    case JStr(s) => StringToNumber(s)
    case JArr(_) => StringToNumber(Stringify(v))
    case JObj(_) => NaN
  }

  /** The reading of a text: trimmed, blank gives NaN, otherwise the first
      comma becomes a point and the float prefix is read, keeping only finite values. */
  function ParseText(s: string): (r: Num)
    ensures r.Fin? || r.NaN?
    ensures (forall i :: 0 <= i < |s| ==> IsSpace(s[i])) ==> r == NaN
  {
    var text := Trim(s);
    TrimEmptyIffBlank(s);
    if text == "" then NaN
    else
      var parsed := ParseFloat(ReplaceFirst(text, ',', '.'));
      if parsed.Fin? then parsed else NaN
  }

  /** `parseNumericValue` (src/lib/number.ts): a number is kept when finite;
      anything else is read through `String(value ?? "")`, trimmed, its first
      comma turned into a point, and parsed as a float; every outcome that is
      not finite becomes NaN. */
  function ParseNumericValue(v: JVal): (r: Num)
    ensures r.Fin? || r.NaN?
    ensures v.JNum? && v.n.Fin? ==> r == v.n
    ensures v.JNum? && !v.n.Fin? ==> r == NaN
    ensures Nullish(v) ==> r == NaN
    ensures v.JStr? && (forall i :: 0 <= i < |v.s| ==> IsSpace(v.s[i])) ==> r == NaN
  {
    if v.JNum? then
      if v.n.Fin? then v.n else NaN
    else
      ParseText(Stringify(Coalesce(v, JStr(""))))
  }

  /** Whether a parsed value is a finite number: `Number.isFinite`. */
  predicate IsFinite(n: Num) {
    n.Fin?
  }

  /** A digit string followed by text that does not continue a literal is
      scanned up to the end of the digits. */
  lemma {:induction false} ScanDigitsThenStop(d: string, rest: string)
    requires |d| > 0 && AllDigits(d)
    requires rest == [] || (!IsDigit(rest[0]) && rest[0] != '.')
    ensures ScanDecimal(d + rest) == Scanned(Fin(DigitsValue(d) as real), |d|)
  {
    var s := d + rest;
    assert s[0] == d[0];
    assert |s| < 8 || s[0..8] != "Infinity" by {
      assert IsDigit(s[0]);
      assert |s| < 8 || s[0..8][0] == s[0];
    }
    DigitSpanOver(s, 0, |d|);
    assert s[0..|d|] == d;
  }

  /** A digit, then digits up to `j`, a point, and digits up to `k`: the
      scan reads a decimal fraction ending at `k`. */
  lemma ScanDecimalFraction(s: string, j: nat, k: nat)
    requires 0 < j < |s| && IsDigit(s[0]) && s[j] == '.'
    requires DigitSpan(s, 0) == j && DigitSpan(s, j + 1) == k
    ensures ScanDecimal(s) == Scanned(Fin(DecimalValue(s[0..j], s[j + 1..k])), k)
  {
    assert |s| < 8 || s[0..8] != "Infinity" by {
      assert |s| < 8 || s[0..8][0] == s[0];
    }
  }

  /** A digit string, a point, digits, and then text that does not continue a
      literal is scanned as the decimal fraction. */
  lemma ScanDecimalThenStop(d: string, f: string, rest: string)
    requires |d| > 0 && AllDigits(d) && AllDigits(f)
    requires rest == [] || !IsDigit(rest[0])
    ensures ScanDecimal(d + "." + f + rest) == Scanned(Fin(DecimalValue(d, f)), |d| + 1 + |f|)
  {
    var s := d + "." + f + rest;
    var j, k := |d|, |d| + 1 + |f|;
    assert s[0..j] == d;
    assert s[j] == '.';
    assert s[j + 1..k] == f;
    assert k == |s| || s[k] == rest[0];
    DigitSpanOver(s, 0, j);
    DigitSpanOver(s, j + 1, k);
    ScanDecimalFraction(s, j, k);
  }

  /** The digit span of a run of digits that ends at `j` is `j`. */
  lemma DigitSpanOver(s: string, i: nat, j: nat)
    requires i <= j <= |s|
    requires forall k :: i <= k < j ==> IsDigit(s[k])
    requires j == |s| || !IsDigit(s[j])
    ensures DigitSpan(s, i) == j
    decreases j - i
  {
    if i < j {
      DigitSpanOver(s, i + 1, j);
    }
  }

  /** How a trimmed, non-blank text with a finite float reading is parsed. */
  lemma ParseTextFinite(s: string, t: string, v: real)
    requires s != "" && Trim(s) == s
    requires ReplaceFirst(s, ',', '.') == t && TrimStart(t) == t
    requires ScanDecimal(t).Scanned? && ScanDecimal(t).value == Fin(v)
    ensures ParseNumericValue(JStr(s)) == Fin(v)
  {
    assert ParseFloat(t) == Fin(v);
    assert ParseNumericValue(JStr(s)) == ParseText(s);
  }

  /** The decimal text of a natural number is trimmed. */
  lemma NatTextTrimmed(n: nat)
    ensures Trim(NatText(n)) == NatText(n) && TrimStart(NatText(n)) == NatText(n)
  {
    TrimKeeps(NatText(n));
  }

  /** The decimal text of a natural number has no comma to replace. */
  lemma NatTextNoComma(n: nat)
    ensures ReplaceFirst(NatText(n), ',', '.') == NatText(n)
  {
    var s := NatText(n);
    assert forall i :: 0 <= i < |s| ==> s[i] != ',';
    ReplaceFirstAbsent(s, ',', '.');
  }

  /** The decimal text of a natural number scans as that number, whole. */
  lemma NatTextScan(n: nat)
    ensures ScanDecimal(NatText(n)) == Scanned(Fin(n as real), |NatText(n)|)
  {
    var s := NatText(n);
    ScanDigitsThenStop(s, []);
    assert s + [] == s;
    NatTextRoundTrip(n);
  }

  /** Round trip: the decimal text of a natural number parses back to it. */
  lemma ParseNatText(n: nat)
    ensures ParseNumericValue(JStr(NatText(n))) == Fin(n as real)
  {
    NatTextTrimmed(n);
    NatTextNoComma(n);
    NatTextScan(n);
    ParseTextFinite(NatText(n), NatText(n), n as real);
  }

  /** A decimal comma is read as a decimal point: `"120,50"` is 120.5. */
  lemma {:induction false} ParseDecimalComma(n: nat, f: string)
    requires |f| > 0 && AllDigits(f)
    ensures ParseNumericValue(JStr(NatText(n) + "," + f)) == Fin(DecimalValue(NatText(n), f))
  {
    ParseCommaThenRest(n, f, []);
    assert NatText(n) + "," + f + [] == NatText(n) + "," + f;
  }

  /** The decimal `n.f` is `n` plus the fraction `f` over its power of ten. */
  lemma DecimalValueOfNat(n: nat, f: string)
    requires AllDigits(f)
    ensures DecimalValue(NatText(n), f) == n as real + DigitsValue(f) as real / Pow10(|f|) as real
  {
    NatTextRoundTrip(n);
  }

  /** The text `d,f rest` is already trimmed when it ends in a non-space. */
  lemma CommaTextTrimmed(d: string, f: string, rest: string)
    requires |d| > 0 && AllDigits(d) && |f| > 0
    requires rest == [] || !IsSpace(rest[|rest| - 1])
    requires !IsSpace(f[|f| - 1])
    ensures Trim(d + "," + f + rest) == d + "," + f + rest
  {
    var s := d + "," + f + rest;
    assert s[0] == d[0];
    if rest == [] {
      assert s[|s| - 1] == f[|f| - 1];
    } else {
      assert s[|s| - 1] == rest[|rest| - 1];
    }
    TrimKeeps(s);
  }

  /** In `d,f rest` the comma after the digits is the first one. */
  lemma CommaTextReplaced(d: string, f: string, rest: string)
    requires AllDigits(d)
    ensures ReplaceFirst(d + "," + f + rest, ',', '.') == d + "." + f + rest
  {
    var fr := f + rest;
    assert d + "," + f + rest == d + ([','] + fr);
    assert forall i :: 0 <= i < |d| ==> d[i] != ',';
    ReplaceFirstSkip(d, [','] + fr, ',', '.');
    ReplaceFirstHead(',', fr, '.');
    assert d + "." + f + rest == d + (['.'] + fr);
  }

  /** The text `n.f rest` is not indented. */
  lemma PointTextUnindented(n: nat, f: string, rest: string)
    ensures var t := NatText(n) + "." + f + rest; TrimStart(t) == t
  {
    var d := NatText(n);
    var t := d + "." + f + rest;
    assert t[0] == d[0];
  }

  /** The text `n.f rest` scans as `n.f`. */
  lemma PointTextScan(n: nat, f: string, rest: string)
    requires AllDigits(f)
    requires rest == [] || !IsDigit(rest[0])
    ensures ScanDecimal(NatText(n) + "." + f + rest) == Scanned(Fin(DecimalValue(NatText(n), f)), |NatText(n)| + 1 + |f|)
  {
    ScanDecimalThenStop(NatText(n), f, rest);
  }

  /** Only the first comma is a decimal separator: the text after the
      fraction's digits is ignored, so `"1,2,3"` is 1.2. */
  lemma ParseCommaThenRest(n: nat, f: string, rest: string)
    requires |f| > 0 && AllDigits(f)
    requires rest == [] || (!IsDigit(rest[0]) && rest[0] !in "eE" && !IsSpace(rest[|rest| - 1]))
    ensures ParseNumericValue(JStr(NatText(n) + "," + f + rest)) == Fin(DecimalValue(NatText(n), f))
  {
    CommaTextTrimmed(NatText(n), f, rest);
    CommaTextReplaced(NatText(n), f, rest);
    PointTextUnindented(n, f, rest);
    PointTextScan(n, f, rest);
    ParseTextFinite(NatText(n) + "," + f + rest, NatText(n) + "." + f + rest, DecimalValue(NatText(n), f));
  }

  /** The longest numeric prefix is read: `"150 руб"` is 150. */
  lemma {:induction false} ParseNumericPrefix(n: nat, rest: string)
    requires |rest| > 0 && !IsSpace(rest[|rest| - 1])
    requires !IsDigit(rest[0]) && rest[0] !in ".,eE"
    ensures ParseNumericValue(JStr(NatText(n) + rest)) == Fin(n as real)
  {
    var d := NatText(n);
    var s := d + rest;
    assert s[0] == d[0];
    assert s[|s| - 1] == rest[|rest| - 1];
    TrimKeeps(s);
    assert forall i :: 0 <= i < |d| ==> d[i] != ',';
    ReplaceFirstSkip(d, rest, ',', '.');
    var q := ReplaceFirst(rest, ',', '.');
    assert q[0] == rest[0];
    var t := d + q;
    assert TrimStart(t) == t by {
      assert t[0] == d[0];
    }
    ScanDigitsThenStop(d, q);
    NatTextRoundTrip(n);
    ParseTextFinite(s, t, n as real);
  }

  /** A text whose first character cannot open a literal scans to nothing. */
  lemma ScanNoNumber(t: string)
    requires |t| > 0 && !IsDigit(t[0]) && t[0] !in "+-.I"
    ensures ScanDecimal(t) == NoNumber
  {
    assert |t| < 8 || t[0..8][0] == t[0];
    DigitSpanOver(t, 0, 0);
  }

  /** How a text scans when it is empty, all digits, or opens with a
      character no literal starts with. */
  lemma ScanCases(t: string)
    ensures t == [] ==> ScanDecimal(t) == NoNumber
    ensures |t| > 0 && AllDigits(t) ==> ScanDecimal(t) == Scanned(Fin(DigitsValue(t) as real), |t|)
    ensures |t| > 0 && !IsDigit(t[0]) && t[0] !in "+-.I" ==> ScanDecimal(t) == NoNumber
  {
    if |t| > 0 && AllDigits(t) {
      ScanDigitsThenStop(t, []);
      assert t + [] == t;
    }
    if |t| > 0 && !IsDigit(t[0]) && t[0] !in "+-.I" {
      ScanNoNumber(t);
    }
  }

  /** `Number.parseFloat` reads the digits in front of a suffix such as a unit,
      while `Number` rejects the whole text: `"150 ml"` is 150 for the one
      and NaN for the other. */
  lemma {:induction false} ParseFloatReadsPrefix(d: string, rest: string)
    requires |d| > 0 && AllDigits(d)
    requires |rest| > 0 && !IsDigit(rest[0]) && rest[0] !in ".eE" && !IsSpace(rest[|rest| - 1])
    ensures ParseFloat(d + rest) == Fin(DigitsValue(d) as real)
    ensures StringToNumber(d + rest) == NaN
  {
    var s := d + rest;
    assert s[0] == d[0];
    assert s[|s| - 1] == rest[|rest| - 1];
    TrimKeeps(s);
    assert TrimStart(s) == s;
    ScanDigitsThenStop(d, rest);
  }

  /** A text that does not start with a literal has no numeric value. */
  lemma ParseNoPrefix(s: string)
    requires Trim(s) != "" && !IsDigit(Trim(s)[0]) && Trim(s)[0] !in "+-.,I"
    ensures ParseNumericValue(JStr(s)) == NaN
  {
    var text := Trim(s);
    var t := ReplaceFirst(text, ',', '.');
    ReplaceFirstSpec(text, ',', '.');
    assert t[0] == text[0];
    assert TrimStart(t) == t;
    ScanNoNumber(t);
    assert ParseFloat(t) == NaN;
    assert ParseNumericValue(JStr(s)) == ParseText(s);
  }

  /** `"120,50"` reads as 120.5. */
  lemma {:induction false} ParseExampleDecimalComma(n: nat, f: string)
    requires n == 120 && f == "50"
    ensures ParseNumericValue(JStr(NatText(n) + "," + f)) == Fin(120.5)
  {
    assert f[..1] == "5";
    assert DigitsValue(f[..1]) == 5;
    assert DigitsValue(f) == 50;
    assert Pow10(|f|) == 100;
    var a := DigitsValue(f) as real;
    var b := Pow10(|f|) as real;
    assert a / b == 0.5;
    DecimalValueOfNat(n, f);
    ParseDecimalComma(n, f);
  }

  /** `"1,2,3"` reads as 1.2. */
  lemma {:induction false} ParseExampleSecondComma(n: nat, f: string, rest: string)
    requires n == 1 && f == "2" && rest == ",3"
    ensures ParseNumericValue(JStr(NatText(n) + "," + f + rest)) == Fin(1.2)
  {
    assert rest[0] == ',' && rest[|rest| - 1] == '3';
    assert f[..0] == "";
    assert DigitsValue(f) == 2;
    assert Pow10(|f|) == 10;
    var a := DigitsValue(f) as real;
    var b := Pow10(|f|) as real;
    assert a / b == 0.2;
    DecimalValueOfNat(n, f);
    ParseCommaThenRest(n, f, rest);
  }

  /** `"150 руб"` reads as 150. */
  lemma {:induction false} ParseExampleUnitSuffix(n: nat, rest: string)
    requires n == 150 && rest == " руб"
    ensures ParseNumericValue(JStr(NatText(n) + rest)) == Fin(150.0)
  {
    ParseNumericPrefix(n, rest);
  }

  /** `null` and `" "` have no value. */
  lemma ParseExampleEmpty()
    ensures ParseNumericValue(JNull) == NaN
    ensures ParseNumericValue(JStr(" ")) == NaN
  {
    assert IsSpace(" "[0]);
  }
}

=== FILE: product_modal.dfy ===
/**
  The product dialog of the menu page
  (src/components/MenuPage/ProductModal.tsx): whether anything is shown, the
  description, the size rows or the single price, the price the add button
  puts into the cart under which id, and the button's price suffix. The
  opening and closing animation, the page's scroll lock and the picture are
  left out; `format` stands for the currency formatter.
 */
module ProductModal {
  import opened Wrappers
  import opened Text
  import opened JsValue
  import opened MenuData
  import opened MenuView
  import opened Cart
  import CategoryRow

  const MlSuffix := " мл"
  const SuffixMark := "• "

  /** One size row: its label, its volume text when the volume is a finite
      number, and its price text. */
  datatype SizeRow = SizeRow(sizeLabel: string, mlLabel: Option<string>, priceLabel: string)

  /** Below the description: the size rows when the item has variants at
      all, otherwise the one price text. */
  datatype PriceBlock = Sizes(rows: seq<SizeRow>) | SinglePrice(text: string)

  datatype ModalContent = ModalContent(
    nameLabel: string,
    description: string,
    prices: PriceBlock,
    addPrice: Option<real>,
    input: CartInput,
    buttonText: string)

  /** `item.description?.trim() ?? ""` */
  function Description(item: JVal): (d: string)
    requires TextOrNullish(Get(item, "description"))
    ensures Get(item, "description").JStr? ==> d == Trim(Get(item, "description").s)
    ensures Nullish(Get(item, "description")) ==> d == ""
  {
    match Get(item, "description")
    case JStr(s) => Trim(s)
    case _ => ""
  }

  /** `variant?.sizeName?.toString().trim() || sizeFallback` */
  function SizeLabel(variant: JVal, sizeFallback: string): (r: string)
    ensures Nullish(Get(variant, "sizeName")) ==> r == sizeFallback
    ensures !Nullish(Get(variant, "sizeName")) && Trim(Stringify(Get(variant, "sizeName"))) != "" ==>
      r == Trim(Stringify(Get(variant, "sizeName")))
    ensures !Nullish(Get(variant, "sizeName")) && Trim(Stringify(Get(variant, "sizeName"))) == "" ==>
      r == sizeFallback
  {
    var sizeName := Get(variant, "sizeName");
    if Nullish(sizeName) then sizeFallback else OrElse(Trim(Stringify(sizeName)), sizeFallback)
  }

  /** `"<ml> мл"` when `variant.ml` is a finite number; a numeric text or
      anything else shows no volume. */
  function MlLabel(variant: JVal): (r: Option<string>)
    ensures r.Some? <==> Get(variant, "ml").JNum? && Get(variant, "ml").n.Fin?
    ensures r.Some? ==> r.value == NumText(Get(variant, "ml").n) + MlSuffix
  {
    match Get(variant, "ml")
    case JNum(Fin(v)) => Some(NumText(Fin(v)) + MlSuffix)
    case _ => None
  }

  /** The variant's formatted price, or the price fallback. */
  function VariantPriceLabel(variant: JVal, priceFallback: string, format: real -> string): (r: string)
    ensures VariantPrice(variant).Fin? ==> r == format(VariantPrice(variant).value)
    ensures !VariantPrice(variant).Fin? ==> r == priceFallback
  {
    match ParseMenuPrice(Get(variant, "price"))
    case Fin(p) => format(p)
    case _ => priceFallback
  }

  function Row(variant: JVal, sizeFallback: string, priceFallback: string, format: real -> string): SizeRow {
    SizeRow(SizeLabel(variant, sizeFallback), MlLabel(variant), VariantPriceLabel(variant, priceFallback, format))
  }

  /** With variants, one row per variant in order; without, the formatted
      own price or nothing. A list of variants none of which has a price
      still shows rows, not the own price. */
  function Prices(item: JVal, sizeFallback: string, priceFallback: string, format: real -> string): (b: PriceBlock)
    ensures b.Sizes? <==> |MenuVariants(item)| > 0
    ensures b.Sizes? ==> |b.rows| == |MenuVariants(item)|
    ensures b.Sizes? ==> forall i :: 0 <= i < |b.rows| ==>
      b.rows[i] == Row(MenuVariants(item)[i], sizeFallback, priceFallback, format)
    ensures b.SinglePrice? && GetPriceInfo(item).rawPrice.Fin? ==> b.text == format(GetPriceInfo(item).rawPrice.value)
    ensures b.SinglePrice? && !GetPriceInfo(item).rawPrice.Fin? ==> b.text == ""
  {
    var info := GetPriceInfo(item);
    if |info.variants| > 0 then
      Sizes(seq(|info.variants|, i requires 0 <= i < |info.variants| =>
        Row(info.variants[i], sizeFallback, priceFallback, format)))
    else
      SinglePrice(if info.rawPrice.Fin? then format(info.rawPrice.value) else "")
  }

  /** `{addLabel} {addPrice ? "• " + format(addPrice) : ""}`: a price of 0,
      like no price, shows no suffix. */
  function ButtonText(addLabel: string, addPrice: Option<real>, format: real -> string): (t: string)
    ensures addPrice.Some? && addPrice.value != 0.0 ==> t == addLabel + " " + SuffixMark + format(addPrice.value)
    ensures addPrice.None? || addPrice.value == 0.0 ==> t == addLabel + " "
  {
    addLabel + " " + (if addPrice.Some? && addPrice.value != 0.0 then SuffixMark + format(addPrice.value) else "")
  }

  /** What the add button passes to the cart: `String(item.id)`, whatever
      the id is (an item without one is added as "undefined"), the name label
      and the add price. */
  function ModalInput(item: JVal, nameFallback: string): (c: CartInput)
    requires TextOrNullish(Get(item, "name"))
    ensures c.id == Stringify(Get(item, "id"))
    ensures c.name == NameLabel(item, nameFallback)
    ensures c.price == AddPrice(GetPriceInfo(item))
  {
    CartInput(Stringify(Get(item, "id")), NameLabel(item, nameFallback), AddPrice(GetPriceInfo(item)))
  }

  /** The texts the dialog uses. */
  datatype ModalText = ModalText(nameFallback: string, sizeFallback: string, priceFallback: string, addLabel: string)

  /** The dialog: nothing without an item, whether or not it is open (while
      it is closing the item is still there); otherwise its content. */
  function Modal(item: Option<JVal>, isOpen: bool, text: ModalText, format: real -> string): (r: Option<ModalContent>)
    requires item.Some? ==> TextOrNullish(Get(item.value, "name")) && TextOrNullish(Get(item.value, "description"))
    ensures r.Some? <==> item.Some?
    ensures r.Some? ==> (
      && r.value.addPrice == AddPrice(GetPriceInfo(item.value))
      && r.value.input == ModalInput(item.value, text.nameFallback)
      && r.value.nameLabel == NameLabel(item.value, text.nameFallback)
      && r.value.description == Description(item.value)
      && r.value.prices == Prices(item.value, text.sizeFallback, text.priceFallback, format)
      && r.value.buttonText == ButtonText(text.addLabel, AddPrice(GetPriceInfo(item.value)), format))
  {
    if item.None? && !isOpen then None
    else if item.None? then None
    else
      var it := item.value;
      var addPrice := AddPrice(GetPriceInfo(it));
      Some(ModalContent(
        NameLabel(it, text.nameFallback),
        Description(it),
        Prices(it, text.sizeFallback, text.priceFallback, format),
        addPrice,
        ModalInput(it, text.nameFallback),
        ButtonText(text.addLabel, addPrice, format)))
  }

  /** The dialog adds the price the list shows: the item's own price when
      finite, else its cheapest finite variant price; and the button names it
      unless it is 0. */
  lemma ModalAddsListedPrice(item: JVal, text: ModalText, fromPrefix: string, format: real -> string)
    requires TextOrNullish(Get(item, "name")) && TextOrNullish(Get(item, "description"))
    ensures var c := Modal(Some(item), true, text, format).value;
      && (c.addPrice.Some? && c.addPrice.value != 0.0 ==>
            c.buttonText == text.addLabel + " " + SuffixMark + format(c.addPrice.value))
      && (c.addPrice.Some? ==>
            ListPriceLabel(item, fromPrefix, text.priceFallback, format)
              == (if GetPriceInfo(item).rawPrice.Fin? then format(c.addPrice.value)
                  else fromPrefix + " " + format(c.addPrice.value)))
      && (c.addPrice.None? ==> ListPriceLabel(item, fromPrefix, text.priceFallback, format) == text.priceFallback)
  {
    ListPriceLabelShowsAddPrice(item, fromPrefix, text.priceFallback, format);
  }

  /** The dialog's cart id and the card's differ for an item without an id:
      every such item is added from the dialog as "undefined", so two of
      them, added one after the other, make a single entry counted twice
      that keeps the first one's name and price. */
  lemma IdlessItemsMergeInCart(a: JVal, b: JVal, nameFallback: string)
    requires TextOrNullish(Get(a, "name")) && TextOrNullish(Get(b, "name"))
    requires Nullish(Get(a, "id")) && Nullish(Get(b, "id")) && Get(a, "id") == Get(b, "id")
    ensures var cart := AddItem(AddItem([], ModalInput(a, nameFallback)), ModalInput(b, nameFallback));
      && |cart| == 1
      && cart[0] == CartItem(Stringify(Get(a, "id")), NameLabel(a, nameFallback), AddPrice(GetPriceInfo(a)), 2)
  {
    var first := AddItem([], ModalInput(a, nameFallback));
    assert first == [CartItem(Stringify(Get(a, "id")), NameLabel(a, nameFallback), AddPrice(GetPriceInfo(a)), 1)];
    assert first[0].id == ModalInput(b, nameFallback).id;
  }

  /** The dialog puts an item into the cart as its card does exactly when
      the item has an id; without one, the dialog's "undefined" never equals
      the card's position key, so the same item makes two entries. */
  lemma ModalMatchesCardIffId(item: JVal, categoryKey: string, index: nat, nameFallback: string)
    requires TextOrNullish(Get(item, "name"))
    ensures ModalInput(item, nameFallback) == CategoryRow.CardInput(item, categoryKey, index, nameFallback)
      <==> !Nullish(Get(item, "id"))
  {
    var modal := ModalInput(item, nameFallback);
    var card := CategoryRow.CardInput(item, categoryKey, index, nameFallback);
    if Nullish(Get(item, "id")) {
      var key := CategoryRow.CardKey(item, categoryKey, index);
      assert key[|categoryKey|] == '-';
      NullishTextHasNoDash(Get(item, "id"), key, |categoryKey|);
      assert modal.id != card.id;
    } else {
      assert modal.id == card.id;
    }
  }

  /** The text of a missing id has no dash, so it is never a fallback key. */
  lemma NullishTextHasNoDash(v: JVal, key: string, p: nat)
    requires Nullish(v) && p < |key| && key[p] == '-'
    ensures Stringify(v) != key
  {
    assert forall c :: c in Stringify(v) ==> c != '-';
  }
}

=== FILE: seqs.dfy ===
/** `Array.prototype.filter` and `flatMap`, with the facts the menu code relies on. */
module Seqs {

  /** The elements satisfying `p`, in their original order. */
  function Filter<T>(xs: seq<T>, p: T -> bool): (ys: seq<T>)
    ensures |ys| <= |xs|
    ensures forall y :: y in ys ==> p(y)
  {
    if xs == [] then []
    else (if p(xs[0]) then [xs[0]] else []) + Filter(xs[1..], p)
  }

  /** An element is kept exactly when it is present and satisfies `p`. */
  lemma {:induction false} FilterMembers<T>(xs: seq<T>, p: T -> bool)
    ensures forall x :: x in Filter(xs, p) <==> x in xs && p(x)
  {
    if xs != [] {
      FilterMembers(xs[1..], p);
      assert forall x :: x in xs <==> x == xs[0] || x in xs[1..];
    }
  }

  /** Filtering keeps order: it distributes over concatenation. */
  lemma {:induction false} FilterAppend<T>(xs: seq<T>, ys: seq<T>, p: T -> bool)
    ensures Filter(xs + ys, p) == Filter(xs, p) + Filter(ys, p)
  {
    if xs == [] {
      assert xs + ys == ys;
    } else {
      assert (xs + ys)[0] == xs[0];
      assert (xs + ys)[1..] == xs[1..] + ys;
      FilterAppend(xs[1..], ys, p);
    }
  }

  /** The lists `f` gives for the elements, concatenated in order. */
  function FlatMap<T, U>(xs: seq<T>, f: T -> seq<U>): (ys: seq<U>)
    ensures xs == [] ==> ys == []
  {
    if xs == [] then [] else f(xs[0]) + FlatMap(xs[1..], f)
  }

  /** Flat-mapping distributes over concatenation. */
  lemma {:induction false} FlatMapAppend<T, U>(xs: seq<T>, ys: seq<T>, f: T -> seq<U>)
    ensures FlatMap(xs + ys, f) == FlatMap(xs, f) + FlatMap(ys, f)
  {
    if xs == [] {
      assert xs + ys == ys;
    } else {
      assert (xs + ys)[0] == xs[0];
      assert (xs + ys)[1..] == xs[1..] + ys;
      FlatMapAppend(xs[1..], ys, f);
    }
  }

  /** A list is its part before position `k`, the element there, and the
      part after. */
  lemma SplitAt<T>(xs: seq<T>, k: nat)
    requires k < |xs|
    ensures xs == xs[..k] + [xs[k]] + xs[k + 1..]
  {
    assert xs[..k] + [xs[k]] == xs[..k + 1];
  }

  /** Replacing the element at `k` keeps the parts around it. */
  lemma UpdateSplit<T>(xs: seq<T>, k: nat, e: T)
    requires k < |xs|
    ensures xs[k := e] == xs[..k] + [e] + xs[k + 1..]
  {
    assert xs[..k] + [e] == xs[k := e][..k + 1];
  }

  /** The first `n - 1` elements of the first `n` are the first `n - 1`,
      and the last of them is element `n - 1`. */
  lemma PrefixStep<T>(xs: seq<T>, n: nat)
    requires 0 < n <= |xs|
    ensures xs[..n][..n - 1] == xs[..n - 1] && xs[..n][n - 1] == xs[n - 1]
  {
  }

  /** Filtering a one-element list. */
  lemma FilterSingle<T>(x: T, p: T -> bool)
    ensures Filter([x], p) == if p(x) then [x] else []
  {
    assert [x][1..] == [];
  }

  /** Filtering a list with one more element at the end. */
  lemma FilterSnoc<T>(xs: seq<T>, y: T, p: T -> bool)
    ensures Filter(xs + [y], p) == Filter(xs, p) + (if p(y) then [y] else [])
  {
    FilterAppend(xs, [y], p);
    assert Filter([y], p) == (if p(y) then [y] else []) + Filter([], p);
  }

  /** Replacing one element of a list whose other elements all pass: the
      new element is kept or dropped, the rest is kept in place. */
  lemma FilterUpdate<T>(xs: seq<T>, k: nat, e: T, p: T -> bool)
    requires k < |xs|
    requires Filter(xs[..k], p) == xs[..k] && Filter(xs[k + 1..], p) == xs[k + 1..]
    ensures p(e) ==> Filter(xs[k := e], p) == xs[k := e]
    ensures !p(e) ==> Filter(xs[k := e], p) == xs[..k] + xs[k + 1..]
  {
    UpdateSplit(xs, k, e);
    FilterAppend(xs[..k] + [e], xs[k + 1..], p);
    FilterSnoc(xs[..k], e, p);
    if !p(e) {
      assert xs[..k] + [] == xs[..k];
    }
  }

  /** A list whose elements all pass is kept whole. */
  lemma {:induction false} FilterAll<T>(xs: seq<T>, p: T -> bool)
    requires forall i :: 0 <= i < |xs| ==> p(xs[i])
    ensures Filter(xs, p) == xs
  {
    if xs != [] {
      FilterAll(xs[1..], p);
    }
  }

  /** A list none of whose elements passes is dropped whole. */
  lemma {:induction false} FilterNone<T>(xs: seq<T>, p: T -> bool)
    requires forall i :: 0 <= i < |xs| ==> !p(xs[i])
    ensures Filter(xs, p) == []
  {
    if xs != [] {
      FilterNone(xs[1..], p);
    }
  }

  /** `findIndex`: the position of the first element satisfying `p`, or the
      length when there is none. */
  function FindIndex<T>(xs: seq<T>, p: T -> bool): (k: nat)
    ensures k <= |xs|
    ensures forall j :: 0 <= j < k ==> !p(xs[j])
    ensures k < |xs| ==> p(xs[k])
  {
    if xs == [] then 0
    else if p(xs[0]) then 0
    else 1 + FindIndex(xs[1..], p)
  }

  /** Past a prefix with no element satisfying `p`, the search continues in
      the rest. */
  lemma {:induction false} FindIndexAppend<T>(a: seq<T>, b: seq<T>, p: T -> bool)
    requires forall x :: x in a ==> !p(x)
    ensures FindIndex(a + b, p) == |a| + FindIndex(b, p)
  {
    if a != [] {
      assert (a + b)[0] == a[0];
      assert (a + b)[1..] == a[1..] + b;
      FindIndexAppend(a[1..], b, p);
    } else {
      assert a + b == b;
    }
  }

  /** A filter keeps no element the list did not hold. */
  lemma FilterKeepsAbsence<T>(xs: seq<T>, p: T -> bool, q: T -> bool)
    requires forall j :: 0 <= j < |xs| ==> !q(xs[j])
    ensures forall x :: x in Filter(xs, p) ==> !q(x)
  {
    FilterMembers(xs, p);
  }

  /** The first element satisfying `q` is also the first one in any filter
      that keeps it. */
  lemma FindInFilter<T>(xs: seq<T>, p: T -> bool, q: T -> bool)
    requires FindIndex(xs, q) < |xs| && p(xs[FindIndex(xs, q)])
    ensures var ys := Filter(xs, p);
      FindIndex(ys, q) < |ys| && ys[FindIndex(ys, q)] == xs[FindIndex(xs, q)]
  {
    var t := FindIndex(xs, q);
    assert xs == xs[..t] + xs[t..];
    FilterAppend(xs[..t], xs[t..], p);
    FilterKeepsAbsence(xs[..t], p, q);
    var rest := Filter(xs[t..], p);
    assert xs[t..][0] == xs[t];
    assert rest == [xs[t]] + Filter(xs[t..][1..], p);
    FindIndexAppend(Filter(xs[..t], p), rest, q);
  }

  /** The search finds the first element satisfying `p`. */
  lemma FindIndexIs<T>(xs: seq<T>, p: T -> bool, t: nat)
    requires t < |xs| && p(xs[t])
    requires forall u :: 0 <= u < t ==> !p(xs[u])
    ensures FindIndex(xs, p) == t
  {
  }

  /** The map from each element's key to its value; when several elements
      share a key, the value of the last of them. */
  function LastBy<T, K, V>(xs: seq<T>, key: T -> K, val: T -> V): (m: map<K, V>)
    ensures forall i :: 0 <= i < |xs| ==> key(xs[i]) in m
  {
    if xs == [] then map[]
    else
      var n := |xs| - 1;
      var front := LastBy(xs[..n], key, val);
      assert forall i :: 0 <= i < n ==> xs[..n][i] == xs[i];
      front[key(xs[n]) := val(xs[n])]
  }

  /** Only the elements' keys are keys of the map. */
  lemma {:induction false} LastByKeys<T, K, V>(xs: seq<T>, key: T -> K, val: T -> V, k: K)
    requires k in LastBy(xs, key, val)
    ensures exists i :: 0 <= i < |xs| && key(xs[i]) == k
  {
    var n := |xs| - 1;
    if key(xs[n]) != k {
      LastByKeys(xs[..n], key, val, k);
      var i :| 0 <= i < n && key(xs[..n][i]) == k;
      assert xs[i] == xs[..n][i];
    }
  }

  /** The value kept under a key is that of the last element with it. */
  lemma {:induction false} LastByLast<T, K, V>(xs: seq<T>, key: T -> K, val: T -> V, i: nat)
    requires i < |xs|
    requires forall j :: i < j < |xs| ==> key(xs[j]) != key(xs[i])
    ensures LastBy(xs, key, val)[key(xs[i])] == val(xs[i])
  {
    var n := |xs| - 1;
    if i < n {
      var front := xs[..n];
      assert front[i] == xs[i];
      assert forall j :: i < j < |front| ==> front[j] == xs[j];
      LastByLast(front, key, val, i);
    }
  }
}

=== FILE: text.dfy ===
/**
  Character and string helpers with the meaning the JavaScript string methods
  used by the menu code give them: `trim`, `toLowerCase`, `includes`,
  `replace(",", ".")` (first occurrence only) and the decimal text of integers.
 */
module Text {

  /** The ECMAScript WhiteSpace and LineTerminator code points: exactly what
      `String.prototype.trim` strips and what the regular expression `\s` matches. */
  predicate IsSpace(c: char) {
    || c == '\t' || c == '\n' || c == '\U{000B}' || c == '\U{000C}' || c == '\r'
    || c == ' ' || c == '\U{00A0}' || c == '\U{1680}'
    || ('\U{2000}' <= c <= '\U{200A}')
    || c == '\U{2028}' || c == '\U{2029}' || c == '\U{202F}' || c == '\U{205F}'
    || c == '\U{3000}' || c == '\U{FEFF}'
  }

  predicate NoSpace(s: string) {
    forall i :: 0 <= i < |s| ==> !IsSpace(s[i])
  }

  /** Drops the leading white space; what is dropped is all white space and
      what is kept does not start with white space. */
  function TrimStart(s: string): (r: string)
    ensures |r| <= |s| && r == s[|s| - |r|..]
    ensures r == [] || !IsSpace(r[0])
    ensures forall i :: 0 <= i < |s| - |r| ==> IsSpace(s[i])
  {
    if |s| > 0 && IsSpace(s[0]) then TrimStart(s[1..]) else s
  }

  /** Drops the trailing white space. */
  function TrimEnd(s: string): (r: string)
    ensures |r| <= |s| && r == s[..|r|]
    ensures r == [] || !IsSpace(r[|r| - 1])
    ensures forall i :: |r| <= i < |s| ==> IsSpace(s[i])
  {
    if |s| > 0 && IsSpace(s[|s| - 1]) then TrimEnd(s[..|s| - 1]) else s
  }

  /** `s.trim()` */
  function Trim(s: string): (r: string)
    ensures r == [] || (!IsSpace(r[0]) && !IsSpace(r[|r| - 1]))
  {
    TrimEnd(TrimStart(s))
  }

  /** A string that neither starts nor ends with white space is its own trim. */
  lemma TrimKeeps(s: string)
    requires s == [] || (!IsSpace(s[0]) && !IsSpace(s[|s| - 1]))
    ensures Trim(s) == s
  {
  }

  /** A string is trimmed to nothing exactly when it is all white space. */
  lemma TrimEmptyIffBlank(s: string)
    ensures Trim(s) == [] <==> forall i :: 0 <= i < |s| ==> IsSpace(s[i])
  {
    var t := TrimStart(s);
    assert forall i :: 0 <= i < |t| ==> t[i] == s[|s| - |t| + i];
  }

  lemma TrimIdempotent(s: string)
    ensures Trim(Trim(s)) == Trim(s)
  {
    TrimKeeps(Trim(s));
  }

  /** The lower-case mapping of `toLowerCase` on the Latin and Cyrillic
      capitals; every other character is its own lower case here. */
  function LowerChar(c: char): char {
    if 'A' <= c <= 'Z' then (c as int + 32) as char
    else if '\U{0410}' <= c <= '\U{042F}' then (c as int + 32) as char
    else if '\U{0400}' <= c <= '\U{040F}' then (c as int + 80) as char
    else c
  }

  lemma LowerCharFacts(c: char)
    ensures LowerChar(LowerChar(c)) == LowerChar(c)
    ensures IsSpace(LowerChar(c)) <==> IsSpace(c)
  {
  }

  /** `s.toLowerCase()` */
  function ToLower(s: string): (r: string)
    ensures |r| == |s|
    ensures forall i :: 0 <= i < |s| ==> r[i] == LowerChar(s[i])
  {
    seq(|s|, i requires 0 <= i < |s| => LowerChar(s[i]))
  }

  lemma ToLowerIdempotent(s: string)
    ensures ToLower(ToLower(s)) == ToLower(s)
  {
    forall i | 0 <= i < |s| {
      LowerCharFacts(s[i]);
    }
  }

  lemma ToLowerNoSpace(s: string)
    requires NoSpace(s)
    ensures NoSpace(ToLower(s))
  {
    forall i | 0 <= i < |s| {
      LowerCharFacts(s[i]);
    }
  }

  predicate IsPrefix(p: string, s: string) {
    |p| <= |s| && s[..|p|] == p
  }

  /** The needle occurs in `s` starting at position `k`. */
  predicate OccursAt(s: string, needle: string, k: int) {
    0 <= k <= |s| - |needle| && s[k..k + |needle|] == needle
  }

  /** Searches for the needle at positions `i` and later. */
  function ContainsFrom(s: string, needle: string, i: nat): (b: bool)
    ensures b <==> exists k :: i <= k && OccursAt(s, needle, k)
    decreases |s| - i
  {
    if i > |s| - |needle| then false
    else if s[i..i + |needle|] == needle then assert OccursAt(s, needle, i); true
    else ContainsFrom(s, needle, i + 1)
  }

  /** `s.includes(needle)`: the needle occurs at some position of `s`. */
  function Contains(s: string, needle: string): (b: bool)
    ensures b <==> exists k :: OccursAt(s, needle, k)
  {
    ContainsFrom(s, needle, 0)
  }

  /** The position of the first `a` at or after `i`, or `|s|` when there is none. */
  function FirstIndexFrom(s: string, a: char, i: nat): (k: nat)
    requires i <= |s|
    ensures i <= k <= |s|
    ensures forall j :: i <= j < k ==> s[j] != a
    ensures k < |s| ==> s[k] == a
    decreases |s| - i
  {
    if i == |s| || s[i] == a then i else FirstIndexFrom(s, a, i + 1)
  }

  /** `s.replace(a, b)` with single-character strings: only the first `a`
      becomes `b`. */
  function ReplaceFirst(s: string, a: char, b: char): (r: string)
    ensures |r| == |s|
  {
    var k := FirstIndexFrom(s, a, 0);
    if k < |s| then s[..k] + [b] + s[k + 1..] else s
  }

  /** What `ReplaceFirst` does, position by position: the first `a` becomes
      `b` and every other character is kept. */
  lemma ReplaceFirstSpec(s: string, a: char, b: char)
    ensures forall i :: 0 <= i < |s| ==>
      ReplaceFirst(s, a, b)[i] == (if s[i] == a && a !in s[..i] then b else s[i])
  {
    var k := FirstIndexFrom(s, a, 0);
    assert forall i :: 0 <= i <= k ==> a !in s[..i];
    assert forall i :: k < i <= |s| ==> s[..i][k] == a;
  }

  lemma ReplaceFirstAbsent(s: string, a: char, b: char)
    requires a !in s
    ensures ReplaceFirst(s, a, b) == s
  {
  }

  /** A text that starts with `a` has that first character replaced. */
  lemma ReplaceFirstHead(a: char, q: string, b: char)
    ensures ReplaceFirst([a] + q, a, b) == [b] + q
  {
    assert FirstIndexFrom([a] + q, a, 0) == 0;
  }

  lemma FirstIndexShift(p: string, q: string, a: char, j: nat)
    requires j <= |q|
    ensures FirstIndexFrom(p + q, a, |p| + j) == |p| + FirstIndexFrom(q, a, j)
    decreases |q| - j
  {
    if j < |q| && q[j] != a {
      FirstIndexShift(p, q, a, j + 1);
    }
  }

  lemma FirstIndexSkip(p: string, q: string, a: char, i: nat)
    requires i <= |p|
    requires forall j :: i <= j < |p| ==> p[j] != a
    ensures FirstIndexFrom(p + q, a, i) == |p| + FirstIndexFrom(q, a, 0)
    decreases |p| - i
  {
    if i < |p| {
      FirstIndexSkip(p, q, a, i + 1);
    } else {
      FirstIndexShift(p, q, a, 0);
    }
  }

  /** Replacing the first `a` skips a prefix that holds none. */
  lemma ReplaceFirstSkip(p: string, q: string, a: char, b: char)
    requires a !in p
    ensures ReplaceFirst(p + q, a, b) == p + ReplaceFirst(q, a, b)
  {
    FirstIndexSkip(p, q, a, 0);
    var k := FirstIndexFrom(q, a, 0);
    if k < |q| {
      assert (p + q)[..|p| + k] == p + q[..k];
      assert (p + q)[|p| + k + 1..] == q[k + 1..];
    }
  }

  predicate IsDigit(c: char) {
    '0' <= c <= '9'
  }

  predicate AllDigits(s: string) {
    forall i :: 0 <= i < |s| ==> IsDigit(s[i])
  }

  function DigitChar(d: nat): char
    requires d < 10
  {
    ('0' as int + d) as char
  }

  function DigitValue(c: char): nat
    requires IsDigit(c)
  {
    c as int - '0' as int
  }

  /** The number a string of decimal digits denotes, read left to right. */
  function DigitsValue(s: string): nat
    requires AllDigits(s)
  {
    if |s| == 0 then 0 else DigitsValue(s[..|s| - 1]) * 10 + DigitValue(s[|s| - 1])
  }

  function Pow10(n: nat): (r: nat)
    ensures r >= 1
  {
    if n == 0 then 1 else 10 * Pow10(n - 1)
  }

  /** The decimal text of a natural number, without leading zeros. */
  function NatText(n: nat): (r: string)
    ensures |r| >= 1 && AllDigits(r)
    ensures |r| > 1 ==> r[0] != '0'
  {
    if n < 10 then [DigitChar(n)] else NatText(n / 10) + [DigitChar(n % 10)]
  }

  /** The decimal text of an integer: a minus sign before the text of its magnitude. */
  function IntText(n: int): (r: string)
    ensures |r| >= 1
  {
    if n < 0 then "-" + NatText(-n) else NatText(n)
  }

  /** Reading the digits back gives the number: the text is a faithful encoding. */
  lemma {:induction false} NatTextRoundTrip(n: nat)
    ensures DigitsValue(NatText(n)) == n
  {
    if n >= 10 {
      NatTextRoundTrip(n / 10);
      var s := NatText(n);
      assert s[..|s| - 1] == NatText(n / 10);
    }
  }

  lemma NatTextInjective(a: nat, b: nat)
    requires NatText(a) == NatText(b)
    ensures a == b
  {
    NatTextRoundTrip(a);
    NatTextRoundTrip(b);
  }

  lemma IntTextSign(n: int)
    ensures IntText(n)[0] == '-' <==> n < 0
  {
    if n >= 0 {
      assert IsDigit(NatText(n)[0]);
    }
  }

  /** Distinct integers have distinct decimal texts. */
  lemma IntTextInjective(a: int, b: int)
    requires IntText(a) == IntText(b)
    ensures a == b
  {
    IntTextSign(a);
    IntTextSign(b);
    if a < 0 {
      assert IntText(a)[1..] == NatText(-a);
      assert IntText(b)[1..] == NatText(-b);
      NatTextInjective(-a, -b);
    } else {
      NatTextInjective(a, b);
    }
  }
}

=== FILE: timed_menu.dfy ===
/**
  The older header menu (src/components/Navigation.tsx): open and closing
  flags, a close timer that finishes the closing after the animation's
  length, and a counter bumped at every opening to restart the panel's
  animation. A timer is a pending count plus a "fire" event; real time is
  left out.
 */
module TimedMenu {
  datatype Menu = Menu(open: bool, closing: bool, pendingTimers: nat, openKey: nat)

  /** The length of the closing animation, in milliseconds. */
  const CloseAnimationMs := 360

  const Start := Menu(false, false, 0, 0)

  /** `openMenu`: any pending close timer is cleared, the menu is open and
      not closing, and the key moves on by one. */
  function OpenMenu(m: Menu): (r: Menu)
    ensures r.open && !r.closing && r.pendingTimers == 0
    ensures r.openKey == m.openKey + 1
  {
    Menu(true, false, 0, m.openKey + 1)
  }

  /** `closeMenu`: the menu is closing and exactly one timer is pending,
      whatever was pending before; the rest stays. */
  function CloseMenu(m: Menu): (r: Menu)
    ensures r.closing && r.pendingTimers == 1
    ensures r.open == m.open && r.openKey == m.openKey
  {
    var cleared := m.(pendingTimers := 0);
    cleared.(closing := true, pendingTimers := cleared.pendingTimers + 1)
  }

  /** The menu button: an open menu that is not closing closes; in every
      other state the menu opens (again). */
  function ButtonClick(m: Menu): (r: Menu)
    ensures m.open && !m.closing ==> r == CloseMenu(m)
    ensures !(m.open && !m.closing) ==> r == OpenMenu(m)
  {
    if m.open && !m.closing then CloseMenu(m) else OpenMenu(m)
  }

  /** A link in the panel closes an open menu that is not closing yet. */
  function LinkClick(m: Menu): (r: Menu)
    ensures m.open && !m.closing ==> r == CloseMenu(m)
    ensures !(m.open && !m.closing) ==> r == m
  {
    if m.open && !m.closing then CloseMenu(m) else m
  }

  /** The pending timer fires: the menu is closed and nothing is pending.
      With no timer pending there is nothing to fire. */
  function TimerFires(m: Menu): (r: Menu)
    ensures m.pendingTimers > 0 ==> !r.open && !r.closing && r.pendingTimers == 0 && r.openKey == m.openKey
    ensures m.pendingTimers == 0 ==> r == m
  {
    if m.pendingTimers == 0 then m else Menu(false, false, 0, m.openKey)
  }

  datatype Event = Button | Link | Fire

  function Step(m: Menu, e: Event): Menu {
    match e
    case Button => ButtonClick(m)
    case Link => LinkClick(m)
    case Fire => TimerFires(m)
  }

  function Run(m: Menu, events: seq<Event>): Menu
    decreases |events|
  {
    if events == [] then m else Run(Step(m, events[0]), events[1..])
  }

  /** Closing exactly while one timer is pending, never two, and closing
      only an open menu. */
  predicate Inv(m: Menu) {
    && (m.closing <==> m.pendingTimers > 0)
    && m.pendingTimers <= 1
    && (m.closing ==> m.open)
  }

  lemma StepKeepsInv(m: Menu, e: Event)
    requires Inv(m)
    ensures Inv(Step(m, e))
    ensures Step(m, e).openKey >= m.openKey
  {
  }

  /** Every state reachable from a good one is good, and the key never goes
      back. */
  lemma {:induction false} RunKeepsInv(m: Menu, events: seq<Event>)
    requires Inv(m)
    ensures Inv(Run(m, events))
    ensures Run(m, events).openKey >= m.openKey
    decreases |events|
  {
    if events != [] {
      StepKeepsInv(m, events[0]);
      RunKeepsInv(Step(m, events[0]), events[1..]);
    }
  }

  /** The number of openings in a run from `m`. */
  function Openings(m: Menu, events: seq<Event>): nat
    decreases |events|
  {
    if events == [] then 0
    else
      var opens := events[0] == Button && !(m.open && !m.closing);
      (if opens then 1 else 0) + Openings(Step(m, events[0]), events[1..])
  }

  /** The key counts the openings: each one adds exactly one, nothing else
      moves it. */
  lemma {:induction false} OpenKeyCountsOpenings(m: Menu, events: seq<Event>)
    ensures Run(m, events).openKey == m.openKey + Openings(m, events)
    decreases |events|
  {
    if events != [] {
      OpenKeyCountsOpenings(Step(m, events[0]), events[1..]);
    }
  }

  /** Opening during the closing animation cancels the timer, so its firing
      later cannot close the reopened menu. */
  lemma ReopenCancelsClose(m: Menu)
    requires Inv(m) && m.open && !m.closing
    ensures var reopened := ButtonClick(ButtonClick(m));
      reopened.open && !reopened.closing && TimerFires(reopened) == reopened
  {
  }
}

=== FILE: variant_sort.dfy ===
/**
  The order of an item's variants: entries with a volume first, by
  ascending volume, then the entries without one. The comparator returns 0
  for entries of equal volume and for two entries without a volume, and the
  sort it is given to is stable, so those keep their join order.
 */
module VariantSort {
  import opened Wrappers
  import opened Seqs

  /** `a` may stay before `b`: the comparator does not put `b` first. A
      missing volume ranks after every present one. */
  predicate NotAfter(a: Option<real>, b: Option<real>) {
    b.None? || (a.Some? && a.value <= b.value)
  }

  predicate SortedBy<T>(s: seq<T>, key: T -> Option<real>) {
    forall i, j :: 0 <= i < j < |s| ==> NotAfter(key(s[i]), key(s[j]))
  }

  /** Inserts `x` after every element that may stay before it. */
  function InsertStable<T>(s: seq<T>, x: T, key: T -> Option<real>): (r: seq<T>)
    ensures |r| == |s| + 1
  {
    if s == [] then [x]
    else if NotAfter(key(s[|s| - 1]), key(x)) then s + [x]
    else InsertStable(s[..|s| - 1], x, key) + [s[|s| - 1]]
  }

  /** The stable sort: each element in turn is inserted into the sorted
      prefix before it. */
  function SortByVolume<T>(s: seq<T>, key: T -> Option<real>): (r: seq<T>)
    ensures |r| == |s|
  {
    if s == [] then [] else InsertStable(SortByVolume(s[..|s| - 1], key), s[|s| - 1], key)
  }

  lemma {:induction false} InsertStablePermutes<T>(s: seq<T>, x: T, key: T -> Option<real>)
    ensures multiset(InsertStable(s, x, key)) == multiset(s) + multiset{x}
  {
    if s != [] && !NotAfter(key(s[|s| - 1]), key(x)) {
      InsertStablePermutes(s[..|s| - 1], x, key);
      assert s == s[..|s| - 1] + [s[|s| - 1]];
    }
  }

  /** The sorted list holds the same entries, each as often. */
  lemma {:induction false} SortPermutes<T>(s: seq<T>, key: T -> Option<real>)
    ensures multiset(SortByVolume(s, key)) == multiset(s)
  {
    if s != [] {
      SortPermutes(s[..|s| - 1], key);
      InsertStablePermutes(SortByVolume(s[..|s| - 1], key), s[|s| - 1], key);
      assert s == s[..|s| - 1] + [s[|s| - 1]];
    }
  }

  /** Everything `InsertStable` puts before `x` may stay before it, and
      everything after it is strictly after it. */
  lemma {:induction false} InsertStableSorted<T>(s: seq<T>, x: T, key: T -> Option<real>)
    requires SortedBy(s, key)
    ensures SortedBy(InsertStable(s, x, key), key)
  {
    if s != [] && !NotAfter(key(s[|s| - 1]), key(x)) {
      var front := s[..|s| - 1];
      var last := s[|s| - 1];
      InsertStableSorted(front, x, key);
      InsertStablePermutes(front, x, key);
      var r := InsertStable(front, x, key);
      forall i | 0 <= i < |r|
        ensures NotAfter(key(r[i]), key(last))
      {
        assert r[i] in multiset(r);
        assert r[i] == x || r[i] in multiset(front);
        if r[i] != x {
          var j :| 0 <= j < |front| && front[j] == r[i];
          assert s[j] == r[i];
        }
      }
    }
  }

  /** The sorted list is in comparator order. */
  lemma {:induction false} SortSorted<T>(s: seq<T>, key: T -> Option<real>)
    ensures SortedBy(SortByVolume(s, key), key)
  {
    if s != [] {
      SortSorted(s[..|s| - 1], key);
      InsertStableSorted(SortByVolume(s[..|s| - 1], key), s[|s| - 1], key);
    }
  }

  /** The test "has volume `v`". */
  function HasVolume<T>(key: T -> Option<real>, v: Option<real>): T -> bool {
    x => key(x) == v
  }

  /** The entries of one volume (or of no volume), in list order. */
  function OfVolume<T>(s: seq<T>, key: T -> Option<real>, v: Option<real>): seq<T> {
    Filter(s, HasVolume(key, v))
  }

  lemma {:induction false} InsertStableStable<T>(s: seq<T>, x: T, key: T -> Option<real>, v: Option<real>)
    ensures OfVolume(InsertStable(s, x, key), key, v) == OfVolume(s, key, v) + (if key(x) == v then [x] else [])
  {
    var p := HasVolume(key, v);
    if s == [] {
      FilterSnoc([], x, p);
      assert [] + [x] == [x];
    } else if NotAfter(key(s[|s| - 1]), key(x)) {
      FilterSnoc(s, x, p);
    } else {
      var front := s[..|s| - 1];
      var last := s[|s| - 1];
      assert s == front + [last];
      assert key(last) != key(x);
      var inserted := InsertStable(front, x, key);
      assert InsertStable(s, x, key) == inserted + [last];
      InsertStableStable(front, x, key, v);
      FilterSnoc(inserted, last, p);
      FilterSnoc(front, last, p);
      var before := Filter(front, p);
      if key(x) == v {
        assert !p(last);
        assert Filter(s, p) == before;
      } else if key(last) == v {
        assert Filter(inserted, p) == before;
      } else {
        assert Filter(inserted, p) == before + [];
      }
    }
  }

  /** Stability: entries of equal volume, and the entries without volume,
      keep their relative order. */
  lemma {:induction false} SortStable<T>(s: seq<T>, key: T -> Option<real>, v: Option<real>)
    ensures OfVolume(SortByVolume(s, key), key, v) == OfVolume(s, key, v)
  {
    if s != [] {
      var front := s[..|s| - 1];
      var last := s[|s| - 1];
      SortStable(front, key, v);
      InsertStableStable(SortByVolume(front, key), last, key, v);
      assert s == front + [last];
      FilterSnoc(front, last, HasVolume(key, v));
    }
  }

  /** Entries with a volume come before every entry without one. */
  lemma VolumedFirst<T>(s: seq<T>, key: T -> Option<real>, i: nat, j: nat)
    requires i < j < |SortByVolume(s, key)|
    requires key(SortByVolume(s, key)[i]).None?
    ensures key(SortByVolume(s, key)[j]).None?
  {
    SortSorted(s, key);
  }
}

=== FILE: wrappers.dfy ===
/** The optional value used across the model for JavaScript's `T | null`. */
module Wrappers {

  datatype Option<+T> = None | Some(value: T) {

    /** `x ?? fallback` for an optional value */
    function GetOr(fallback: T): T {
      match this
      case Some(v) => v
      case None => fallback
    }

    /** `x ?? other` where both sides are optional */
    function Or(other: Option<T>): (r: Option<T>)
      ensures Some? ==> r == this
      ensures None? ==> r == other
    {
      if Some? then this else other
    }
  }
}
